=== FILE: README.md ===
# ProxyAuthK8S in Dafny

ProxyAuthK8S sits in front of Kubernetes API servers. A cluster operator describes each API server to expose with a `ProxyKubeApi` custom resource. A controller probes the backing Service and publishes the result as the resource's status. It caches the resource in Redis under a per-proxy identifier and requeues with a capped exponential backoff. An HTTP front end looks the proxy up in that cache and forwards the request to the cluster after filtering the headers. Users are authenticated from a bearer token: the front end asks the cluster for a `SelfSubjectReview` made with that token, and the OIDC-provider branch is still a `todo!`. A command-line tool (`kubectl proxyauth`) keeps a YAML configuration of the servers it knows. It stores per-cluster tokens in the operating system's keyring and lists kubeconfig contexts. Its `--set` switch changes the current context only in memory, for the rows of that run, and never writes the kubeconfig back.

This project models the decision logic of those pieces as pure Dafny functions and proves properties about them. The repository has an older and a newer copy of several components, and both are modelled.

- **Controller:** one reconciliation step computes the new status, the cache writes, the retry-counter update and the requeue delay. Error policies, leader gating, finalizer dispatch, the leader-election loop, and the older reconcile and cleanup are modelled as well.
- **Custom resource:** validation, identifiers, dashboard groups, group membership, probe classification, OIDC redirect choice, authentication and allowed-path configuration, Service port selection, certificate sources and default values.
- **Front end:** the redirect decision ladder, target-URL rewriting, header filtering, the `timeout=` parameter, bearer-token extraction, the 401 mapping, user defaulting and the visible-cluster projection.
- **Command-line tool:** server and cluster naming, keyring accounts, URL splitting, the `config get`, `set-def` and `clear` commands, context selection, verbosity and error conversion.

Redis is a `map<string, string>`. Every other external system is an input: a value, or a function parameter when it matters which call was made. The Kubernetes API, the keyring, HTTP, OIDC discovery, serde, YAML and the URL parser are all modelled this way. A Rust `HashMap`'s iteration order is an input enumeration of its keys. A `panic!`, a `todo!` or an `unwrap` on bad input becomes an explicit outcome variant, never a precondition.

Shared helpers:

- `Outcomes` defines `Option` and `Result`.
- `Strings` models Rust's `str::replace`, `split`, `starts_with` and decimal printing and parsing.
- `Bytes` handles bytes.
- `Utf8` implements RFC 3629.
- `Base64` implements the standard alphabet with canonical padding, section 4 of RFC 4648.

The base64 and UTF-8 round trips are proved in both directions.

## Model

| member | source | states |
|---|---|---|
| Status.DefaultStatus | libs/crd/src/status/mod.rs:6-11 | the derived default status is not exposed and carries neither a path nor an error |
| Status.NewStatus | libs/crd/src/status/mod.rs:14-20 | `new` keeps exposed, path and error exactly as given |
| Status.GetPatch | libs/crd/src/status/mod.rs:21-27 | the patch is an Apply patch with apiVersion "weebo.si.rs/v1", kind "ProxyKubeApi" and the status itself |
| Status.GetPatchInjective | libs/crd/src/status/mod.rs:21-27 | two patches are equal exactly when the statuses are: the patch depends on the status alone and does not alter it |
| SecurityConfig.DefaultFail2Login | libs/server/crd/src/security/fail2login_equal_ban_configuration.rs:28-37 | the default ban settings are disabled, without exponential backoff, with 5 failed logins and a 300-second ban |
| SecurityConfig.DefaultSecurity | libs/server/crd/src/security/mod.rs:23-32 | the default security section is enabled, uses the default ban settings and has no per-group limits and no allowed resources |
| SecurityConfig.ReadFail2Login | libs/server/crd/src/security/mod.rs:37-55 | a ban field that is present is kept as written; each missing one takes its serde default |
| SecurityConfig.ReadSecurity | libs/server/crd/src/security/mod.rs:8-21 | `enabled` and the per-group list keep a present value; the ban section is read field by field; the allowed resources, which have no default, are kept |
| SecurityConfig.DefaultFail2LoginIsEmptyRead | libs/server/crd/src/security/mod.rs:37-66 | the `Default` ban settings equal serde's reading of an empty ban section |
| SecurityConfig.DefaultSecurityIsEmptyRead | libs/server/crd/src/security/mod.rs:8-32 | the `Default` security section equals serde's reading of a section that leaves out every defaulted field |
| AuthConfig.Validate | libs/server/crd/src/authentication_configuration/mod.rs:31-44 | the section is refused exactly when it validates against the OIDC provider while the provider is disabled, and the refusal carries the source's message |
| AuthConfig.KubernetesAlwaysValid | libs/server/crd/src/authentication_configuration/mod.rs:34-43 | validating against Kubernetes is always accepted, whatever the OIDC settings |
| AuthConfig.ValidateIgnoresJwt | libs/server/crd/src/authentication_configuration/mod.rs:31-44 | replacing the JWT authenticator list never changes the verdict |
| AuthConfig.ReadOidcProvider | libs/server/crd/src/authentication_configuration/oidc_provider.rs:5-14 | a missing `enabled` reads as false and a missing `extra_scope` as ""; present fields are kept |
| AuthConfig.ReadAuthentication | libs/server/crd/src/authentication_configuration/mod.rs:20-29 | a missing `jwt` reads as [] and a missing `validate_against` as Kubernetes; present fields are kept |
| AuthConfig.MinimalSectionIsValid | libs/server/crd/src/authentication_configuration/mod.rs:27-44 | a section that leaves the validator to its default is always valid |
| AuthConfig.OidcWithoutEnabledIsInvalid | libs/server/crd/src/authentication_configuration/mod.rs:32-41 | choosing the OIDC provider without setting `enabled: true` is refused |
| AllowedPath.Captures | libs/server/crd/src/security/allowed_path_configuration.rs:30-31 | the scan yields parameter names made of word characters only |
| AllowedPath.CapturesOccur | libs/server/crd/src/security/allowed_path_configuration.rs:30-32 | every name the scan yields appears in the path between double braces |
| AllowedPath.CapturesWithoutBrace | libs/server/crd/src/security/allowed_path_configuration.rs:30-31 | a path without an opening brace holds no parameter |
| AllowedPath.CapturesOfTemplate | libs/server/crd/src/security/allowed_path_configuration.rs:44-48 | a parameter after brace-free text is the first name found and the scan resumes right after it, so names come out in order with duplicates kept |
| AllowedPath.FirstInvalid | libs/server/crd/src/security/allowed_path_configuration.rs:31-36 | finds the first name that is neither `username` nor `group`, and finds none exactly when every name is one of them |
| AllowedPath.Validate | libs/server/crd/src/security/allowed_path_configuration.rs:27-39 | a plain path always passes; a parametised path fails exactly when some parameter is neither `username` nor `group`, and the message names the first such parameter in the path |
| AllowedPath.ExtractParameters | libs/server/crd/src/security/allowed_path_configuration.rs:41-51 | a plain path has no parameters; each extracted name is a word that appears in the path as `{{name}}`, and for a parametised path every word that appears as `{{name}}` is extracted |
| AllowedPath.CapturesComplete | libs/server/crd/src/security/allowed_path_configuration.rs:30-31 | the scan misses no `{{word}}` in the path, since no match can start inside an earlier one |
| AllowedPath.MatchAtStartOfOccurrence | libs/server/crd/src/security/allowed_path_configuration.rs:30 | a `{{word}}` at the head of the text is the match the pattern finds there, with that word as its name |
| AllowedPath.ValidateAgreesWithExtraction | libs/server/crd/src/security/allowed_path_configuration.rs:27-51 | a parametised path validates exactly when every parameter `extract_parameters` returns is allowed |
| AllowedPath.WithUsernameReplacesAll | libs/server/crd/src/security/allowed_path_configuration.rs:57-59 | the `contains` guard before replacing the username changes nothing |
| AllowedPath.ToPossiblePaths | libs/server/crd/src/security/allowed_path_configuration.rs:53-71 | a plain path gives itself; a template without `{{group}}` gives one path with every `{{username}}` replaced; a template with `{{group}}` gives one path per group, in group order, with both tokens replaced |
| AllowedPath.PlainTemplateExpandsToItself | libs/server/crd/src/security/allowed_path_configuration.rs:53-66 | a parametised path without any brace expands to itself alone |
| AllowedPath.ExpandUserGroupTemplate | libs/server/crd/src/security/allowed_path_configuration.rs:53-71 | a template of brace-free text around `{{username}}` and then `{{group}}` expands, for each group in order, to the text with the user's name and that group filled in |
| AllowedPath.ExpandUserTemplate | libs/server/crd/src/security/allowed_path_configuration.rs:53-71 | a template of brace-free text around a single `{{username}}` expands to the one path with the user's name filled in, whatever the groups |
| AllowedPath.GroupTemplateWithoutGroups | libs/server/crd/src/security/allowed_path_configuration.rs:60-63 | a `{{group}}` template expands to no path for a user in no group |
| AllowedPath.HasWildcard | libs/server/crd/src/security/allowed_path_configuration.rs:73-75 | true exactly when the path contains `*` |
| ProxyResource.NameAny | libs/server/crd/src/lib.rs:75 | the name, else the generate-name prefix, else "" |
| ProxyResource.Validate | libs/server/crd/src/lib.rs:58-70 | a disabled proxy is valid; an enabled one fails with the authentication section's error when it has one, else with the security section's, and passes when both sections are absent |
| ProxyResource.DisabledIsValid | libs/server/crd/src/lib.rs:58-70 | switching a proxy off makes any configuration valid |
| ProxyResource.SecurityVerdictDecidesAfterAuth | libs/server/crd/src/lib.rs:59-68 | once the authentication section passes or is absent, the verdict is the security section's |
| ProxyResource.ToPath | libs/server/crd/src/lib.rs:78-84 | the path is the namespace (empty when there is none), one '/', then the resource's name |
| ProxyResource.ToIdentifier | libs/server/crd/src/lib.rs:71-84 | the cache key is "proxyk8sauth:" followed by the path "{namespace}/{name}" |
| ProxyResource.ToFullPath | libs/server/crd/src/lib.rs:85-91 | the URL is the cluster base, "/clusters/" and the path |
| ProxyResource.ToPathSplits | libs/server/crd/src/lib.rs:78-84 | the namespace is the path's first '/'-separated piece and the name is the rest |
| ProxyResource.IdentifierInjective | libs/server/crd/src/lib.rs:71-77 | two resources share a cache key only when they share namespace and name |
| ProxyResource.DashboardGroup | libs/server/crd/src/lib.rs:92-101 | the configured group, else "dashboard-{namespace}-{name}" |
| ProxyResource.IsUserAllowed | libs/server/crd/src/lib.rs:102-108 | true exactly when the proxy is exposed on the dashboard and some group of the user equals its dashboard group |
| ProxyResource.HiddenProxyAllowsNobody | libs/server/crd/src/lib.rs:104-106 | a proxy hidden from the dashboard admits no user, whatever the groups |
| ProxyResource.IsReachable | libs/server/crd/src/lib.rs:112-156 | a failed Service lookup reads as unreachable; a client build error is returned; a status in 2xx or 4xx, on a response or on an error, reads as reachable and any other status as unreachable; a transport error without a status is returned as an error |
| ProxyResource.RedirectsAndServerErrorsAreUnreachable | libs/server/crd/src/lib.rs:128-135 | 3xx and 5xx statuses read as unreachable |
| ProxyResource.ProbeErrorCauses | libs/server/crd/src/lib.rs:122-155 | the probe fails only when the client cannot be built or the transport fails without a status |
| ProxyResource.RedirectOidcUrl | libs/server/crd/src/lib.rs:180-201 | the front-end callback when asked for, else the kubectl callback when given, else the cluster's own callback, each ending in the resource's path |
| ProxyResource.FrontTakesPrecedence | libs/server/crd/src/lib.rs:186-195 | with the front-end flag set, a kubectl callback changes nothing |
| ProxyResource.OidcConfOf | libs/server/crd/src/lib.rs:202-249 | settings exist exactly when any kubectl callback parses as the bare "localhost" address and the OIDC provider is configured and enabled; the audience is the client id, the scopes are the extra scope and the redirect URL is the chosen callback |
| ProxyResource.BadKubectlCallbackRefused | libs/server/crd/src/lib.rs:208-226 | a kubectl callback on another host yields no settings, even when the front-end flag would ignore it |
| Base64.DecodeEncode | libs/crd/src/certificate/mod.rs:56-60 | decoding the standard padded Base64 encoding of any bytes gives those bytes back |
| Base64.EncodeDecode | libs/crd/src/certificate/mod.rs:37-39 | an accepted Base64 text is the canonical encoding of what it decodes to |
| Utf8.DecodeEncode | libs/crd/src/certificate/mod.rs:61-64 | the UTF-8 bytes of any text decode back to that text |
| Utf8.EncodeDecode | libs/crd/src/certificate/mod.rs:34-35 | bytes accepted as UTF-8 are the encoding of the text they decode to |
| Certificate.FromSecretData | libs/crd/src/certificate/mod.rs:33-40 | the bytes are accepted exactly when they are UTF-8 text that is valid Base64; bytes that are not UTF-8 fail with InvalidUtf8 and a text that is not Base64 fails with InvalidBase64; success yields a certificate of one-byte characters whose Base64 text, in UTF-8, is exactly the accepted bytes |
| Certificate.SecretDataIsCanonical | libs/crd/src/certificate/mod.rs:33-40 | accepted `data` bytes are the UTF-8 bytes of the Base64 text of what they decode to |
| Certificate.FromBase64Text | libs/crd/src/certificate/mod.rs:46-49 | the text is accepted exactly when it is valid Base64 whose bytes are UTF-8; a text that is not Base64 fails with the caller's error and bytes that are not UTF-8 fail with InvalidUtf8; success yields a certificate whose UTF-8 bytes, in Base64, are exactly the accepted text |
| Certificate.GetCert | libs/crd/src/certificate/mod.rs:21-68 | `Insecure` yields no certificate whatever its flag; an inline text and a Secret key are decoded; the Secret is looked up in its own namespace, else the resource's; `data` is consulted before `string_data`; a missing key, a Secret with neither map and a failed lookup are errors |
| Certificate.InlineRoundTrip | libs/crd/src/certificate/mod.rs:56-65 | any certificate written inline as Base64 of its UTF-8 bytes comes back unchanged |
| Certificate.InlineIsCanonical | libs/crd/src/certificate/mod.rs:56-65 | only the canonical inline form is accepted: an accepted text is the encoding of the certificate it yields |
| Certificate.StringDataRoundTrip | libs/crd/src/certificate/mod.rs:45-49 | a `string_data` entry holding a certificate's encoding yields that certificate when `data` is absent |
| Certificate.SecretDataRoundTrip | libs/crd/src/certificate/mod.rs:32-40 | a `data` entry holding the Base64 text of a one-byte-per-character certificate yields that certificate |
| Certificate.DataShadowsStringData | libs/crd/src/certificate/mod.rs:32-44 | once `data` is present, a key missing from it is an error even when `string_data` holds the key |
| Service.FindPort | libs/crd/src/service/mod.rs:42-43 | finds the first port the selector accepts, and none exactly when no port is accepted |
| Service.UrlToCall | libs/crd/src/service/mod.rs:27-118 | an external URL is returned unchanged; a Service is looked up in its own namespace, else the resource's; a missing spec or port list, or no matching port, is the source's error; otherwise the URL is "https://{host}:{port}" for the first matching port, with the node port preferred and the cluster IP else "{name}:{namespace}" as host |
| Service.PortNumberTakesPrecedence | libs/crd/src/service/mod.rs:41-66 | when the port number is set the port name is never consulted |
| Service.EmptyPortListHasNoPort | libs/crd/src/service/mod.rs:92-111 | with neither number nor name, an empty port list is the same error as a missing one |
| Service.KubernetesUrlIsHttps | libs/crd/src/service/mod.rs:45-105 | every URL built from a Service starts with "https://" |
| LegacyCrd.ToIdentifier | libs/crd/src/lib.rs:50-56 | the older cache key is "{namespace}/{name}" without a prefix, a missing namespace giving "" |
| LegacyCrd.IdentifierSplits | libs/crd/src/lib.rs:50-56 | the namespace is the first '/'-separated piece of the key |
| LegacyCrd.ToJson | libs/crd/src/lib.rs:57-59 | a value that fails to serialise is written as "" |
| LegacyCrd.FromJson | libs/crd/src/lib.rs:60-62 | text that does not parse gives no value, and text that parses gives the parsed value |
| LegacyCrd.JsonRoundTrip | libs/crd/src/lib.rs:57-62 | whenever the JSON library reads back what it wrote, so do the wrappers |
| Json.ToJson | libs/server/crd/src/lib.rs:320-322 | a value that fails to serialise is written as "" |
| Json.FromJson | libs/server/crd/src/lib.rs:323-325 | text that does not parse gives no value, and text that parses gives the parsed value |
| Json.RoundTrip | libs/server/crd/src/lib.rs:319-326 | whenever the JSON library reads back what it wrote, so do the wrappers |
| Json.FailedWriteReadsAsMissing | libs/server/crd/src/lib.rs:319-326 | a value that failed to serialise reads back as missing rather than as a wrong value |
| Backoff.AttemptsFromReply | libs/server/controller/src/proxy_kube_api/reconcile.rs:96-109 | a failed `INCR` and a reply of at most 1 count as one attempt; a reply that fits in 32 bits is the count; a larger one keeps its low 32 bits |
| Backoff.RetryDelay | libs/server/controller/src/proxy_kube_api/reconcile.rs:111-114 | the error delay always lies between 300 seconds and one hour |
| Backoff.DoublingDelayClosedForm | libs/server/controller/src/proxy_kube_api/reconcile.rs:111-114 | the reference schedule is 300·2^(n-1) seconds, capped at one hour |
| Backoff.RetryDelayUnsaturated | libs/server/controller/src/proxy_kube_api/reconcile.rs:111-114 | neither saturating operation is ever reached: the delay is 300·2^exponent, capped at one hour |
| Backoff.RetryDelayIsCappedDoubling | libs/server/controller/src/proxy_kube_api/reconcile.rs:111-114 | the saturating computation equals the reference schedule: 300 seconds for the first failure, each further failure doubling the previous delay up to one hour |
| Backoff.LongFailureIsCapped | libs/server/controller/src/proxy_kube_api/reconcile.rs:111-114 | after more than seventeen failures, where the exponent stops at 16, both schedules sit at one hour |
| Backoff.ShortFailureDoubles | libs/server/controller/src/proxy_kube_api/reconcile.rs:111-114 | up to seventeen failures the computation matches the reference schedule |
| Backoff.DoublingDelayMonotone | libs/server/controller/src/proxy_kube_api/reconcile.rs:111-114 | the reference schedule stays between 300 and 3600 seconds and never goes down |
| Backoff.RetryDelayMonotone | libs/server/controller/src/proxy_kube_api/reconcile.rs:111-114 | more failures never shorten the wait |
| Backoff.RetryDelaySchedule | libs/server/controller/src/proxy_kube_api/reconcile.rs:111-114 | the delays are 300, 600, 1200 and 2400 seconds, then one hour from the fifth failure on |
| Backoff.CounterWrapRestartsSchedule | libs/server/controller/src/proxy_kube_api/reconcile.rs:101 | the `as u32` cast makes a counter of 2^32 read as zero attempts, so the delay falls back from one hour to 300 seconds |
| RedisCache.Set | libs/server/controller/src/proxy_kube_api/reconcile.rs:84-94 | a delivered `SET` stores the value under its key; a lost one changes nothing; other keys are untouched |
| RedisCache.Incr | libs/server/controller/src/proxy_kube_api/reconcile.rs:96-100 | `INCR` replies one more than the stored count (a missing key counting as 0) and stores it; it fails, changing nothing, when the command is lost, the value is not a 64-bit integer, or it would overflow; other keys are untouched |
| RedisCache.Del | libs/server/controller/src/proxy_kube_api/reconcile.rs:118-127 | a delivered `DEL` removes the key and replies how many keys it removed; a lost one changes nothing; other keys are untouched |
| RedisCache.IncrAdvances | libs/server/controller/src/proxy_kube_api/reconcile.rs:96-101 | on a counter holding n, or absent for 0, `INCR` replies n+1 and stores n+1 |
| RedisCache.IncrCounts | libs/server/controller/src/proxy_kube_api/reconcile.rs:96-101 | a counter that starts absent reads n after n increments |
| Reconcile.RetryKeyIsNotIdentifier | libs/server/controller/src/proxy_kube_api/reconcile.rs:16-18 | a resource's record and its failure counter never share a key |
| Reconcile.DecideStatus | libs/server/controller/src/proxy_kube_api/reconcile.rs:27-74 | the status is exposed exactly when it carries no error, and exactly when the configuration is valid and the probe says reachable; an exposed status has path "/clusters/{path}" and the others none; each failure carries its own message |
| Reconcile.ProbeSkippedWhenInvalid | libs/server/controller/src/proxy_kube_api/reconcile.rs:27-44 | after a failed configuration check the probe's outcome never matters |
| Reconcile.PatchTargetOf | libs/server/controller/src/proxy_kube_api/reconcile.rs:21-24 | the patch addresses the resource's namespace, else "default", and its name, else "unknown" |
| Reconcile.CountAttempt | libs/server/controller/src/proxy_kube_api/reconcile.rs:95-129 | only the counter key changes; a failure runs `INCR` and waits the backoff for its reply; a success waits one hour and, when `DEL` arrives, removes the counter |
| Reconcile.ReconcileStep | libs/server/controller/src/proxy_kube_api/reconcile.rs:11-139 | a cache-connection failure is returned before anything is written or patched; otherwise the decided status is patched; only the record key and the counter key change; a delivered `SET` stores the resource with its new status; a failed patch is returned as a Kubernetes error; any requeue lies between 300 and 3600 seconds; an exposed proxy whose patch succeeds waits one hour, whether or not `DEL` reaches the cache, and when `DEL` is lost its counter keeps what it held; a failing proxy leaves the cache as `INCR` on the counter leaves it and waits the backoff for the count `INCR` replies, one attempt when `INCR` fails |
| Reconcile.FailedIncrWaitsBaseDelay | libs/server/controller/src/proxy_kube_api/reconcile.rs:95-116 | when `INCR` on the counter fails, because it is lost or the counter holds no count, a failing step waits five minutes |
| Reconcile.FailureAdvancesCounter | libs/server/controller/src/proxy_kube_api/reconcile.rs:95-116 | a failing step moves the counter from n to n+1 and waits the backoff delay for n+1 attempts |
| Reconcile.SuccessResetsCounter | libs/server/controller/src/proxy_kube_api/reconcile.rs:117-129 | a successful step removes the counter and waits exactly one hour |
| Reconcile.LostResetStillSucceeds | libs/server/controller/src/proxy_kube_api/reconcile.rs:117-129 | a lost `DEL` is only logged: the successful step still waits exactly one hour and the counter keeps what it held |
| Reconcile.PatchFailureKeepsCacheEffects | libs/server/controller/src/proxy_kube_api/reconcile.rs:81-138 | a failed status patch leaves the cache exactly as a successful one would, and returns the Kubernetes error |
| Controller.ErrorPolicy | libs/server/controller/src/proxy_kube_api/mod.rs:21-42 | a follower requeues after one hour and the leader after five seconds |
| Controller.ErrorPolicyIgnoresError | libs/server/controller/src/proxy_kube_api/mod.rs:22-41 | the policy depends on leadership only, never on the kind of error |
| Controller.WrapHandlerError | libs/server/controller/src/proxy_kube_api/mod.rs:74-87 | a handler's error comes back wrapped by the event that raised it |
| Controller.MainReconcile | libs/server/controller/src/proxy_kube_api/mod.rs:44-88 | a follower requeues after one hour and runs nothing; a resource without namespace is an invalid-resource error; otherwise Apply runs the reconciliation and Cleanup the cleanup, with their errors wrapped as finalizer errors, and a bookkeeping failure of the finalizer runs neither |
| Controller.FollowerDoesNothing | libs/server/controller/src/proxy_kube_api/mod.rs:49-57 | a follower leaves the cache untouched and comes back after the same hour the error policy would wait |
| Controller.LeaseParamsOf | libs/server/controller/src/lib.rs:33-42 | the lease is "proxy-auth-k8s-leader-election", held under the instance's name, and lives at least three renewal ticks |
| Controller.NextLeaderFlag | libs/server/controller/src/lib.rs:58-68 | after a renewal attempt the instance is leader exactly when the call succeeded with `Acquired` |
| Controller.RunLoop | libs/server/controller/src/lib.rs:43-74 | the loop exits exactly when the controller stream finishes, right after handling it; every tick before sets the leader flag from its own renewal attempt |
| Controller.TicksNeverExit | libs/server/controller/src/lib.rs:58-73 | ticks alone never end the loop, whatever the lease calls return |
| Controller.StartupOutcome | libs/server/controller/src/lib.rs:21-30 | the controller starts exactly when the initial listing succeeds, and otherwise panics with the listing's error |
| LegacyController.StatusForProbe | libs/controller/src/proxy_kube_api/reconcile.rs:22-81 | the status is exposed exactly when it carries no error and exactly when the probe says reachable; each failure carries its own message |
| LegacyController.ReconcileStep | libs/controller/src/proxy_kube_api/reconcile.rs:11-87 | an unreachable or failed probe patches the status, writes nothing and requeues after 300 seconds; a reachable one needs the cache connection, stores the resource when the `SET` arrives, publishes the exposed status and requeues after one hour; a failed patch is returned as a Kubernetes error |
| LegacyController.PublishedStatusConsistent | libs/controller/src/proxy_kube_api/reconcile.rs:22-86 | every published status has `exposed` exactly when it has no error |
| LegacyController.CleanupStep | libs/controller/src/proxy_kube_api/cleanup.rs:11-24 | cleanup deletes the record's key and no other key, tells the runtime to wait for the next change, and fails only when the cache connection fails |
| LegacyController.CleanupIdempotent | libs/controller/src/proxy_kube_api/cleanup.rs:15-23 | cleanup answers the same whether or not the record existed, and a second cleanup changes nothing |
| LegacyController.ErrorPolicy | libs/controller/src/proxy_kube_api/mod.rs:20-33 | every error requeues after five seconds |
| LegacyController.MainReconcile | libs/controller/src/proxy_kube_api/mod.rs:35-71 | no leader check; a resource without namespace is an invalid-resource error; Apply runs the reconciliation and Cleanup the cleanup, with their errors wrapped as finalizer errors |
| Headers.ValueText | libs/server/api/src/cluster/redirect/kube_redirect.rs:126-131 | a value reads as text exactly when every byte is visible ASCII, and then reads as those characters |
| Headers.PassingAsTextFacts | libs/server/api/src/cluster/redirect/kube_redirect.rs:115-132 | the copy never holds an excluded name, each copied header comes from a passing input header, and every passing header is copied |
| Headers.PassingAsTextAppend | libs/server/api/src/cluster/redirect/kube_redirect.rs:115-132 | copying a concatenation copies each part, so passing headers keep their relative order |
| Headers.Forwardable | libs/server/api/src/cluster/redirect/kube_redirect.rs:115-132 | the forwarded list never holds `connection`, `transfer-encoding`, `content-length` or `host` in any letter case, holds only readable input headers, and holds every one of them |
| Headers.ForwardableAppend | libs/server/api/src/cluster/redirect/kube_redirect.rs:115-132 | filtering a concatenation filters each part |
| Headers.AllAsText | libs/api/src/cluster/redirect/redirect.rs:78-81 | when every value is readable, the older copy keeps every header, in order, as text |
| Headers.FirstUnreadable | libs/api/src/cluster/redirect/redirect.rs:78-81 | finds a header whose value is not visible ASCII, and finds none exactly when all values are readable |
| KubeRedirect.CacheKeyIsIdentifier | libs/server/api/src/cluster/redirect/kube_redirect.rs:27 | the key the proxy looks up for a namespace and name is the key the controller writes for that resource |
| KubeRedirect.TargetUrl | libs/server/api/src/cluster/redirect/kube_redirect.rs:54-65 | a path that starts with "/clusters/{ns}/{cluster}" and does not name the proxy again is sent to the Service URL followed by the rest of the path; a path that never names the proxy is sent unchanged; either way "?" and the query follow only when the query is not empty |
| KubeRedirect.TargetUrlOfPrefixedPath | libs/server/api/src/cluster/redirect/kube_redirect.rs:55-58 | a path made of the proxy prefix and a rest becomes the Service URL followed by that rest |
| KubeRedirect.FirstTimeoutValue | libs/server/api/src/cluster/redirect/kube_redirect.rs:137-143 | picks the first query parameter that starts with "timeout=", with "timeout=" removed, and none exactly when no parameter starts so |
| KubeRedirect.UpstreamTimeout | libs/server/api/src/cluster/redirect/kube_redirect.rs:136-149 | a timeout is set exactly when the first "timeout=" value parses as a u64, and it is one second more than requested, never zero |
| KubeRedirect.SingleTimeoutParameter | libs/server/api/src/cluster/redirect/kube_redirect.rs:136-144 | in the query "timeout={n}" the timeout text is n's digits, which parse back to n |
| KubeRedirect.UpstreamTimeoutOfValue | libs/server/api/src/cluster/redirect/kube_redirect.rs:144-146 | the timeout depends on the query only through the parsed value |
| KubeRedirect.TimeoutIsOneMore | libs/server/api/src/cluster/redirect/kube_redirect.rs:144-146 | for a requested n below the largest u64, both the source's computation and the corrected one give n+1 seconds |
| KubeRedirect.UpstreamTimeoutAsWritten | libs/server/api/src/cluster/redirect/kube_redirect.rs:144-146 | the source's timeout is set exactly when the corrected one is; it is zero exactly when the requested value is the largest u64, and otherwise equals the corrected one |
| KubeRedirect.TimeoutOverflowAsWritten | libs/server/api/src/cluster/redirect/kube_redirect.rs:146 | at the largest u64 the source's `timeout_secs + 1` wraps to a zero timeout, while the corrected one keeps the largest |
| KubeRedirect.ForwardedHeaders | libs/server/api/src/cluster/redirect/kube_redirect.rs:114-135 | the upstream gets the filtered request headers, then `x-forwarded-for` with the client's address when it is known |
| KubeRedirect.ForwardedHeadersExcludeHopByHop | libs/server/api/src/cluster/redirect/kube_redirect.rs:114-135 | no forwarded header is one of the four excluded ones |
| KubeRedirect.ResponseHeaders | libs/server/api/src/cluster/redirect/kube_redirect.rs:162-182 | the client gets only readable upstream headers with names that are not excluded, and all of them |
| KubeRedirect.ResponseHeadersAsWritten | libs/server/api/src/cluster/redirect/kube_redirect.rs:162-182 | the source's response has a value for the name of every upstream header that passes the filter, and each value is that of a passing upstream header with that name |
| KubeRedirect.AsWrittenKeepsLastValue | libs/server/api/src/cluster/redirect/kube_redirect.rs:174-177 | the source answers each header name with the value of the last passing upstream header of that name |
| KubeRedirect.AsWrittenHasSameNames | libs/server/api/src/cluster/redirect/kube_redirect.rs:162-182 | the source's response carries exactly the header names of the corrected one, each with one of the corrected response's values |
| KubeRedirect.RepeatedHeaderCollapsesAsWritten | libs/server/api/src/cluster/redirect/kube_redirect.rs:174-177 | two `warning` headers from the upstream reach the client as the second one alone, while the corrected copy keeps both |
| KubeRedirect.Redirect | libs/server/api/src/cluster/redirect/kube_redirect.rs:11-187 | a cache-connection or lookup failure is a 503 carrying the error; a missing or unparsable record, a disabled proxy and a Service URL failure are each a 404; a client build or send failure is a 503; otherwise the upstream's status and filtered headers come back with its body streamed |
| KubeRedirect.RefusalsAreNotFoundOrUnavailable | libs/server/api/src/cluster/redirect/kube_redirect.rs:20-157 | every response that is not the upstream's is a 404 or a 503 |
| KubeRedirect.RecordedProxyIsServed | libs/server/api/src/cluster/redirect/kube_redirect.rs:27-157 | a resource the controller recorded, enabled and with a resolvable Service, is forwarded: a 404 then can only be the upstream's own |
| LegacyRedirect.RequestUri | libs/api/src/cluster/redirect/redirect.rs:44-47 | the URI is the path, then "?" and the query exactly when the request had a "?", an empty query included |
| LegacyRedirect.TargetUrl | libs/api/src/cluster/redirect/redirect.rs:38-52 | the older target rewrites the whole request URI, query included: a URI that starts with "/clusters/{ns}/{cluster}" and does not name the proxy again is sent to the Service URL followed by the rest of the URI, a URI that never names the proxy is sent unchanged, and unless the query names the proxy or is a bare "?" the target is the newer handler's |
| LegacyRedirect.TargetUrlAgreesWithNewer | libs/api/src/cluster/redirect/redirect.rs:44-47 | when the query does not mention the proxy prefix and is not a bare "?", the older and newer handlers send the same URL |
| LegacyRedirect.BareQueryMarkIsForwarded | libs/api/src/cluster/redirect/redirect.rs:44-47 | a URI ending in a bare "?" keeps it in the older target, while the newer handler drops it |
| LegacyRedirect.ResponseHeaders | libs/api/src/cluster/redirect/redirect.rs:97-102 | the client gets every upstream header except `connection` |
| LegacyRedirect.ForwardedHeaders | libs/api/src/cluster/redirect/redirect.rs:78-84 | the older handler forwards every request header as text, in order, then `x-forwarded-for` with the client's address when it is known |
| LegacyRedirect.Redirect | libs/api/src/cluster/redirect/redirect.rs:11-106 | the same ladder of 503 and 404 answers without the `enabled` check; a request header that is not visible ASCII panics the handler; otherwise the upstream's answer is streamed back |
| LegacyRedirect.DisabledProxyIsServed | libs/api/src/cluster/redirect/redirect.rs:30-52 | the older handler forwards to a proxy whose `enabled` is false |
| AuthHelper.IntoHttpResponse | libs/server/api/src/helper/mod.rs:15-27 | every error becomes a plain-text 401 whose body is the error's own message |
| AuthHelper.IntoActixError | libs/server/api/src/helper/mod.rs:29-39 | every error becomes a 401 framework error carrying the error's own message |
| AuthHelper.AnswersAgree | libs/server/api/src/helper/mod.rs:4-39 | both 401 forms carry the same status and the text the error displays |
| AuthHelper.FirstNamed | libs/server/api/src/helper/mod.rs:44 | finds the first header of the name, and none exactly when no header has it |
| AuthHelper.ExtractAuthorizationHeader | libs/server/api/src/helper/mod.rs:42-62 | no `authorization` header is `NoToken`; an unreadable value is `InvalidTokenDetail`; a readable value that starts with "Bearer " gives the rest, and any other value is `InvalidToken` |
| AuthHelper.ExtractBearerRoundTrip | libs/server/api/src/helper/mod.rs:42-62 | a visible-ASCII token sent as "Bearer {token}" in the first `authorization` header is read back exactly, whatever other headers surround it |
| AuthHelper.FirstNamedAfter | libs/server/api/src/helper/mod.rs:44 | headers of other names in front do not hide the one looked for |
| AuthHelper.PrefixIsExact | libs/server/api/src/helper/mod.rs:47 | the prefix is case-sensitive and needs its space: "bearer …" and a bare "Bearer" are refused |
| User.IsInGroup | libs/server/api/src/model/user.rs:108-110 | true exactly when some group of the user equals the given one |
| User.UserOfClaims | libs/server/api/src/model/user.rs:79-101 | a missing e-mail or preferred username becomes ""; the groups are the claim's |
| User.ClaimsRoundTrip | libs/server/api/src/model/user.rs:79-101 | a provider that reports every field hands back the user it describes |
| User.FromRequest | libs/server/api/src/model/user.rs:28-104 | a token extraction failure is returned as its own 401; a missing server state, OIDC configuration or user-info request is a 500; a user-info failure of the catch-all kind is a 500 and any other kind a 401; every error is a 401 or a 500; otherwise the user comes from the claims the provider returns for that very token |
| User.ProviderUserIsReturned | libs/server/api/src/model/user.rs:35-102 | a client that sends "Bearer " and a token the provider knows gets that user back |
| User.ReviewEmail | libs/server/api/src/model/user.rs:169-176 | the e-mail is the first value listed under the review's "email" extra, else "" |
| User.UserOfReview | libs/server/api/src/model/user.rs:160-178 | every missing part of the review becomes "" or the empty list |
| User.ReviewRoundTrip | libs/server/api/src/model/user.rs:160-178 | a review that reports every field hands back the user it describes |
| User.AuthAgainstKubernetes | libs/server/api/src/model/user.rs:139-188 | a client build failure and a review failure are each reported with their message; otherwise the answer is the user the review describes |
| User.GetUserInfo | libs/server/api/src/model/user.rs:112-137 | a cache error or a missing proxy is an error; a proxy without authentication section gives no user; the OIDC choice reaches the unimplemented `todo!`; the Kubernetes choice asks the cluster |
| User.KubernetesUserHasReviewGroups | libs/server/api/src/model/user.rs:126-178 | a proxy checked against Kubernetes answers with the very user the cluster's review describes |
| LegacyUser.FromRequest | libs/api/src/model/user.rs:15-49 | a missing header, an unreadable value and a value without "Bearer " are each a 401 with the source's message; any accepted request gets the same placeholder user |
| LegacyUser.AcceptsWhatNewerExtracts | libs/api/src/model/user.rs:23-39 | the older check accepts exactly the headers the newer token extraction accepts |
| LegacyUser.TokenIsIgnored | libs/api/src/model/user.rs:40-47 | whatever the token, the user is the same placeholder |
| VisibleCluster.New | libs/api/src/api/get_all_visible_cluster_model.rs:17-31 | each field is stored as given |
| VisibleCluster.FromProxy | libs/api/src/api/get_all_visible_cluster_model.rs:34-45 | the entry copies `enabled`; a missing namespace or name becomes ""; single sign-on is on exactly when an authentication section exists with its OIDC provider enabled; reachability is always known and is true exactly when the published status says exposed |
| VisibleCluster.PublishedProxyListsReachable | libs/api/src/api/get_all_visible_cluster_model.rs:34-45 | a proxy the controller published as exposed is listed as reachable, under the namespace and name its cache key is built from |
| CliServerConfig.New | libs/cli/cli/src/cli_config/cli_server_config.rs:19-25 | a new server record keeps the URL, uses the namespace "default" and has no clusters |
| CliServerConfig.UrlToName | libs/cli/cli/src/cli_config/cli_server_config.rs:26-34 | the name contains neither '.' nor ':' |
| CliServerConfig.UrlToNameIdempotent | libs/cli/cli/src/cli_config/cli_server_config.rs:26-34 | naming a name gives the same name back |
| CliServerConfig.UrlToNameOfHost | libs/cli/cli/src/cli_config/cli_server_config.rs:31-34 | for a host and port without '/', the https and http URLs get the same name, which is the host and port with '.' and ':' turned into '-' |
| CliServerConfig.ClusterUrl | libs/cli/cli/src/cli_config/cli_server_config.rs:36-39 | there is always a URL: the server URL, then "/{namespace}/{name}", where a missing namespace means the server's own |
| CliServerConfig.ClustersFromNameNs | libs/cli/cli/src/cli_config/cli_server_config.rs:41-51 | a record is found exactly when "{namespace}/{name}" is a key, with a missing namespace meaning the server's own, and the record found is the one stored under that key |
| CliServerConfig.SplitClusterKey | libs/cli/cli/src/cli_config/cli_server_config.rs:233-235 | the namespace part never contains '/' |
| CliServerConfig.SplitClusterKeyRoundTrip | libs/cli/cli/src/cli_config/cli_server_config.rs:231-235 | splitting a key built from a namespace and cluster that have no '/' gives both back |
| CliServerConfig.GetToken | libs/cli/cli/src/cli_config/cli_server_config.rs:53-74 | a token is returned exactly when the entry can be created, the backend answers and an entry exists; it is the stored secret; each failure gives the source's read-error message |
| CliServerConfig.SetToken | libs/cli/cli/src/cli_config/cli_server_config.rs:76-97 | the keyring is updated exactly when both steps succeed; on failure it is unchanged and the write-error message says which step failed |
| CliServerConfig.DeleteToken | libs/cli/cli/src/cli_config/cli_server_config.rs:99-120 | deletion succeeds exactly when the entry exists and both steps succeed; only that entry is removed, and every other entry keeps its secret |
| CliServerConfig.TokenRoundTrip | libs/cli/cli/src/cli_config/cli_server_config.rs:53-120 | with a working keyring, a stored token reads back unchanged, and a deleted one can no longer be read |
| CliServerConfig.AccountsAreDistinct | libs/cli/cli/src/cli_config/cli_server_config.rs:142-173 | the server's keyring account never equals a cluster account; for namespaces without '/', two cluster accounts are equal only when namespace and cluster both are |
| CliServerConfig.SetClusterToken | libs/cli/cli/src/cli_config/cli_server_config.rs:142-173 | the record "{namespace}/{cluster}" exists afterwards: an existing record is kept and a missing one is added as new; this happens even when the keyring then fails; the keyring result is the one for the cluster's account |
| CliServerConfig.ClearAccounts | libs/cli/cli/src/cli_config/cli_server_config.rs:231-243 | only the listed accounts can lose their entries; each listed account whose deletion works is gone; an entry whose deletion fails stays; no surviving entry changes its secret |
| CliServerConfig.ClearAllTokens | libs/cli/cli/src/cli_config/cli_server_config.rs:231-243 | the server's token and every cluster's token are removed when their deletion works; an entry whose deletion fails stays, failures being only logged; every entry that is not the server's or one of its clusters' survives, and no surviving entry changes its secret |
| CliServerConfig.ClearAllRemovesStoredClusterToken | libs/cli/cli/src/cli_config/cli_server_config.rs:142-243 | a cluster token stored by set_cluster_token is present, and clear_all_tokens then deletes that same entry |
| CliConfig.DefaultServerName | apps/kubectl_proxyauth/src/cli_config/mod.rs:34-44 | the built-in server's URL "http://localhost:5437" is named "localhost-5437", the literal the code uses as the default server name |
| CliConfig.New | apps/kubectl_proxyauth/src/cli_config/mod.rs:20-44 | the configuration holds exactly one server: the built-in one, with namespace "default" and no clusters, stored under the default server name |
| CliConfig.GetClusterConfig | apps/kubectl_proxyauth/src/cli_config/mod.rs:60-70 | a record is found exactly when the named server exists (the default server when none is named) and that server has the cluster under the namespace given or its own; it is that server's record |
| CliConfig.UrlToTuple | apps/kubectl_proxyauth/src/cli_config/mod.rs:72-113 | a URL that does not parse, has no host, or has fewer than three path segments is refused with the source's message; otherwise the namespace and cluster are the second and third segments |
| CliConfig.ProxyUrlToTupleAsWritten | apps/kubectl_proxyauth/src/cli_config/mod.rs:72-113 | as written, a well-formed URL names the server after its host with '.' and ':' turned into '-', the port dropped, and the namespace and cluster are the second and third path segments; it fails exactly where the corrected form fails, with the same error |
| CliConfig.ProxyUrlToTuple | apps/kubectl_proxyauth/src/cli_config/mod.rs:72-113 | with the corrected name, a URL that does not parse, has no host, or has fewer than three segments is refused with the source's message; for a host without '/', the server name is the as-written name followed by "-{port}" when the URL gives a port |
| CliConfig.DashedPortName | apps/kubectl_proxyauth/src/cli_config/mod.rs:92 | naming "{host}:{port}" as `url_to_name` does keeps the port's digits after a '-' |
| CliConfig.ClusterConfigByInfo | apps/kubectl_proxyauth/src/cli_config/mod.rs:115-128 | a URL that cannot be split fails with the splitting error; otherwise the record is found exactly when the server and its cluster exist, and anything else is reported as ServerNotFound for that URL |
| CliConfig.GetClusterConfigByUrlAsWritten | apps/kubectl_proxyauth/src/cli_config/mod.rs:115-128 | as written, a URL that cannot be split fails with the splitting error; otherwise the record is found exactly when the host-named server holds the cluster "{ns}/{cluster}", and anything else is ServerNotFound for that URL |
| CliConfig.GetClusterConfigByUrl | apps/kubectl_proxyauth/src/cli_config/mod.rs:115-128 | with the corrected name, the same splitting errors as written, and the record found exactly when the server named from host and port holds the cluster "{ns}/{cluster}" |
| CliConfig.CorrectedNameMatchesServerKey | apps/kubectl_proxyauth/src/cli_config/mod.rs:92 | when the name is built from host and port, a cluster URL with an explicit port gets the name of the server stored under that host and port, whichever scheme either URL uses |
| CliConfig.HostOnlyNameMissesServerKey | apps/kubectl_proxyauth/src/cli_config/mod.rs:92 | the name built from the host alone, as the code does, never equals the key of a server stored with an explicit port |
| CliConfig.ExplicitPortLosesServerAsWritten | apps/kubectl_proxyauth/src/cli_config/mod.rs:115-128 | as written, a cluster recorded on a server with an explicit port is reported as ServerNotFound when looked up by its URL; with the corrected name it is found |
| CliConfig.BuiltInServerLostAsWritten | apps/kubectl_proxyauth/src/cli_config/mod.rs:115-128 | the URL in the code's own comment, "https://localhost:5437/clusters/default/local-sso", is such a case for the built-in server |
| CliConfig.WithCluster | apps/kubectl_proxyauth/src/cli_config/mod.rs:34-44 | adding a cluster record to the default server keeps the default name and the set of servers |
| CliErrors.DescribeConfigError | libs/cli/src/cli_config/error.rs:3-13 | the message is "CLIERROR000n: ", fourteen characters long, followed by the error's wording |
| CliErrors.Describe | libs/cli/src/error.rs:8-36 | the message is the nine-character code, then ": ", then the error's wording |
| CliErrors.CodeTextInjective | libs/cli/src/error.rs:8-36 | different error kinds carry different codes, so the code at the head of a message names the kind |
| CliErrors.FromConfigError | libs/cli/src/error.rs:38-51 | each configuration error becomes the tool error of the same name, with its payload kept, and only those four kinds can result |
| CliErrors.ConversionKeepsWording | libs/cli/src/error.rs:38-51 | the conversion changes only the code at the head of the message; the wording after it is the same |
| CliErrors.FromListingError | libs/cli/src/error.rs:53-67 | only a 401 becomes Unauthenticated, asking the user to log in again; a 500 or an unknown value becomes a remote-server error with the source's message |
| CliErrors.FromClientError | libs/cli/src/error.rs:69-84 | a decoded error body is converted as the listing error; a missing body, a decoding failure or anything else is a remote-server error with the source's message |
| CliErrors.OnlyUnauthorizedAsksForLogin | libs/cli/src/error.rs:53-84 | a client failure gets code 13 exactly when it is a decoded 401, and code 12 otherwise |
| CliContext.DetectKubeconfigPath | apps/kubectl_proxyauth/src/ctx.rs:138-151 | the flag wins, then `$KUBECONFIG`; otherwise there is a path exactly when `$HOME` is set and not empty, and it is "$HOME/.kube/config" |
| CliContext.ConfigPath | apps/kubectl_proxyauth/src/ctx.rs:86-94 | the flag wins; otherwise the path is "$HOME/.kube/proxyauth_config.yaml", and an empty or unset `$HOME` is exactly the ConfigPathCouldNotBeCalculated failure |
| CliContext.DefaultPathsDiffer | apps/kubectl_proxyauth/src/ctx.rs:86-151 | with no flags and no `$KUBECONFIG`, when a kubeconfig path is found the configuration path is found too, and the two are different files |
| CliContext.ToTracingVerboseLevel | apps/kubectl_proxyauth/src/ctx.rs:160-167 | no count or 0 gives INFO, 1 gives DEBUG and 2 or more give TRACE, each in both directions |
| CliContext.MoreFlagsMoreVerbose | apps/kubectl_proxyauth/src/ctx.rs:160-167 | more `-v` flags never give a less verbose level |
| CliContext.FlagsNeverSilence | apps/kubectl_proxyauth/src/ctx.rs:160-167 | the flag count never selects WARN or ERROR |
| CliContext.FindContext | apps/kubectl_proxyauth/src/context/mod.rs:17-21 | the index found is the first context with that name, and nothing is found exactly when no context has it |
| CliContext.ProjectAll | apps/kubectl_proxyauth/src/context/mod.rs:34-40 | there are no more rows than contexts, each comes from projecting some context, and every context that projects contributes its row |
| CliContext.ProjectAllSingle | apps/kubectl_proxyauth/src/context/mod.rs:34-40 | one context gives its own row when it projects and no row otherwise |
| CliContext.ProjectAllAppend | apps/kubectl_proxyauth/src/context/mod.rs:34-40 | the rows of two runs of contexts are the first run's rows followed by the second's, so rows keep the contexts' order |
| CliContext.RowsFor | apps/kubectl_proxyauth/src/context/mod.rs:41-64 | there is one row exactly when some context has the name and the first such context projects, and then the row is its projection; otherwise there are none |
| CliContext.HandleContext | apps/kubectl_proxyauth/src/context/mod.rs:11-68 | `--set` panics exactly when the name is missing or no context has it, and otherwise makes that name current in the in-memory kubeconfig, which is never saved; the contexts never change; `--list` shows every projecting context, a name shows that context, and with neither the current context is shown, a missing one counting as the empty name |
| CliContext.SwitchThenShowCurrent | apps/kubectl_proxyauth/src/context/mod.rs:11-68 | after switching to a context, showing the current context gives the same rows as naming the new context |
| CliContext.OnlySetSwitches | apps/kubectl_proxyauth/src/context/mod.rs:11-68 | without `--set` the command never panics and never changes the kubeconfig |
| Verbosity.Repr | libs/cli_trace/src/level.rs:5-13 | each level's discriminant lies between 0 and 4 |
| Verbosity.FromRepr | libs/cli_trace/src/level.rs:5-13 | a number is accepted exactly when it lies between 0 and 4 |
| Verbosity.ReprRoundTrip | libs/cli_trace/src/level.rs:5-13 | reading a level's discriminant back gives that level |
| Verbosity.FromReprIsCanonical | libs/cli_trace/src/level.rs:5-13 | every accepted number is the discriminant of the level it is read as |
| Verbosity.ToJson | libs/cli_trace/src/level.rs:5-13 | a level is written as a single decimal digit |
| Verbosity.JsonNat | libs/cli_trace/src/level.rs:5-13 | a JSON unsigned integer is a non-empty run of decimal digits with no leading zero, read as its decimal value |
| Verbosity.SmallJsonNat | libs/cli_trace/src/level.rs:5-13 | the JSON unsigned integers up to 4 are exactly the one-digit texts "0" to "4" |
| Verbosity.FromJson | libs/cli_trace/src/level.rs:5-13 | exactly the one-digit texts "0" to "4" are read, each as the level it is the discriminant of, and writing that level gives the text back; a leading zero is refused as JSON refuses it |
| Verbosity.JsonRoundTrip | libs/cli_trace/src/level.rs:5-13 | writing a level to JSON and reading it back gives that level |
| Verbosity.OrderIsTotal | libs/cli_trace/src/level.rs:5-13 | the derived order compares discriminants, and it is strict and total |
| Verbosity.ToLevel | libs/cli_trace/src/level.rs:15-25 | the tracing level is the one whose own filter is the filter the level converts to |
| Verbosity.ToLevelFilter | libs/cli_trace/src/level.rs:27-37 | the converted filter is never OFF |
| Verbosity.FilterAgreesWithLevel | libs/cli_trace/src/level.rs:15-37 | the filter conversion gives the tracing library's filter for the converted level |
| Verbosity.ToLevelInjective | libs/cli_trace/src/level.rs:15-25 | different levels convert to different tracing levels |
| Verbosity.Name | libs/cli_trace/src/level.rs:39-61 | the `Debug` and `Display` text is the level's name in capitals, the names in discriminant order being TRACE, DEBUG, INFO, WARN and ERROR |
| Verbosity.FromName | libs/cli_trace/src/level.rs:39-61 | a text is read as a level only when it is that level's name |
| Verbosity.NameRoundTrip | libs/cli_trace/src/level.rs:39-61 | every level's displayed name reads back as that level |
| CliCommands.NewConfigIsConsistent | apps/kubectl_proxyauth/src/cli_config/mod.rs:34-44 | a fresh configuration stores each server under its URL's name, and its default name points to a stored server |
| CliCommands.NewFromServer | apps/kubectl_proxyauth/src/config/get_output.rs:16-26 | a record is marked default exactly when the server's URL name is the default name; it copies the URL and namespace, and says whether any cluster is recorded |
| CliCommands.ToRow | apps/kubectl_proxyauth/src/config/get_output.rs:28-44 | a row has one cell per header, with the URL and namespace as they are and both flags written as readable booleans |
| CliCommands.RowRoundTrip | apps/kubectl_proxyauth/src/config/get_output.rs:28-44 | a row can be read back into the record it came from |
| CliCommands.NewVec | apps/kubectl_proxyauth/src/config/get_output.rs:55-63 | a list is "v1"/"List", has no metadata and keeps the items in order |
| CliCommands.ToOutput | apps/kubectl_proxyauth/src/config/get_output.rs:65-89 | JSON or YAML output is the serialiser's text, or "" when it fails; a table gets one row per item, and each row reads back as its item |
| CliCommands.SelectNames | libs/cli/cli/src/config/get.rs:37-56 | a server is kept exactly when its name starts with the filter URL's name and its namespace equals the filter namespace; kept names stay in iteration order and are never repeated |
| CliCommands.OutputsOf | libs/cli/cli/src/config/get.rs:37-56 | one record per server name given, in order |
| CliCommands.GetItems | libs/cli/cli/src/config/get.rs:18-57 | `--list` shows every server; with no filter, only the default server, if it is stored; otherwise the servers both filters keep |
| CliCommands.HandleGet | libs/cli/cli/src/config/get.rs:11-63 | as a table, the text has exactly one row per record shown |
| CliCommands.DefaultMarkMatchesName | libs/cli/cli/src/config/get.rs:18-57 | in a well-keyed configuration, a shown record is marked default exactly when its server is the default one |
| CliCommands.ListShowsEveryServer | libs/cli/cli/src/config/get.rs:21-28 | `--list` shows exactly as many records as there are stored servers |
| CliCommands.CountEnumeration | libs/cli/cli/src/config/get.rs:21-28 | a repeat-free pass over a set of keys has as many elements as the set |
| CliCommands.OwnUrlFilterFindsServer | libs/cli/cli/src/config/get.rs:38-45 | filtering by a stored server's own URL shows that server |
| CliCommands.NamespaceFilterIsExact | libs/cli/cli/src/config/get.rs:46-50 | filtering by namespace alone keeps exactly the servers with that default namespace |
| CliCommands.HandleSetDef | libs/cli/cli/src/config/set_def.rs:6-54 | `--default-server` alone decides, and makes a stored server the default; otherwise `--server-url` and `--namespace` together set that stored server's namespace and nothing else; the configuration is saved exactly when it changes, and is otherwise left alone |
| CliCommands.SetDefKeepsInvariants | libs/cli/cli/src/config/set_def.rs:6-54 | set-def keeps every server under its URL's name, and the default name still points to a stored server or is empty |
| CliCommands.SetDefaultThenGet | libs/cli/cli/src/config/set_def.rs:13-29 | after making a stored server the default, a plain `get` shows exactly that server, marked as the default |
| CliCommands.HandleClear | apps/kubectl_proxyauth/src/config/clear.rs:6-38 | `--all` saves the cleared configuration; `--server-url` forgets that server, empties the default name if it was that server (even when it is not stored), and saves only if the server was stored; with neither flag nothing changes |
| CliCommands.ClearKeepsInvariants | apps/kubectl_proxyauth/src/config/clear.rs:14-33 | clearing one server keeps both invariants |
| CliCommands.ClearedServerIsGone | apps/kubectl_proxyauth/src/config/clear.rs:14-33 | after clearing a server, `get --list` shows no record whose URL has that server's name |
| CliCommands.ClearingTheDefaultEmptiesIt | apps/kubectl_proxyauth/src/config/clear.rs:14-33 | making a server the default and then clearing it leaves no default |
| CliCommands.HandleConfigCommand | apps/kubectl_proxyauth/src/config/mod.rs:47-61 | set-def and clear run their handlers; get changes nothing and saves nothing |
| CliCommands.CommandsKeepInvariants | apps/kubectl_proxyauth/src/config/mod.rs:47-61 | every command except `clear --all` keeps both invariants |

## Left out

**External systems and runtime**
- I/O is not modelled: Redis connections, the Kubernetes API, the OS keyring, HTTP clients, OIDC discovery, file reads and writes, and the environment. Each result is an input to the function that uses it.
- Tracing and logging are left out. Where the source only logs a failure, the model records that nothing else changes.
- Async scheduling and concurrency are left out. The controller's `tokio::select!` loop is a sequence of events chosen by the caller, and the leader-election lease is an input.
- Streaming response bodies are not modelled: a body is a value that is passed through.
- Table rendering (`comfy_table`) is a function parameter. JSON and YAML serialisation are a `Codec` or renderer parameter, and only the wrappers' failure behaviour is modelled.

**Text and parsing**
- URL parsing (`reqwest::Url`) is an input: the host, port and path segments are given already parsed.
- AllowedPath.Captures: `\w` is modelled as the ASCII word characters, while Rust's `regex` crate matches Unicode word characters as well.
- `HeaderValue::to_str` is modelled as accepting exactly tab and the bytes 0x20-0x7E.
- The regular expression engine is not modelled in general. Only the `{{word}}` pattern the allowed-path code uses is written out.
- Verbosity.FromJson: the JSON text is the bare number, so whitespace around it, which JSON allows, is refused. The float forms "-0", "1.0" and "1e0" are refused, as a `u8` refuses them.

**Functions and types not in the source**
- `get_client`, `to_kubeconfig` and `to_kube_client` (building a kube client for a proxy) are not modelled. Whether the client is built, and what it answers, are inputs.
- SecurityConfig.SecurityConfiguration: `allowed_ressources` is a list of `AllowedPathConfigurationEnum`, whose variants are `Path` and `Crd` (security/mod.rs:20, 97-100). The model keeps only the `Path` variant, because no modelled operation reads `AllowedCrdConfiguration` and its namespace access rules.
- `SecurityConfiguration::validate` is called but its body is not in the source. Its verdict is an input.
- The `JwtAuthenticators` choice of `validate_against` exists only as a TODO comment and is not modelled. The `jwt` list is carried as data that validation never reads.
- `get_object_from_redis` is not in the source. The cache lookup's outcome is an input.
- `CliConfig::clear`, `read_from_file`, `write_to_file` and `GetContextOutput::new_from_kubeconfig` are not in the source. The cleared configuration and the context projection are function parameters, and saving is a flag.
- apps/kubectl_proxyauth/src/cli_config/error.rs and the tool's own error.rs are not part of this model. The command-line errors follow libs/cli/src/error.rs and libs/cli/src/cli_config/error.rs.

**Older and newer copies**
- The newer tree's `cleanup` module (libs/server/controller/src/proxy_kube_api/cleanup.rs) is not part of this model. The newer main reconcile receives its cleanup handler as a function parameter, and the older `clean_proxy_kube_api` is modelled in full.
- The older libs/crd/src/lib.rs has no `to_path`, although the older reconcile calls it. The model uses the older `to_identifier`'s "{ns}/{name}", which is what the older identifier rendering gives.
- libs/api/src/api/get_all_visible_cluster_model.rs reads `spec.enabled` and an optional `auth_config`, which the older libs/crd resource lacks. The projection is modelled over the newer resource, which has both.
- libs/cli/cli/src/config/get.rs builds a `GetOutput` whose file in that tree is not part of the source. The shape in apps/kubectl_proxyauth/src/config/get_output.rs is used.
- LegacyRedirect.Redirect: decodes the older tree's cached record as the newer `ProxyResource.ProxyKubeApi`. The older resource (libs/crd/src/lib.rs:24-39) has no `service` field, although the older redirect reads one (libs/api/src/cluster/redirect/redirect.rs:38-41), so the newer resource, which has it, stands in.
- LegacyController.ReconcileStep: a failed cache connection is returned as `RedisPool`, and so is one in `LegacyController.CleanupStep`. The older code passes that failure on with `?` (reconcile.rs:65, cleanup.rs:15), but the older libs/controller/src/error.rs:4-20 declares no variant for it, so the newer error type's variant stands in.
- The `ProxyAuthK8sError` of libs/cli/src/error.rs has no `KeyringDeleteError`, while libs/cli/cli's keyring deletion raises one. Keyring failures are modelled with their own `KeyringError` type, which has read, write and delete variants.

**Command-line tool**
- The CLI context's construction from command-line flags is not modelled: file existence checks, reading and parsing the kubeconfig, validating the server URL, and detecting `kubectl`. Only the two path defaults are modelled. The panic for a missing configuration path becomes a `Result` error.
- The login flow, the cluster listing request and `get_base_configuration` are not modelled. The listing's error conversion is modelled.
- `write_kubeconfig` (apps/kubectl_proxyauth/src/ctx.rs:153-158) is not modelled because nothing calls it. The `context --set` switch therefore stays in memory, and CliContext.HandleContext records it as never saved.

**Weaker contracts**
- KubeRedirect.Redirect: forwards the corrected timeout (`UpstreamTimeout`, saturating) and answers with the corrected response headers (`ResponseHeaders`, every value kept). The source's `timeout_secs + 1` (kube_redirect.rs:146) and last-value `insert_header` (kube_redirect.rs:174-177) are modelled only by `UpstreamTimeoutAsWritten` and `ResponseHeadersAsWritten`, as the findings below record.
- LegacyRedirect.ResponseHeaders: keeps every upstream value of a header. The older source's `insert_header` keeps only the last value per name, the same collapse as in the first finding below, and this copy is not modelled as written.
- CliCommands.HandleGet: its contract states only the shape of the table output. The JSON and YAML texts are stated by `CliCommands.ToOutput`, which it calls.

## Findings

| source | as written | input that shows it | evidently intended | confidence | as-written member | corrected member |
|---|---|---|---|---|---|---|
| libs/server/api/src/cluster/redirect/kube_redirect.rs:174-177 | each backend response header is added with `insert_header`, which replaces earlier values of the same name | a backend answering with two `warning` headers, "a" then "b": the client receives only "b" | every value of a repeated header reaches the client, as for request headers | not executed; medium | KubeRedirect.RepeatedHeaderCollapsesAsWritten | KubeRedirect.ResponseHeaders |
| libs/server/api/src/cluster/redirect/kube_redirect.rs:144-146 | the upstream timeout is `timeout_secs + 1` on a `u64` | "timeout=18446744073709551615": the sum overflows, which panics in a debug build and wraps to a zero timeout in a release build | a timeout at least as long as the one requested (saturating at the largest value) | not executed; high | KubeRedirect.TimeoutOverflowAsWritten | KubeRedirect.UpstreamTimeout |
| apps/kubectl_proxyauth/src/cli_config/mod.rs:92 | `proxy_url_to_tuple` names the server after the URL's host alone | "https://localhost:5437/clusters/default/local-sso" (the code's own example) with that cluster recorded on the built-in server "localhost-5437": the lookup answers ServerNotFound | the server is named as `url_to_name` names servers, from host and port, so that the recorded cluster is found | not executed; high | CliConfig.BuiltInServerLostAsWritten | CliConfig.CorrectedNameMatchesServerKey |

=== FILE: allowed_path.dfy ===
/**
  An allowed path of the security section. A parametised path is a template
  whose mustache parameters `{{name}}` (a run of word characters between
  double braces) may only be `username` or `group`; expanding it for a user
  gives one concrete path, or one per group when the template mentions
  `{{group}}`.
*/
module AllowedPath {
  import opened Outcomes
  import opened Strings

  datatype AllowedPathConfiguration = AllowedPathConfiguration(path: string, parametised: bool)

  // ---------------------------------------------------------------------------
  // The mustache scan: the matches of `\{\{(\w+)\}\}`, left to right
  // ---------------------------------------------------------------------------

  /** The characters `\w` matches (ASCII letters, digits and '_'). */
  predicate IsWordChar(c: char) {
    ('a' <= c <= 'z') || ('A' <= c <= 'Z') || ('0' <= c <= '9') || c == '_'
  }

  predicate IsWord(s: string) {
    |s| > 0 && forall i :: 0 <= i < |s| ==> IsWordChar(s[i])
  }

  /** The length of the run of word characters at the start of `s`. */
  function WordRun(s: string): (n: nat)
    ensures n <= |s|
    ensures forall i :: 0 <= i < n ==> IsWordChar(s[i])
    ensures n < |s| ==> !IsWordChar(s[n])
    decreases |s|
  {
    if |s| > 0 && IsWordChar(s[0]) then 1 + WordRun(s[1..]) else 0
  }

  /**
    The parameter name of a match starting at the head of `s`, and the match's
    length. `\w+` is greedy and '}' is not a word character, so the only
    candidate is the full run of word characters after "{{".
  */
  function MatchAtStart(s: string): (r: Option<(string, nat)>)
    ensures r.Some? ==> 5 <= r.value.1 <= |s| && IsWord(r.value.0)
    ensures r.Some? ==> s[..r.value.1] == "{{" + r.value.0 + "}}"
  {
    if |s| >= 2 && s[0] == '{' && s[1] == '{' then
      var n := WordRun(s[2..]);
      if n > 0 && 2 + n + 2 <= |s| && s[2 + n] == '}' && s[3 + n] == '}' then
        Some((s[2..2 + n], 4 + n))
      else None
    else None
  }

  /** The parameter names of every non-overlapping match, leftmost first. */
  function Captures(s: string): (names: seq<string>)
    ensures forall k :: 0 <= k < |names| ==> IsWord(names[k])
    decreases |s|
  {
    if |s| == 0 then []
    else
      match MatchAtStart(s)
      case Some((name, len)) => [name] + Captures(s[len..])
      case None => Captures(s[1..])
  }

  /** Every captured name appears in the text as `{{name}}`. */
  lemma {:induction false} CapturesOccur(s: string)
    ensures forall k :: 0 <= k < |Captures(s)| ==> Contains(s, "{{" + Captures(s)[k] + "}}")
    decreases |s|
  {
    if |s| > 0 {
      match MatchAtStart(s)
      case Some((name, len)) =>
        CapturesOccur(s[len..]);
        assert OccursAt(s, "{{" + name + "}}", 0);
        forall k | 1 <= k < |Captures(s)|
          ensures Contains(s, "{{" + Captures(s)[k] + "}}")
        {
          assert Captures(s)[k] == Captures(s[len..])[k - 1];
          ContainsSuffix(s, "{{" + Captures(s)[k] + "}}", len);
        }
      case None =>
        CapturesOccur(s[1..]);
        forall k | 0 <= k < |Captures(s)|
          ensures Contains(s, "{{" + Captures(s)[k] + "}}")
        {
          ContainsSuffix(s, "{{" + Captures(s)[k] + "}}", 1);
        }
    }
  }

  /** Text without an opening brace holds no parameter. */
  lemma {:induction false} CapturesWithoutBrace(s: string)
    requires '{' !in s
    ensures Captures(s) == []
    decreases |s|
  {
    if |s| > 0 {
      assert '{' !in s[1..];
      CapturesWithoutBrace(s[1..]);
    }
  }

  /**
    A parameter after brace-free text is the first one found, and the scan
    resumes right after it: names come out in order, duplicates kept.
  */
  lemma {:induction false} CapturesOfTemplate(a: string, name: string, b: string)
    requires '{' !in a && IsWord(name)
    ensures Captures(a + "{{" + name + "}}" + b) == [name] + Captures(b)
    decreases |a|
  {
    var s := a + "{{" + name + "}}" + b;
    if |a| == 0 {
      assert s == "{{" + name + "}}" + b;
      WordRunOfName(name, "}}" + b);
      assert s[2..] == name + ("}}" + b);
      assert s[2..2 + |name|] == name;
      assert s[4 + |name|..] == b;
    } else {
      assert s[0] == a[0] && a[0] != '{';
      assert MatchAtStart(s).None?;
      assert s[1..] == a[1..] + "{{" + name + "}}" + b;
      assert '{' !in a[1..];
      CapturesOfTemplate(a[1..], name, b);
    }
  }

  /**
    The scan misses no parameter: every `{{w}}` in the text, with `w` a run of
    word characters, is one of the captures. A match never starts inside an
    earlier match, because a match holds no '{' after its opening pair.
  */
  lemma {:induction false} CapturesComplete(s: string, w: string)
    requires IsWord(w) && Contains(s, "{{" + w + "}}")
    ensures w in Captures(s)
    decreases |s|
  {
    var t := "{{" + w + "}}";
    var i: nat :| i <= |s| && OccursAt(s, t, i);
    assert s[i] == t[0] == '{' && s[i + 1] == t[1] == '{';
    match MatchAtStart(s)
    case Some((name, len)) =>
      if i == 0 {
        MatchAtStartOfOccurrence(s, w);
      } else if i < len {
        assert false;
      } else {
        OccursInSuffix(s, t, i, len);
        CapturesComplete(s[len..], w);
      }
    case None =>
      if i == 0 {
        MatchAtStartOfOccurrence(s, w);
      }
      OccursInSuffix(s, t, i, 1);
      CapturesComplete(s[1..], w);
  }

  /** An occurrence of `{{w}}` at the head of the text is the match found there. */
  lemma MatchAtStartOfOccurrence(s: string, w: string)
    requires IsWord(w) && OccursAt(s, "{{" + w + "}}", 0)
    ensures MatchAtStart(s) == Some((w, |w| + 4))
  {
    var rest := s[2 + |w|..];
    assert s[..|w| + 4] == "{{" + w + "}}";
    assert s[..|w| + 4][2 + |w|] == '}';
    assert s[2..] == w + rest by {
      assert s[2..2 + |w|] == s[..|w| + 4][2..2 + |w|] == w;
    }
    assert s[2 + |w|] == '}' && s[3 + |w|] == s[..|w| + 4][3 + |w|] == '}';
    WordRunOfName(w, rest);
    assert s[2..2 + |w|] == s[..|w| + 4][2..2 + |w|] == w;
  }

  lemma OccursInSuffix(s: string, pat: string, i: nat, k: nat)
    requires k <= i && OccursAt(s, pat, i)
    ensures OccursAt(s[k..], pat, i - k) && Contains(s[k..], pat)
  {
    assert s[k..][i - k..i - k + |pat|] == s[i..i + |pat|];
    var j: nat := i - k;
    assert j <= |s[k..]| && OccursAt(s[k..], pat, j);
  }

  /** Every parameter in the text is captured (the quantified form of `CapturesComplete`). */
  lemma CapturesCompleteAll(s: string)
    ensures forall w :: IsWord(w) && Contains(s, "{{" + w + "}}") ==> w in Captures(s)
  {
    forall w | IsWord(w) && Contains(s, "{{" + w + "}}")
      ensures w in Captures(s)
    {
      CapturesComplete(s, w);
    }
  }

  lemma {:induction false} WordRunOfName(name: string, rest: string)
    requires (forall i :: 0 <= i < |name| ==> IsWordChar(name[i]))
    requires |rest| > 0 && !IsWordChar(rest[0])
    ensures WordRun(name + rest) == |name|
    decreases |name|
  {
    if |name| == 0 {
      assert name + rest == rest;
    } else {
      assert (name + rest)[1..] == name[1..] + rest;
      WordRunOfName(name[1..], rest);
    }
  }

  // ---------------------------------------------------------------------------
  // Validation and parameter extraction
  // ---------------------------------------------------------------------------

  predicate IsAllowedParameter(name: string) {
    name == "username" || name == "group"
  }

  /** The first name of `names` that is not an allowed parameter. */
  function FirstInvalid(names: seq<string>): (r: Option<nat>)
    ensures r.Some? ==> r.value < |names| && !IsAllowedParameter(names[r.value])
    ensures r.Some? ==> forall k :: 0 <= k < r.value ==> IsAllowedParameter(names[k])
    ensures r.None? <==> forall k :: 0 <= k < |names| ==> IsAllowedParameter(names[k])
    decreases |names|
  {
    if |names| == 0 then None
    else if !IsAllowedParameter(names[0]) then Some(0)
    else
      match FirstInvalid(names[1..])
      case Some(k) => Some(k + 1)
      case None => None
  }

  function InvalidParameterMessage(param: string): string {
    "Invalid parameter in path: " + param + ", allowed parameters are {username} and {group}"
  }

  /**
    `AllowedPathConfiguration::validate`: a parametised path fails on the first
    parameter that is neither `username` nor `group`; a plain path always passes.
  */
  function Validate(c: AllowedPathConfiguration): (r: Result<Unit, string>)
    ensures !c.parametised ==> r.Ok?
    ensures c.parametised ==>
      (r.Err? <==> exists k :: 0 <= k < |Captures(c.path)| && !IsAllowedParameter(Captures(c.path)[k]))
    ensures r.Err? ==>
      (exists k :: 0 <= k < |Captures(c.path)| &&
        r.error == InvalidParameterMessage(Captures(c.path)[k]) && !IsAllowedParameter(Captures(c.path)[k]) &&
        forall j :: 0 <= j < k ==> IsAllowedParameter(Captures(c.path)[j]))
  {
    if c.parametised then
      match FirstInvalid(Captures(c.path))
      case Some(k) => Err(InvalidParameterMessage(Captures(c.path)[k]))
      case None => Ok(Unit)
    else Ok(Unit)
  }

  /** `AllowedPathConfiguration::extract_parameters`. */
  function ExtractParameters(c: AllowedPathConfiguration): (names: seq<string>)
    ensures !c.parametised ==> names == []
    ensures forall k :: 0 <= k < |names| ==> IsWord(names[k]) && Contains(c.path, "{{" + names[k] + "}}")
    ensures c.parametised ==> forall w :: IsWord(w) && Contains(c.path, "{{" + w + "}}") ==> w in names
  {
    CapturesOccur(c.path);
    CapturesCompleteAll(c.path);
    if c.parametised then Captures(c.path) else []
  }

  /** A parametised path validates exactly when every extracted parameter is allowed. */
  lemma ValidateAgreesWithExtraction(c: AllowedPathConfiguration)
    requires c.parametised
    ensures Validate(c).Ok? <==> forall k :: 0 <= k < |ExtractParameters(c)| ==> IsAllowedParameter(ExtractParameters(c)[k])
  {
    assert ExtractParameters(c) == Captures(c.path);
  }

  // ---------------------------------------------------------------------------
  // Expansion
  // ---------------------------------------------------------------------------

  const USERNAME_TOKEN: string := "{{username}}"
  const GROUP_TOKEN: string := "{{group}}"

  /** The template with the user's name filled in (the first step of the expansion). */
  function WithUsername(path: string, username: string): string {
    if Contains(path, USERNAME_TOKEN) then ReplaceAll(path, USERNAME_TOKEN, username) else path
  }

  /** The `contains` test before the replacement changes nothing: absent tokens are left as they are. */
  lemma WithUsernameReplacesAll(path: string, username: string)
    ensures WithUsername(path, username) == ReplaceAll(path, USERNAME_TOKEN, username)
  {
    if !Contains(path, USERNAME_TOKEN) {
      ReplaceAllAbsent(path, USERNAME_TOKEN, username);
    }
  }

  /** `AllowedPathConfiguration::to_possible_paths`. */
  function ToPossiblePaths(c: AllowedPathConfiguration, username: string, groups: seq<string>): (paths: seq<string>)
    ensures !c.parametised ==> paths == [c.path]
    ensures c.parametised && !Contains(WithUsername(c.path, username), GROUP_TOKEN) ==>
      paths == [ReplaceAll(c.path, USERNAME_TOKEN, username)]
    ensures c.parametised && Contains(WithUsername(c.path, username), GROUP_TOKEN) ==>
      |paths| == |groups| &&
      forall i :: 0 <= i < |groups| ==>
        paths[i] == ReplaceAll(ReplaceAll(c.path, USERNAME_TOKEN, username), GROUP_TOKEN, groups[i])
  {
    WithUsernameReplacesAll(c.path, username);
    if c.parametised then
      var path := WithUsername(c.path, username);
      if Contains(path, GROUP_TOKEN) then
        seq(|groups|, i requires 0 <= i < |groups| => ReplaceAll(path, GROUP_TOKEN, groups[i]))
      else [path]
    else [c.path]
  }

  /** A parametised template without parameters expands to itself alone. */
  lemma PlainTemplateExpandsToItself(c: AllowedPathConfiguration, username: string, groups: seq<string>)
    requires c.parametised && '{' !in c.path
    ensures ToPossiblePaths(c, username, groups) == [c.path]
  {
    NoBraceNoToken(c.path, USERNAME_TOKEN);
    NoBraceNoToken(c.path, GROUP_TOKEN);
    ReplaceAllAbsent(c.path, USERNAME_TOKEN, username);
  }

  lemma NoBraceNoToken(s: string, token: string)
    requires '{' !in s && |token| > 0 && token[0] == '{'
    ensures !Contains(s, token)
  {
    forall i: nat | i <= |s|
      ensures !OccursAt(s, token, i)
    {
      if i + |token| <= |s| {
        assert s[i..i + |token|][0] == s[i] != '{';
      }
    }
  }

  /**
    With a `{{group}}` parameter, a user in no group gets no path at all, so
    such a rule allows nothing.
  */
  lemma GroupTemplateWithoutGroups(c: AllowedPathConfiguration, username: string)
    requires c.parametised && Contains(WithUsername(c.path, username), GROUP_TOKEN)
    ensures ToPossiblePaths(c, username, []) == []
  {
  }

  /**
    A template naming the user and then the group, in otherwise brace-free
    text, expands to one path per group with both names filled in.
  */
  lemma ExpandUserGroupTemplate(p: string, q: string, r: string, username: string, groups: seq<string>)
    requires '{' !in p && '{' !in q && '{' !in r && '{' !in username
    ensures var paths := ToPossiblePaths(AllowedPathConfiguration(p + USERNAME_TOKEN + q + GROUP_TOKEN + r, true), username, groups);
      |paths| == |groups| &&
      forall i :: 0 <= i < |groups| ==> paths[i] == p + username + q + groups[i] + r
  {
    var path := p + USERNAME_TOKEN + q + GROUP_TOKEN + r;
    var head := p + username + q;
    FillUsername(p, q, r, username);
    WithUsernameReplacesAll(path, username);
    assert WithUsername(path, username) == head + (GROUP_TOKEN + r);
    HasGroupToken(head, r);
    forall i | 0 <= i < |groups|
      ensures ReplaceAll(head + (GROUP_TOKEN + r), GROUP_TOKEN, groups[i]) == p + username + q + groups[i] + r
    {
      FillGroup(head, r, groups[i]);
    }
  }

  /** The first step of `ExpandUserGroupTemplate`: the user's name goes in, `{{group}}` stays. */
  lemma FillUsername(p: string, q: string, r: string, username: string)
    requires '{' !in p && '{' !in q && '{' !in r
    ensures ReplaceAll(p + USERNAME_TOKEN + q + GROUP_TOKEN + r, USERNAME_TOKEN, username)
      == (p + username + q) + (GROUP_TOKEN + r)
  {
    var z := GROUP_TOKEN + r;
    var y := q + z;
    var x := USERNAME_TOKEN + y;
    assert p + USERNAME_TOKEN + q + GROUP_TOKEN + r == p + x;
    calc {
      ReplaceAll(p + x, USERNAME_TOKEN, username);
    == { ReplaceAllAfterPlainPrefix(p, x, USERNAME_TOKEN, username); }
      p + ReplaceAll(x, USERNAME_TOKEN, username);
    == { ReplaceAllLeading(y, USERNAME_TOKEN, username); }
      p + (username + ReplaceAll(y, USERNAME_TOKEN, username));
    == { ReplaceAllAfterPlainPrefix(q, z, USERNAME_TOKEN, username); }
      p + (username + (q + ReplaceAll(z, USERNAME_TOKEN, username)));
    == { GroupTokenKeepsUsernameToken(r, username); }
      p + (username + (q + z));
    }
    assert p + (username + (q + z)) == (p + username + q) + z;
  }

  lemma HasGroupToken(head: string, r: string)
    ensures Contains(head + (GROUP_TOKEN + r), GROUP_TOKEN)
  {
    var s := head + (GROUP_TOKEN + r);
    assert s[|head|..|head| + |GROUP_TOKEN|] == GROUP_TOKEN;
    var i: nat := |head|;
    assert i <= |s| && OccursAt(s, GROUP_TOKEN, i);
  }

  /** The second step of `ExpandUserGroupTemplate`: one group's name goes in. */
  lemma FillGroup(head: string, r: string, group: string)
    requires '{' !in head && '{' !in r
    ensures ReplaceAll(head + (GROUP_TOKEN + r), GROUP_TOKEN, group) == head + group + r
  {
    ReplaceAllAfterPlainPrefix(head, GROUP_TOKEN + r, GROUP_TOKEN, group);
    ReplaceAllLeading(r, GROUP_TOKEN, group);
    NoBraceNoToken(r, GROUP_TOKEN);
    ReplaceAllAbsent(r, GROUP_TOKEN, group);
  }

  /**
    A template naming only the user, in otherwise brace-free text, expands to
    the single path with the name filled in, whatever the groups.
  */
  lemma ExpandUserTemplate(p: string, q: string, username: string, groups: seq<string>)
    requires '{' !in p && '{' !in q && '{' !in username
    ensures ToPossiblePaths(AllowedPathConfiguration(p + USERNAME_TOKEN + q, true), username, groups) == [p + username + q]
  {
    var path := p + USERNAME_TOKEN + q;
    assert ReplaceAll(path, USERNAME_TOKEN, username) == p + username + q by {
      assert path == p + (USERNAME_TOKEN + q);
      ReplaceAllAfterPlainPrefix(p, USERNAME_TOKEN + q, USERNAME_TOKEN, username);
      ReplaceAllLeading(q, USERNAME_TOKEN, username);
      NoBraceNoToken(q, USERNAME_TOKEN);
      ReplaceAllAbsent(q, USERNAME_TOKEN, username);
    }
    WithUsernameReplacesAll(path, username);
    assert '{' !in p + username + q;
    NoBraceNoToken(p + username + q, GROUP_TOKEN);
  }

  /** `{{group}}` is not `{{username}}`: replacing the latter leaves the former in place. */
  lemma GroupTokenKeepsUsernameToken(r: string, username: string)
    requires '{' !in r
    ensures ReplaceAll(GROUP_TOKEN + r, USERNAME_TOKEN, username) == GROUP_TOKEN + r
  {
    var s := GROUP_TOKEN + r;
    assert !IsPrefix(USERNAME_TOKEN, s) by {
      if |USERNAME_TOKEN| <= |s| {
        assert s[..|USERNAME_TOKEN|][2] == s[2] == 'g';
      }
    }
    assert !IsPrefix(USERNAME_TOKEN, s[1..]) by {
      if |USERNAME_TOKEN| <= |s[1..]| {
        assert s[1..][..|USERNAME_TOKEN|][1] == s[2] == 'g';
      }
    }
    assert s[1..][1..] == "group}}" + r;
    assert '{' !in "group}}" + r;
    NoBraceNoToken("group}}" + r, USERNAME_TOKEN);
    ReplaceAllAbsent("group}}" + r, USERNAME_TOKEN, username);
  }

  /** `AllowedPathConfiguration::has_wildcard`: the path contains '*'. */
  function HasWildcard(c: AllowedPathConfiguration): (r: bool)
    ensures r <==> Contains(c.path, "*")
  {
    CharInIffContains(c.path, '*');
    '*' in c.path
  }

  lemma CharInIffContains(s: string, c: char)
    ensures c in s <==> Contains(s, [c])
  {
    if c in s {
      var i :| 0 <= i < |s| && s[i] == c;
      assert OccursAt(s, [c], i);
    }
    if Contains(s, [c]) {
      var i: nat :| i <= |s| && OccursAt(s, [c], i);
      assert s[i..i + 1] == [c];
      assert s[i] == c;
    }
  }
}

=== FILE: auth_config.dfy ===
/**
  The authentication section of the custom resource: the OIDC provider, the
  list of JWT authenticators (carried, never inspected) and the choice of
  token validator, with serde's defaults for missing fields and the one
  consistency rule `validate` enforces.
*/
module AuthConfig {
  import opened Outcomes
  import CrdDefaults

  /** Which authority validates a bearer token. */
  datatype ValidateAgainst = ByOidcProvider | ByKubernetes

  /** `default_validate_against`. */
  const DEFAULT_VALIDATE_AGAINST: ValidateAgainst := ByKubernetes

  datatype OidcProvider = OidcProvider(
    enabled: bool,
    issuerUrl: string,
    clientId: string,
    clientSecret: Option<string>,
    extraScope: string)

  /** A JWT authenticator; its rules are data that no modelled operation reads. */
  datatype JwtAuthenticator = JwtAuthenticator(issuerUrl: string, audiences: seq<string>)

  datatype AuthenticationConfiguration = AuthenticationConfiguration(
    jwt: seq<JwtAuthenticator>,
    oidcProvider: OidcProvider,
    validateAgainst: ValidateAgainst)

  const OIDC_NOT_ENABLED: string := "validate_against is set to OidcProvider but the OIDC provider is not enabled"

  /**
    `AuthenticationConfiguration::validate`: validating against the OIDC
    provider requires the provider to be enabled; nothing else is checked.
  */
  function Validate(c: AuthenticationConfiguration): (r: Result<Unit, string>)
    ensures r.Err? <==> c.validateAgainst == ByOidcProvider && !c.oidcProvider.enabled
    ensures r.Err? ==> r.error == OIDC_NOT_ENABLED
  {
    match c.validateAgainst
    case ByOidcProvider =>
      if !c.oidcProvider.enabled then Err(OIDC_NOT_ENABLED) else Ok(Unit)
    case ByKubernetes => Ok(Unit)
  }

  /** Validating against Kubernetes always succeeds, whatever the OIDC settings. */
  lemma KubernetesAlwaysValid(c: AuthenticationConfiguration)
    requires c.validateAgainst == ByKubernetes
    ensures Validate(c) == Ok(Unit)
  {
  }

  /** The verdict does not depend on the JWT authenticators. */
  lemma ValidateIgnoresJwt(c: AuthenticationConfiguration, jwt: seq<JwtAuthenticator>)
    ensures Validate(c.(jwt := jwt)) == Validate(c)
  {
  }

  // ---------------------------------------------------------------------------
  // Deserialisation defaults
  // ---------------------------------------------------------------------------

  /** The fields of an OIDC provider as they appear in a manifest, some optional. */
  datatype OidcProviderFields = OidcProviderFields(
    enabled: Option<bool>,
    issuerUrl: string,
    clientId: string,
    clientSecret: Option<string>,
    extraScope: Option<string>)

  /** The fields of an authentication section as they appear in a manifest. */
  datatype AuthenticationFields = AuthenticationFields(
    jwt: Option<seq<JwtAuthenticator>>,
    oidcProvider: OidcProviderFields,
    validateAgainst: Option<ValidateAgainst>)

  /** serde's reading of an OIDC provider: `enabled` defaults to false, `extra_scope` to "". */
  function ReadOidcProvider(f: OidcProviderFields): (p: OidcProvider)
    ensures f.enabled.Some? ==> p.enabled == f.enabled.value
    ensures f.enabled.None? ==> p.enabled == CrdDefaults.DISABLED
    ensures f.extraScope.Some? ==> p.extraScope == f.extraScope.value
    ensures f.extraScope.None? ==> p.extraScope == CrdDefaults.EMPTY_STRING
    ensures p.issuerUrl == f.issuerUrl && p.clientId == f.clientId && p.clientSecret == f.clientSecret
  {
    OidcProvider(
      f.enabled.GetOr(CrdDefaults.DISABLED), f.issuerUrl, f.clientId, f.clientSecret,
      f.extraScope.GetOr(CrdDefaults.EMPTY_STRING))
  }

  /** serde's reading of an authentication section: `jwt` defaults to [], `validate_against` to Kubernetes. */
  function ReadAuthentication(f: AuthenticationFields): (c: AuthenticationConfiguration)
    ensures f.jwt.Some? ==> c.jwt == f.jwt.value
    ensures f.jwt.None? ==> c.jwt == []
    ensures f.validateAgainst.Some? ==> c.validateAgainst == f.validateAgainst.value
    ensures f.validateAgainst.None? ==> c.validateAgainst == DEFAULT_VALIDATE_AGAINST
    ensures c.oidcProvider == ReadOidcProvider(f.oidcProvider)
  {
    AuthenticationConfiguration(
      f.jwt.GetOr([]), ReadOidcProvider(f.oidcProvider), f.validateAgainst.GetOr(DEFAULT_VALIDATE_AGAINST))
  }

  /**
    A section that names neither a validator nor the provider's `enabled`
    flag is valid: the defaults (Kubernetes, disabled) are consistent.
  */
  lemma MinimalSectionIsValid(f: AuthenticationFields)
    requires f.validateAgainst.None?
    ensures Validate(ReadAuthentication(f)) == Ok(Unit)
  {
  }

  /**
    Asking for the OIDC provider without enabling it is the one invalid
    combination a manifest can reach through the defaults.
  */
  lemma OidcWithoutEnabledIsInvalid(f: AuthenticationFields)
    requires f.validateAgainst == Some(ByOidcProvider) && f.oidcProvider.enabled != Some(true)
    ensures Validate(ReadAuthentication(f)).Err?
  {
  }
}

=== FILE: auth_helper.dfy ===
/**
  Reading the bearer token of a request (section 2.1 of RFC 6750) and turning
  an authentication failure into an HTTP 401 answer.
*/
module AuthHelper {
  import opened Outcomes
  import opened Strings
  import opened Bytes
  import opened Headers

  const UNAUTHORIZED: nat := 401
  const PLAIN_TEXT: string := "text/plain; charset=utf-8"
  const BEARER_PREFIX: string := "Bearer "
  /** The `Display` text of the HTTP library's header-to-text error. */
  const TO_STR_ERROR: string := "failed to convert header to a str"

  datatype AuthError = InvalidToken | InvalidTokenDetail(detail: string) | NoToken

  /** The error's `Display` text, as its derive attributes declare it. */
  function Describe(e: AuthError): string {
    match e
    case InvalidToken => "Invalid token"
    case InvalidTokenDetail(d) => "Invalid token: " + d
    case NoToken => "No Authorization header found"
  }

  /** The plain-text answer of `into_http_response`. */
  datatype HttpResponse = HttpResponse(status: nat, contentType: string, body: string)

  /** The framework error of `into_actix_error`: a status and the message it renders. */
  datatype ActixError = ActixError(status: nat, message: string)

  function IntoHttpResponse(e: AuthError): (r: HttpResponse)
    ensures r.status == UNAUTHORIZED && r.contentType == PLAIN_TEXT
    ensures e.NoToken? ==> r.body == "No Authorization header found"
    ensures e.InvalidToken? ==> r.body == "Invalid token"
    ensures e.InvalidTokenDetail? ==> r.body == "Invalid token: " + e.detail
  {
    match e
    case InvalidToken => HttpResponse(UNAUTHORIZED, PLAIN_TEXT, "Invalid token")
    case NoToken => HttpResponse(UNAUTHORIZED, PLAIN_TEXT, "No Authorization header found")
    case InvalidTokenDetail(d) => HttpResponse(UNAUTHORIZED, PLAIN_TEXT, "Invalid token: " + d)
  }

  function IntoActixError(e: AuthError): (r: ActixError)
    ensures r.status == UNAUTHORIZED
    ensures e.NoToken? ==> r.message == "No Authorization header found"
    ensures e.InvalidToken? ==> r.message == "Invalid token"
    ensures e.InvalidTokenDetail? ==> r.message == "Invalid token: " + e.detail
  {
    match e
    case InvalidToken => ActixError(UNAUTHORIZED, "Invalid token")
    case NoToken => ActixError(UNAUTHORIZED, "No Authorization header found")
    case InvalidTokenDetail(d) => ActixError(UNAUTHORIZED, "Invalid token: " + d)
  }

  /** Both 401 forms carry the error's own `Display` text, so a client sees the same words either way. */
  lemma AnswersAgree(e: AuthError)
    ensures IntoHttpResponse(e).body == IntoActixError(e).message == Describe(e)
    ensures IntoHttpResponse(e).status == IntoActixError(e).status
  {
  }

  /** The index of the first header with the given (lower-case) name: `HeaderMap::get`. */
  function FirstNamed(hs: seq<Header>, name: string): (r: Option<nat>)
    ensures r.Some? ==> r.value < |hs| && hs[r.value].name == name
    ensures r.Some? ==> forall j :: 0 <= j < r.value ==> hs[j].name != name
    ensures r.None? ==> forall j :: 0 <= j < |hs| ==> hs[j].name != name
    decreases |hs|
  {
    if |hs| == 0 then None
    else if hs[0].name == name then Some(0)
    else
      match FirstNamed(hs[1..], name)
      case Some(k) => Some(k + 1)
      case None => None
  }

  /** `extract_authorization_header`: the text after "Bearer " in the first `authorization` header. */
  function ExtractAuthorizationHeader(hs: seq<Header>): (r: Result<string, AuthError>)
    ensures FirstNamed(hs, "authorization").None? <==> r == Err(NoToken)
    ensures r == Err(InvalidTokenDetail(TO_STR_ERROR)) <==>
      (FirstNamed(hs, "authorization").Some? &&
        !AllVisibleAscii(hs[FirstNamed(hs, "authorization").value].value))
    ensures r.Ok? <==>
      (FirstNamed(hs, "authorization").Some? &&
        var v := hs[FirstNamed(hs, "authorization").value].value;
        AllVisibleAscii(v) && IsPrefix(BEARER_PREFIX, BytesToChars(v)))
    ensures r.Ok? ==> BytesToChars(hs[FirstNamed(hs, "authorization").value].value) == BEARER_PREFIX + r.value
  {
    match FirstNamed(hs, "authorization")
    case None => Err(NoToken)
    case Some(i) =>
      match ValueText(hs[i].value)
      case None => Err(InvalidTokenDetail(TO_STR_ERROR))
      case Some(text) =>
        if IsPrefix(BEARER_PREFIX, text) then
          assert text == BEARER_PREFIX + text[|BEARER_PREFIX|..];
          Ok(text[|BEARER_PREFIX|..])
        else Err(InvalidToken)
  }

  /** The header a client sends for a token: "Bearer " then the token, byte for byte. */
  function BearerHeader(token: string): (h: Header)
    requires forall i :: 0 <= i < |token| ==> token[i] as int < 256
    ensures h.name == "authorization"
    ensures BytesToChars(h.value) == BEARER_PREFIX + token
  {
    var text := BEARER_PREFIX + token;
    var h := Header("authorization", CharsToBytes(text));
    assert BytesToChars(h.value) == text;
    h
  }

  /**
    Any token of visible ASCII, sent as the first authorization header, is
    read back exactly, however many other headers surround it.
  */
  lemma {:induction false} ExtractBearerRoundTrip(before: seq<Header>, token: string, after: seq<Header>)
    requires forall i :: 0 <= i < |token| ==> token[i] as int < 256 && IsVisibleAscii(token[i] as int)
    requires forall j :: 0 <= j < |before| ==> before[j].name != "authorization"
    ensures ExtractAuthorizationHeader(before + [BearerHeader(token)] + after) == Ok(token)
  {
    var hs := before + [BearerHeader(token)] + after;
    FirstNamedAfter(before, BearerHeader(token), after, "authorization");
    var v := BearerHeader(token).value;
    forall i | 0 <= i < |v|
      ensures IsVisibleAscii(v[i])
    {
      assert BytesToChars(v)[i] == ByteToChar(v[i]);
      if i >= |BEARER_PREFIX| {
        assert (BEARER_PREFIX + token)[i] == token[i - |BEARER_PREFIX|];
      }
    }
    assert BytesToChars(v)[..|BEARER_PREFIX|] == BEARER_PREFIX;
    assert BytesToChars(v)[|BEARER_PREFIX|..] == token;
  }

  /** Headers with other names in front of `h` do not hide it. */
  lemma {:induction false} FirstNamedAfter(before: seq<Header>, h: Header, after: seq<Header>, name: string)
    requires h.name == name
    requires forall j :: 0 <= j < |before| ==> before[j].name != name
    ensures FirstNamed(before + [h] + after, name) == Some(|before|)
    decreases |before|
  {
    var hs := before + [h] + after;
    if |before| == 0 {
      assert hs[0] == h;
    } else {
      assert hs[0] == before[0];
      assert hs[1..] == before[1..] + [h] + after;
      FirstNamedAfter(before[1..], h, after, name);
    }
  }

  /** The prefix is case-sensitive and needs its one space: "bearer x" and "Bearer" are refused. */
  lemma PrefixIsExact(t: string)
    ensures !IsPrefix(BEARER_PREFIX, "bearer " + t)
    ensures !IsPrefix(BEARER_PREFIX, "Bearer")
  {
    assert ("bearer " + t)[0] == 'b';
  }
}

=== FILE: backoff.dfy ===
/**
  The retry delay of a failing reconciliation: 300 seconds, doubled for
  every further consecutive failure, never more than one hour. The source
  computes it with unsigned saturating arithmetic on a 32-bit attempt count
  read from a signed 64-bit Redis counter; each step is written out here.
*/
module Backoff {
  import opened Outcomes
  import opened Strings

  const ERROR_REQUEUE_MIN_SECONDS: nat := 5 * 60
  const SUCCESS_REQUEUE_SECONDS: nat := 60 * 60
  const MAX_EXPONENT: nat := 16
  const U32_MODULUS: nat := 0x1_0000_0000

  type U32 = n: int | 0 <= n < 0x1_0000_0000

  function Pow2(e: nat): (r: nat)
    ensures r >= 1
  {
    if e == 0 then 1 else 2 * Pow2(e - 1)
  }

  lemma {:induction false} Pow2Monotone(a: nat, b: nat)
    requires a <= b
    ensures Pow2(a) <= Pow2(b)
    decreases b
  {
    if a < b {
      Pow2Monotone(a, b - 1);
    }
  }

  /** The powers the schedule reaches: none saturates a 64-bit product with 300. */
  lemma Pow2UpToSixteen(e: nat)
    requires e <= MAX_EXPONENT
    ensures Pow2(e) <= 65536
    ensures e >= 4 ==> Pow2(e) >= 16
    ensures SaturatingPow2(e) == Pow2(e)
    ensures SaturatingMul(ERROR_REQUEUE_MIN_SECONDS, Pow2(e)) == ERROR_REQUEUE_MIN_SECONDS * Pow2(e)
  {
    assert Pow2(1) == 2 && Pow2(2) == 4 && Pow2(3) == 8 && Pow2(4) == 16;
    assert Pow2(8) == 256 by {
      assert Pow2(5) == 32 && Pow2(6) == 64 && Pow2(7) == 128;
    }
    assert Pow2(12) == 4096 by {
      assert Pow2(9) == 512 && Pow2(10) == 1024 && Pow2(11) == 2048;
    }
    assert Pow2(16) == 65536 by {
      assert Pow2(13) == 8192 && Pow2(14) == 16384 && Pow2(15) == 32768;
    }
    Pow2Monotone(e, MAX_EXPONENT);
    if e >= 4 {
      Pow2Monotone(4, e);
    }
  }

  /** `u32::saturating_sub`. */
  function SaturatingSub(a: U32, b: U32): U32 {
    if a >= b then a - b else 0
  }

  /** `u64::saturating_pow`. */
  function SaturatingPow2(e: nat): nat {
    if Pow2(e) <= U64_MAX then Pow2(e) else U64_MAX
  }

  /** `u64::saturating_mul`. */
  function SaturatingMul(a: nat, b: nat): nat {
    if a * b <= U64_MAX then a * b else U64_MAX
  }

  /**
    The attempt count from the `INCR` reply: `value.max(1) as u32`, keeping the
    low 32 bits; 1 when the command failed.
  */
  function AttemptsFromReply(reply: Result<int, string>): (a: U32)
    ensures reply.Err? ==> a == 1
    ensures reply.Ok? && reply.value <= 1 ==> a == 1
    ensures reply.Ok? && 1 <= reply.value < U32_MODULUS ==> a == reply.value
    ensures reply.Ok? ==> (a as int - (if reply.value < 1 then 1 else reply.value)) % U32_MODULUS == 0
  {
    match reply
    case Err(_) => 1
    case Ok(v) => (if v < 1 then 1 else v) % U32_MODULUS
  }

  /** `attempts.saturating_sub(1).min(16)`. */
  function Exponent(attempts: U32): nat {
    if SaturatingSub(attempts, 1) < MAX_EXPONENT then SaturatingSub(attempts, 1) else MAX_EXPONENT
  }

  /** The retry delay in seconds after `attempts` consecutive failures. */
  function RetryDelay(attempts: U32): (seconds: nat)
    ensures ERROR_REQUEUE_MIN_SECONDS <= seconds <= SUCCESS_REQUEUE_SECONDS
  {
    var exponent := Exponent(attempts);
    var scaled := SaturatingMul(ERROR_REQUEUE_MIN_SECONDS, SaturatingPow2(exponent));
    if scaled < SUCCESS_REQUEUE_SECONDS then scaled else SUCCESS_REQUEUE_SECONDS
  }

  /**
    The reference schedule, stated independently: 300 seconds for the first
    failure, then each further failure doubles the previous delay, capped at
    one hour.
  */
  function DoublingDelay(attempts: nat): (seconds: nat)
    decreases attempts
  {
    if attempts <= 1 then ERROR_REQUEUE_MIN_SECONDS
    else
      var doubled := 2 * DoublingDelay(attempts - 1);
      if doubled < SUCCESS_REQUEUE_SECONDS then doubled else SUCCESS_REQUEUE_SECONDS
  }

  /** Below the cap, the delay of attempt `a` is 300 * 2^(a-1). */
  lemma {:induction false} DoublingDelayClosedForm(attempts: nat)
    requires attempts >= 1
    ensures DoublingDelay(attempts) ==
      if ERROR_REQUEUE_MIN_SECONDS * Pow2(attempts - 1) < SUCCESS_REQUEUE_SECONDS
      then ERROR_REQUEUE_MIN_SECONDS * Pow2(attempts - 1) else SUCCESS_REQUEUE_SECONDS
    decreases attempts
  {
    if attempts > 1 {
      DoublingDelayClosedForm(attempts - 1);
      Pow2Monotone(attempts - 2, attempts - 1);
    }
  }

  /** Neither saturating step is reached: the delay is 300 * 2^exponent, capped at one hour. */
  lemma RetryDelayUnsaturated(attempts: U32)
    ensures Exponent(attempts) <= MAX_EXPONENT
    ensures var p := ERROR_REQUEUE_MIN_SECONDS * Pow2(Exponent(attempts));
      RetryDelay(attempts) == if p < SUCCESS_REQUEUE_SECONDS then p else SUCCESS_REQUEUE_SECONDS
  {
    Pow2UpToSixteen(Exponent(attempts));
  }

  /** The saturating computation is exactly the capped doubling schedule. */
  lemma RetryDelayIsCappedDoubling(attempts: U32)
    ensures RetryDelay(attempts) == DoublingDelay(attempts)
  {
    if attempts == 0 {
      RetryDelayUnsaturated(attempts);
    } else if attempts - 1 > MAX_EXPONENT {
      LongFailureIsCapped(attempts);
    } else {
      ShortFailureDoubles(attempts);
    }
  }

  /** After more than seventeen failures both schedules sit at the one-hour cap. */
  lemma LongFailureIsCapped(attempts: U32)
    requires attempts - 1 > MAX_EXPONENT
    ensures RetryDelay(attempts) == SUCCESS_REQUEUE_SECONDS
    ensures DoublingDelay(attempts) == SUCCESS_REQUEUE_SECONDS
  {
    RetryDelayUnsaturated(attempts);
    Pow2AtLeastSixteen(Exponent(attempts));
    ScaledPastCap(Pow2(Exponent(attempts)));
    DoublingDelayClosedForm(attempts);
    Pow2AtLeastSixteen(attempts - 1);
    ScaledPastCap(Pow2(attempts - 1));
  }

  lemma ScaledPastCap(p: nat)
    requires p >= 16
    ensures ERROR_REQUEUE_MIN_SECONDS * p >= SUCCESS_REQUEUE_SECONDS
  {
  }

  lemma Pow2AtLeastSixteen(e: nat)
    requires e >= 4
    ensures Pow2(e) >= 16
  {
    assert Pow2(4) == 16;
    Pow2Monotone(4, e);
  }

  /** Up to seventeen failures the exponent is the number of failures before this one. */
  lemma ShortFailureDoubles(attempts: U32)
    requires 1 <= attempts && attempts - 1 <= MAX_EXPONENT
    ensures RetryDelay(attempts) == DoublingDelay(attempts)
  {
    RetryDelayUnsaturated(attempts);
    assert Exponent(attempts) == attempts - 1;
    DoublingDelayClosedForm(attempts);
  }

  /** The reference schedule stays within [300, 3600] and never goes down. */
  lemma {:induction false} DoublingDelayMonotone(a: nat, b: nat)
    requires a <= b
    ensures ERROR_REQUEUE_MIN_SECONDS <= DoublingDelay(a) <= DoublingDelay(b) <= SUCCESS_REQUEUE_SECONDS
    decreases b
  {
    if a < b {
      DoublingDelayMonotone(a, b - 1);
      if b > 1 {
        assert DoublingDelay(b) == if 2 * DoublingDelay(b - 1) < SUCCESS_REQUEUE_SECONDS
          then 2 * DoublingDelay(b - 1) else SUCCESS_REQUEUE_SECONDS;
      }
    } else if a > 1 {
      DoublingDelayMonotone(a - 1, a - 1);
    }
  }

  /** More failures never shorten the wait. */
  lemma RetryDelayMonotone(a: U32, b: U32)
    requires a <= b
    ensures RetryDelay(a) <= RetryDelay(b)
  {
    RetryDelayIsCappedDoubling(a);
    RetryDelayIsCappedDoubling(b);
    DoublingDelayMonotone(a, b);
  }

  /** The schedule: 300, 600, 1200, 2400, then one hour from the fifth failure on. */
  lemma RetryDelaySchedule(attempts: U32)
    ensures attempts <= 1 ==> RetryDelay(attempts) == 300
    ensures attempts == 2 ==> RetryDelay(attempts) == 600
    ensures attempts == 3 ==> RetryDelay(attempts) == 1200
    ensures attempts == 4 ==> RetryDelay(attempts) == 2400
    ensures attempts >= 5 ==> RetryDelay(attempts) == 3600
  {
    Pow2UpToSixteen(3);
    if attempts >= 5 {
      var e := if attempts - 1 < MAX_EXPONENT then attempts - 1 else MAX_EXPONENT;
      Pow2UpToSixteen(e);
    }
  }

  /**
    The attempt count keeps only the counter's low 32 bits, so the counter
    value 2^32 reads as 0 attempts and restarts the schedule at 300 seconds.
  */
  lemma CounterWrapRestartsSchedule()
    ensures AttemptsFromReply(Ok(U32_MODULUS)) == 0
    ensures RetryDelay(AttemptsFromReply(Ok(U32_MODULUS))) == ERROR_REQUEUE_MIN_SECONDS
    ensures RetryDelay(AttemptsFromReply(Ok(U32_MODULUS - 1))) == SUCCESS_REQUEUE_SECONDS
  {
    RetryDelaySchedule(U32_MODULUS - 1);
  }
}

=== FILE: base64.dfy ===
/**
  The standard Base64 alphabet of RFC 4648 section 4 with the strictness of
  the `base64` crate's `STANDARD` engine: padding is required and canonical,
  and the unused low bits of the last symbol must be zero. Each decoded group
  of four symbols is three bytes; a final group may carry one or two '='.
*/
module Base64 {
  import opened Outcomes
  import opened Bytes

  /** A six-bit value, the payload of one Base64 symbol. */
  type Sextet = v: int | 0 <= v < 64

  /** Why the crate refuses an input; the model does not tell its variants apart. */
  datatype DecodeError = Malformed

  /** The symbol for a six-bit value (table 1 of RFC 4648). */
  function SymbolOf(v: Sextet): char {
    if v < 26 then ('A' as int + v) as char
    else if v < 52 then ('a' as int + (v - 26)) as char
    else if v < 62 then ('0' as int + (v - 52)) as char
    else if v == 62 then '+'
    else '/'
  }

  /** The six-bit value of a symbol, or `None` for a character outside the alphabet. */
  function ValueOf(c: char): (r: Option<nat>)
    ensures r.Some? ==> r.value < 64 && SymbolOf(r.value) == c
    ensures c == '=' ==> r.None?
  {
    if 'A' <= c <= 'Z' then Some(c as int - 'A' as int)
    else if 'a' <= c <= 'z' then Some(c as int - 'a' as int + 26)
    else if '0' <= c <= '9' then Some(c as int - '0' as int + 52)
    else if c == '+' then Some(62)
    else if c == '/' then Some(63)
    else None
  }

  lemma ValueOfSymbol(v: Sextet)
    ensures ValueOf(SymbolOf(v)) == Some(v)
  {
  }

  // ---------------------------------------------------------------------------
  // Encoding
  // ---------------------------------------------------------------------------

  /** Three bytes as four symbols. */
  function EncodeTriple(x: Byte, y: Byte, z: Byte): (s: string)
    ensures |s| == 4
  {
    [SymbolOf(x / 4), SymbolOf((x % 4) * 16 + y / 16), SymbolOf((y % 16) * 4 + z / 64), SymbolOf(z % 64)]
  }

  /** A final single byte: two symbols and two '='. */
  function EncodeOne(x: Byte): (s: string)
    ensures |s| == 4
  {
    [SymbolOf(x / 4), SymbolOf((x % 4) * 16), '=', '=']
  }

  /** A final pair of bytes: three symbols and one '='. */
  function EncodeTwo(x: Byte, y: Byte): (s: string)
    ensures |s| == 4
  {
    [SymbolOf(x / 4), SymbolOf((x % 4) * 16 + y / 16), SymbolOf((y % 16) * 4), '=']
  }

  /** Rust's `BASE64_STANDARD.encode(bytes)`. */
  function Encode(bs: seq<Byte>): (s: string)
    ensures |s| % 4 == 0
    decreases |bs|
  {
    if |bs| == 0 then ""
    else if |bs| == 1 then EncodeOne(bs[0])
    else if |bs| == 2 then EncodeTwo(bs[0], bs[1])
    else
      var rest := Encode(bs[3..]);
      GroupMod(|rest|);
      EncodeTriple(bs[0], bs[1], bs[2]) + rest
  }

  // ---------------------------------------------------------------------------
  // Decoding
  // ---------------------------------------------------------------------------

  /** Four symbols without padding as three bytes. */
  function DecodeQuad(q: string): Option<seq<Byte>>
    requires |q| == 4
  {
    match (ValueOf(q[0]), ValueOf(q[1]), ValueOf(q[2]), ValueOf(q[3]))
    case (Some(a), Some(b), Some(c), Some(d)) =>
      Some([a * 4 + b / 16, (b % 16) * 16 + c / 4, (c % 4) * 64 + d])
    case _ => None
  }

  /**
    The last group: "ab==" is one byte and "abc=" two, each only when the
    bits the padding drops are zero; a group without '=' is three bytes.
  */
  function DecodeLast(q: string): Option<seq<Byte>>
    requires |q| == 4
  {
    if q[2] == '=' && q[3] == '=' then
      match (ValueOf(q[0]), ValueOf(q[1]))
      case (Some(a), Some(b)) => if b % 16 == 0 then Some([a * 4 + b / 16]) else None
      case _ => None
    else if q[3] == '=' then
      match (ValueOf(q[0]), ValueOf(q[1]), ValueOf(q[2]))
      case (Some(a), Some(b), Some(c)) =>
        if c % 4 == 0 then Some([a * 4 + b / 16, (b % 16) * 16 + c / 4]) else None
      case _ => None
    else DecodeQuad(q)
  }

  /** The groups of a text, the last one possibly padded; a partial group is refused. */
  function DecodeGroups(s: string): Option<seq<Byte>>
    decreases |s|
  {
    if |s| < 4 then (if |s| == 0 then Some([]) else None)
    else if |s| == 4 then DecodeLast(s)
    else
      match DecodeQuad(s[..4])
      case None => None
      case Some(head) =>
        match DecodeGroups(s[4..])
        case None => None
        case Some(tail) => Some(head + tail)
  }

  /** Rust's `BASE64_STANDARD.decode(s)`. */
  function Decode(s: string): Result<seq<Byte>, DecodeError> {
    if |s| % 4 != 0 then Err(Malformed)
    else
      match DecodeGroups(s)
      case None => Err(Malformed)
      case Some(bs) => Ok(bs)
  }

  // ---------------------------------------------------------------------------
  // Round trips
  // ---------------------------------------------------------------------------

  lemma DecodeEncodeTriple(x: Byte, y: Byte, z: Byte)
    ensures DecodeQuad(EncodeTriple(x, y, z)) == Some([x, y, z])
  {
    var a, b, c, d := x / 4, (x % 4) * 16 + y / 16, (y % 16) * 4 + z / 64, z % 64;
    ValueOfSymbol(a);
    ValueOfSymbol(b);
    ValueOfSymbol(c);
    ValueOfSymbol(d);
    assert b / 16 == x % 4 && b % 16 == y / 16;
    assert c / 4 == y % 16 && c % 4 == z / 64;
  }

  lemma DecodeEncodeOne(x: Byte)
    ensures DecodeLast(Encode([x])) == Some([x])
  {
    ValueOfSymbol(x / 4);
    ValueOfSymbol((x % 4) * 16);
  }

  lemma DecodeEncodeTwo(x: Byte, y: Byte)
    ensures DecodeLast(Encode([x, y])) == Some([x, y])
  {
    var b := (x % 4) * 16 + y / 16;
    ValueOfSymbol(x / 4);
    ValueOfSymbol(b);
    ValueOfSymbol((y % 16) * 4);
    assert b / 16 == x % 4 && b % 16 == y / 16;
  }

  lemma EncodeCons(bs: seq<Byte>)
    requires |bs| >= 3
    ensures Encode(bs) == EncodeTriple(bs[0], bs[1], bs[2]) + Encode(bs[3..])
  {
  }

  /** One step of group decoding: a full group, then the rest. */
  lemma DecodeGroupsCons(s: string)
    requires |s| > 4
    ensures DecodeGroups(s) ==
      match DecodeQuad(s[..4])
      case None => None
      case Some(head) =>
        match DecodeGroups(s[4..])
        case None => None
        case Some(tail) => Some(head + tail)
  {
  }

  /** A decodable text longer than one group: its first group and its rest both decode. */
  lemma DecodeGroupsStep(s: string)
    requires |s| > 4 && DecodeGroups(s).Some?
    ensures DecodeQuad(s[..4]).Some? && DecodeGroups(s[4..]).Some?
    ensures DecodeGroups(s).value == DecodeQuad(s[..4]).value + DecodeGroups(s[4..]).value
  {
    DecodeGroupsCons(s);
  }

  lemma GroupMod(k: nat)
    requires k % 4 == 0
    ensures (4 + k) % 4 == 0
  {
  }

  /** Decoding the encoding of any bytes gives the bytes back. */
  lemma DecodeEncode(bs: seq<Byte>)
    ensures Decode(Encode(bs)) == Ok(bs)
  {
    DecodeGroupsEncode(bs);
  }

  lemma {:induction false} DecodeGroupsEncode(bs: seq<Byte>)
    ensures DecodeGroups(Encode(bs)) == Some(bs)
    decreases |bs|
  {
    if |bs| == 1 {
      DecodeEncodeOne(bs[0]);
      assert bs == [bs[0]];
    } else if |bs| == 2 {
      DecodeEncodeTwo(bs[0], bs[1]);
      assert bs == [bs[0], bs[1]];
    } else if |bs| == 3 {
      DecodeEncodeLastTriple(bs);
    } else if |bs| > 3 {
      DecodeGroupsEncode(bs[3..]);
      DecodeGroupsEncodeStep(bs);
    }
  }

  lemma DecodeEncodeLastTriple(bs: seq<Byte>)
    requires |bs| == 3
    ensures DecodeGroups(Encode(bs)) == Some(bs)
  {
    EncodeCons(bs);
    assert Encode(bs) == EncodeTriple(bs[0], bs[1], bs[2]);
    DecodeEncodeTriple(bs[0], bs[1], bs[2]);
    assert bs == [bs[0], bs[1], bs[2]];
  }

  /** The step of the induction: a full group in front of bytes that round-trip. */
  lemma DecodeGroupsEncodeStep(bs: seq<Byte>)
    requires |bs| > 3 && DecodeGroups(Encode(bs[3..])) == Some(bs[3..])
    ensures DecodeGroups(Encode(bs)) == Some(bs)
  {
    FirstThree(bs);
    var head := EncodeTriple(bs[0], bs[1], bs[2]);
    var tail := Encode(bs[3..]);
    EncodeCons(bs);
    EncodeNonEmpty(bs[3..]);
    var s := head + tail;
    SplitAt(head, tail);
    DecodeGroupsCons(s);
    DecodeEncodeTriple(bs[0], bs[1], bs[2]);
  }

  lemma FirstThree(bs: seq<Byte>)
    requires |bs| >= 3
    ensures [bs[0], bs[1], bs[2]] + bs[3..] == bs
  {
  }

  lemma EncodeNonEmpty(bs: seq<Byte>)
    requires |bs| > 0
    ensures |Encode(bs)| >= 4
  {
    if |bs| >= 3 {
      EncodeCons(bs);
    }
  }

  lemma DivMod4(n: int, q: int, r: int)
    requires 0 <= r < 4 && n == q * 4 + r
    ensures n / 4 == q && n % 4 == r
  {
  }

  lemma DivMod16(n: int, q: int, r: int)
    requires 0 <= r < 16 && n == q * 16 + r
    ensures n / 16 == q && n % 16 == r
  {
  }

  lemma DivMod64(n: int, q: int, r: int)
    requires 0 <= r < 64 && n == q * 64 + r
    ensures n / 64 == q && n % 64 == r
  {
  }

  lemma EncodeDecodeQuad(q: string)
    requires |q| == 4 && DecodeQuad(q).Some?
    ensures var v := DecodeQuad(q).value; EncodeTriple(v[0], v[1], v[2]) == q
  {
    var a, b, c, d := ValueOf(q[0]).value, ValueOf(q[1]).value, ValueOf(q[2]).value, ValueOf(q[3]).value;
    var x, y, z := a * 4 + b / 16, (b % 16) * 16 + c / 4, (c % 4) * 64 + d;
    assert DecodeQuad(q).value == [x, y, z];
    DivMod4(x, a, b / 16);
    DivMod16(y, b % 16, c / 4);
    DivMod64(z, c % 4, d);
    assert x % 4 * 16 + y / 16 == b by {
      DivMod16(b, b / 16, b % 16);
    }
    assert y % 16 * 4 + z / 64 == c by {
      DivMod4(c, c / 4, c % 4);
    }
  }

  lemma EncodeDecodeLast(q: string)
    requires |q| == 4 && DecodeLast(q).Some?
    ensures Encode(DecodeLast(q).value) == q
  {
    if q[2] == '=' && q[3] == '=' {
      EncodeDecodeDoublePad(q);
    } else if q[3] == '=' {
      EncodeDecodeSinglePad(q);
    } else {
      EncodeDecodeQuad(q);
      var v := DecodeQuad(q).value;
      assert v[3..] == [];
      assert Encode(v) == EncodeTriple(v[0], v[1], v[2]) + Encode(v[3..]);
    }
  }

  lemma EncodeDecodeDoublePad(q: string)
    requires |q| == 4 && q[2] == '=' && q[3] == '=' && DecodeLast(q).Some?
    ensures Encode(DecodeLast(q).value) == q
  {
    var a, b := ValueOf(q[0]).value, ValueOf(q[1]).value;
    var x := a * 4 + b / 16;
    assert DecodeLast(q).value == [x];
    assert x / 4 == a && (x % 4) * 16 == b;
    assert Encode([x]) == [SymbolOf(a), SymbolOf(b), '=', '='];
  }

  lemma EncodeDecodeSinglePad(q: string)
    requires |q| == 4 && q[3] == '=' && q[2] != '=' && DecodeLast(q).Some?
    ensures Encode(DecodeLast(q).value) == q
  {
    var a, b, c := ValueOf(q[0]).value, ValueOf(q[1]).value, ValueOf(q[2]).value;
    var x, y := a * 4 + b / 16, (b % 16) * 16 + c / 4;
    assert DecodeLast(q).value == [x, y];
    DivMod4(x, a, b / 16);
    DivMod16(y, b % 16, c / 4);
    DivMod16(b, b / 16, b % 16);
    assert (y % 16) * 4 == c by {
      DivMod4(c, c / 4, 0);
    }
    assert Encode([x, y]) == [SymbolOf(a), SymbolOf(b), SymbolOf(c), '='];
  }

  /** Only canonical text decodes: whatever decodes is the encoding of what it decodes to. */
  lemma EncodeDecode(s: string)
    requires Decode(s).Ok?
    ensures Encode(Decode(s).value) == s
  {
    EncodeDecodeGroups(s);
  }

  lemma {:induction false} EncodeDecodeGroups(s: string)
    requires DecodeGroups(s).Some?
    ensures Encode(DecodeGroups(s).value) == s
    decreases |s|
  {
    if |s| == 4 {
      EncodeDecodeLastGroup(s);
    } else if |s| > 4 {
      DecodeGroupsStep(s);
      EncodeDecodeGroups(s[4..]);
      EncodeDecodeFirstGroup(s);
    }
  }

  lemma EncodeDecodeLastGroup(s: string)
    requires |s| == 4 && DecodeGroups(s).Some?
    ensures Encode(DecodeGroups(s).value) == s
  {
    EncodeDecodeLast(s);
  }

  /** The step of the induction: when the rest round-trips, so does the whole text. */
  lemma EncodeDecodeFirstGroup(s: string)
    requires |s| > 4 && DecodeQuad(s[..4]).Some? && DecodeGroups(s[4..]).Some?
    requires Encode(DecodeGroups(s[4..]).value) == s[4..]
    ensures DecodeGroups(s).Some? && Encode(DecodeGroups(s).value) == s
  {
    DecodeGroupsCons(s);
    EncodeDecodeQuad(s[..4]);
    GroupThenRest(s, DecodeQuad(s[..4]).value, DecodeGroups(s[4..]).value);
  }

  /** Encoding a full group followed by more bytes encodes the group, then the rest. */
  lemma EncodeAppendGroup(head: seq<Byte>, tail: seq<Byte>)
    requires |head| == 3
    ensures Encode(head + tail) == EncodeTriple(head[0], head[1], head[2]) + Encode(tail)
  {
    var bs := head + tail;
    assert bs[3..] == tail;
    assert bs[0] == head[0] && bs[1] == head[1] && bs[2] == head[2];
    EncodeCons(bs);
  }

  /** A text whose first group encodes `head` and whose rest encodes `tail` encodes `head + tail`. */
  lemma GroupThenRest(s: string, head: seq<Byte>, tail: seq<Byte>)
    requires |s| > 4 && |head| == 3
    requires EncodeTriple(head[0], head[1], head[2]) == s[..4] && Encode(tail) == s[4..]
    ensures Encode(head + tail) == s
  {
    EncodeAppendGroup(head, tail);
    assert s[..4] + s[4..] == s;
  }

  /** Decoded output never holds more than three bytes per four symbols. */
  lemma {:induction false} DecodeLength(s: string)
    requires Decode(s).Ok?
    ensures |Decode(s).value| <= |s| / 4 * 3
    ensures |s| > 0 ==> |Decode(s).value| > |s| / 4 * 3 - 3
  {
    EncodeDecode(s);
    EncodeLength(Decode(s).value);
  }

  lemma {:induction false} EncodeLength(bs: seq<Byte>)
    ensures |Encode(bs)| == (|bs| + 2) / 3 * 4
    decreases |bs|
  {
    if |bs| > 2 {
      EncodeLength(bs[3..]);
      EncodeCons(bs);
      assert (|bs| + 2) / 3 == (|bs[3..]| + 2) / 3 + 1;
    }
  }
}

=== FILE: bytes.dfy ===
/**
  Raw bytes, and the two byte-to-text views the system uses: the "visible
  ASCII" test behind `HeaderValue::to_str`, and the one-byte-one-char mapping
  `b as char`.
*/
module Bytes {

  type Byte = b: int | 0 <= b < 256

  /**
    The bytes `HeaderValue::to_str` accepts: horizontal tab and the printable
    ASCII range 0x20..0x7E.
  */
  predicate IsVisibleAscii(b: Byte) {
    b == 0x09 || (0x20 <= b < 0x7F)
  }

  predicate AllVisibleAscii(bs: seq<Byte>) {
    forall i :: 0 <= i < |bs| ==> IsVisibleAscii(bs[i])
  }

  /** Rust's `b as char`: the character whose code point is the byte value. */
  function ByteToChar(b: Byte): char {
    b as char
  }

  function BytesToChars(bs: seq<Byte>): (s: string)
    ensures |s| == |bs|
    ensures forall i :: 0 <= i < |bs| ==> s[i] == ByteToChar(bs[i])
  {
    seq(|bs|, i requires 0 <= i < |bs| => ByteToChar(bs[i]))
  }

  /** The bytes of a string whose characters are all below 256 (its inverse view). */
  function CharsToBytes(s: string): (bs: seq<Byte>)
    requires forall i :: 0 <= i < |s| ==> s[i] as int < 256
    ensures |bs| == |s|
  {
    seq(|s|, i requires 0 <= i < |s| => s[i] as int as Byte)
  }

  lemma BytesCharsRoundTrip(bs: seq<Byte>)
    ensures CharsToBytes(BytesToChars(bs)) == bs
  {
  }

  /** The two halves of a concatenation are found again by slicing at the seam. */
  lemma SplitAt<T>(a: seq<T>, b: seq<T>)
    ensures (a + b)[..|a|] == a && (a + b)[|a|..] == b
  {
  }
}

=== FILE: certificate.dfy ===
/**
  Where the upstream's CA certificate comes from: a key of a Kubernetes
  Secret, an inline Base64 string, or nowhere (TLS without a pinned CA). The
  Secret is the result of a lookup the caller performs and is passed in as the
  function `fetch(namespace, name)`.
*/
module Certificate {
  import opened Outcomes
  import opened Bytes
  import Base64
  import Utf8

  datatype CertSource =
    | Secret(name: string, key: string, namespace: Option<string>)
    | Cert(encoded: string)
    | Insecure(flag: bool)

  /** The two payload maps of a fetched Secret: `data` holds bytes, `stringData` text. */
  datatype KubeSecret = KubeSecret(data: Option<map<string, seq<Byte>>>, stringData: Option<map<string, string>>)

  /**
    Why no certificate could be produced. `Message` carries the text the
    source formats itself; the decoders' own error texts are not modelled.
  */
  datatype CertError = Message(text: string) | InvalidUtf8 | InvalidBase64

  function KeyNotFound(key: string, name: string): CertError {
    Message("Key " + key + " not found in secret " + name)
  }

  /**
    The `data` branch: the bytes must be UTF-8 text, and that text Base64;
    each decoded byte becomes one char. The failures are told apart, UTF-8
    first, and what is accepted is exactly the canonical encoding of the
    certificate it yields.
  */
  function FromSecretData(encoded: seq<Byte>): (r: Result<Option<string>, CertError>)
    ensures r.Ok? ==> r.value.Some?
    ensures r.Ok? <==> Utf8.Decode(encoded).Some? && Base64.Decode(Utf8.Decode(encoded).value).Ok?
    ensures Utf8.Decode(encoded).None? ==> r == Err(InvalidUtf8)
    ensures Utf8.Decode(encoded).Some? && Base64.Decode(Utf8.Decode(encoded).value).Err? ==> r == Err(InvalidBase64)
    ensures r.Ok? ==>
      (forall i :: 0 <= i < |r.value.value| ==> r.value.value[i] as int < 256) &&
      encoded == Utf8.Encode(Base64.Encode(CharsToBytes(r.value.value)))
  {
    match Utf8.Decode(encoded)
    case None => Err(InvalidUtf8)
    case Some(text) =>
      match Base64.Decode(text)
      case Err(_) => Err(InvalidBase64)
      case Ok(bs) =>
        SecretDataIsCanonical(encoded, text, bs);
        Ok(Some(BytesToChars(bs)))
  }

  /** Accepted `data` bytes are the UTF-8 bytes of the Base64 text of the decoded bytes. */
  lemma SecretDataIsCanonical(encoded: seq<Byte>, text: string, bs: seq<Byte>)
    requires Utf8.Decode(encoded) == Some(text) && Base64.Decode(text) == Ok(bs)
    ensures encoded == Utf8.Encode(Base64.Encode(CharsToBytes(BytesToChars(bs))))
  {
    Utf8.EncodeDecode(encoded);
    Base64.EncodeDecode(text);
    BytesCharsRoundTrip(bs);
  }

  /**
    The `string_data` branch, and the inline branch: the text must be Base64,
    and its bytes UTF-8. The failures are told apart, Base64 first, and what
    is accepted is exactly the canonical encoding of the certificate it yields.
  */
  function FromBase64Text(encoded: string, base64Error: CertError): (r: Result<Option<string>, CertError>)
    ensures r.Ok? ==> r.value.Some?
    ensures r.Ok? <==> Base64.Decode(encoded).Ok? && Utf8.Decode(Base64.Decode(encoded).value).Some?
    ensures Base64.Decode(encoded).Err? ==> r == Err(base64Error)
    ensures Base64.Decode(encoded).Ok? && Utf8.Decode(Base64.Decode(encoded).value).None? ==> r == Err(InvalidUtf8)
    ensures r.Ok? ==> encoded == Base64.Encode(Utf8.Encode(r.value.value))
  {
    match Base64.Decode(encoded)
    case Err(_) => Err(base64Error)
    case Ok(bs) =>
      match Utf8.Decode(bs)
      case None => Err(InvalidUtf8)
      case Some(s) =>
        Base64.EncodeDecode(encoded);
        Utf8.EncodeDecode(bs);
        Ok(Some(s))
  }

  /** `CertSource::get_cert`. */
  function GetCert(src: CertSource, ns: string, fetch: (string, string) -> Result<KubeSecret, string>)
    : (r: Result<Option<string>, CertError>)
    ensures src.Insecure? ==> r == Ok(None)
    ensures src.Cert? ==> r == FromBase64Text(src.encoded, Message("Failed to decode base64"))
    ensures src.Secret? ==>
      var secret := fetch(src.namespace.GetOr(ns), src.name);
      (secret.Err? ==> r == Err(Message(secret.error))) &&
      (secret.Ok? && secret.value.data.Some? ==>
        r == (if src.key in secret.value.data.value
              then FromSecretData(secret.value.data.value[src.key])
              else Err(KeyNotFound(src.key, src.name)))) &&
      (secret.Ok? && secret.value.data.None? && secret.value.stringData.Some? ==>
        r == (if src.key in secret.value.stringData.value
              then FromBase64Text(secret.value.stringData.value[src.key], InvalidBase64)
              else Err(KeyNotFound(src.key, src.name)))) &&
      (secret.Ok? && secret.value.data.None? && secret.value.stringData.None? ==>
        r == Err(Message("No data found in secret " + src.name)))
  {
    match src
    case Insecure(_) => Ok(None)
    case Cert(c) => FromBase64Text(c, Message("Failed to decode base64"))
    case Secret(name, key, namespace) =>
      match fetch(namespace.GetOr(ns), name)
      case Err(e) => Err(Message(e))
      case Ok(secret) =>
        if secret.data.Some? then
          if key in secret.data.value then FromSecretData(secret.data.value[key])
          else Err(KeyNotFound(key, name))
        else if secret.stringData.Some? then
          if key in secret.stringData.value then FromBase64Text(secret.stringData.value[key], InvalidBase64)
          else Err(KeyNotFound(key, name))
        else Err(Message("No data found in secret " + name))
  }

  /** Any certificate text, written inline in Base64 of its UTF-8 bytes, comes back unchanged. */
  lemma InlineRoundTrip(pem: string, ns: string, fetch: (string, string) -> Result<KubeSecret, string>)
    ensures GetCert(Cert(Base64.Encode(Utf8.Encode(pem))), ns, fetch) == Ok(Some(pem))
  {
    Base64.DecodeEncode(Utf8.Encode(pem));
    Utf8.DecodeEncode(pem);
  }

  /** Only the canonical inline form is accepted: an accepted text is the encoding of its result. */
  lemma InlineIsCanonical(c: string, ns: string, fetch: (string, string) -> Result<KubeSecret, string>)
    requires GetCert(Cert(c), ns, fetch).Ok?
    ensures c == Base64.Encode(Utf8.Encode(GetCert(Cert(c), ns, fetch).value.value))
  {
    Base64.EncodeDecode(c);
    Utf8.EncodeDecode(Base64.Decode(c).value);
  }

  /**
    A Secret whose `string_data` holds the Base64 form of a certificate's
    UTF-8 bytes yields that certificate, provided `data` is absent.
  */
  lemma StringDataRoundTrip(name: string, key: string, secretNs: Option<string>, ns: string, pem: string,
                            others: map<string, string>, fetch: (string, string) -> Result<KubeSecret, string>)
    requires fetch(secretNs.GetOr(ns), name) ==
      Ok(KubeSecret(None, Some(others[key := Base64.Encode(Utf8.Encode(pem))])))
    ensures GetCert(Secret(name, key, secretNs), ns, fetch) == Ok(Some(pem))
  {
    Base64.DecodeEncode(Utf8.Encode(pem));
    Utf8.DecodeEncode(pem);
  }

  /**
    A Secret whose `data` holds the Base64 text of a certificate made of
    one-byte characters yields that certificate: the decoded bytes map back
    to the same characters.
  */
  lemma SecretDataRoundTrip(name: string, key: string, secretNs: Option<string>, ns: string, pem: string,
                            others: map<string, seq<Byte>>, fetch: (string, string) -> Result<KubeSecret, string>)
    requires forall i :: 0 <= i < |pem| ==> pem[i] as int < 256
    requires fetch(secretNs.GetOr(ns), name) ==
      Ok(KubeSecret(Some(others[key := Utf8.Encode(Base64.Encode(CharsToBytes(pem)))]), None))
    ensures GetCert(Secret(name, key, secretNs), ns, fetch) == Ok(Some(pem))
  {
    var text := Base64.Encode(CharsToBytes(pem));
    Utf8.DecodeEncode(text);
    Base64.DecodeEncode(CharsToBytes(pem));
    assert BytesToChars(CharsToBytes(pem)) == pem;
  }

  /**
    Once `data` is present it alone is consulted: a key missing from it is an
    error even when `string_data` holds that key.
  */
  lemma DataShadowsStringData(name: string, key: string, secretNs: Option<string>, ns: string,
                              data: map<string, seq<Byte>>, stringData: map<string, string>,
                              fetch: (string, string) -> Result<KubeSecret, string>)
    requires key !in data && key in stringData
    requires fetch(secretNs.GetOr(ns), name) == Ok(KubeSecret(Some(data), Some(stringData)))
    ensures GetCert(Secret(name, key, secretNs), ns, fetch) == Err(KeyNotFound(key, name))
  {
  }
}

=== FILE: cli_commands.dfy ===
/**
  The `config` sub-commands of the command-line tool: `get` shows servers,
  `set-def` changes the default server or a server's default namespace, and
  `clear` forgets servers. Each works on the in-memory configuration; saving
  it to disk is recorded as "saved" and its failure is only logged by the
  source, so it changes nothing here. The iteration order of the servers'
  hash map is an input, as are the JSON/YAML writers and the table renderer.
*/
module CliCommands {
  import opened Outcomes
  import opened Strings
  import opened CliServerConfig
  import SC = CliServerConfig
  import CC = CliConfig
  import CliContext

  // ---------------------------------------------------------------------------
  // Configuration invariants
  // ---------------------------------------------------------------------------

  /** Every server is stored under the name `url_to_name` gives its URL. */
  predicate WellKeyed(c: CC.CliConfig) {
    forall k :: k in c.servers ==> UrlToName(c.servers[k].url) == k
  }

  /** The default server name is either cleared or names a stored server. */
  predicate DefaultResolves(c: CC.CliConfig) {
    c.defaultServerName == "" || c.defaultServerName in c.servers
  }

  /** The configuration a fresh installation writes satisfies both invariants. */
  lemma NewConfigIsConsistent()
    ensures WellKeyed(CC.New()) && DefaultResolves(CC.New())
  {
    CC.DefaultServerName(CC.DEFAULT_SERVER_URL);
  }

  /** `order` is one pass over the servers' keys: each key exactly once. */
  ghost predicate Enumerates(c: CC.CliConfig, order: seq<string>) {
    (forall k :: k in order <==> k in c.servers) &&
    (forall i, j :: 0 <= i < j < |order| ==> order[i] != order[j])
  }

  // ---------------------------------------------------------------------------
  // `get` output rows
  // ---------------------------------------------------------------------------

  datatype GetOutput = GetOutput(isDefault: bool, url: string, defaultNamespace: string, hasClusters: bool)

  /** `GetOutput::new_from_servers`. */
  function NewFromServer(s: SC.CliServerConfig, defaultServerName: string): (o: GetOutput)
    ensures o.isDefault <==> UrlToName(s.url) == defaultServerName
    ensures o.url == s.url && o.defaultNamespace == s.namespace
    ensures o.hasClusters <==> |s.clusters| > 0
  {
    GetOutput(UrlToName(s.url) == defaultServerName, s.url, s.namespace, s.clusters != map[])
  }

  /** Rust's `bool::to_string`. */
  function BoolText(b: bool): string {
    if b then "true" else "false"
  }

  function ParseBool(s: string): Option<bool> {
    if s == "true" then Some(true) else if s == "false" then Some(false) else None
  }

  /** `GetOutput::to_row_headers`. */
  const ROW_HEADERS: seq<string> := ["Is Default", "Server URL", "Default Namespace", "Has Clusters"]

  /** `GetOutput::to_row`: one cell per header, in the headers' order. */
  function ToRow(o: GetOutput): (row: seq<string>)
    ensures |row| == |ROW_HEADERS|
    ensures row[1] == o.url && row[2] == o.defaultNamespace
    ensures ParseBool(row[0]) == Some(o.isDefault) && ParseBool(row[3]) == Some(o.hasClusters)
  {
    [BoolText(o.isDefault), o.url, o.defaultNamespace, BoolText(o.hasClusters)]
  }

  /** Reading a table row back into an output record. */
  function FromRow(row: seq<string>): Option<GetOutput> {
    if |row| != 4 then None
    else
      match (ParseBool(row[0]), ParseBool(row[3]))
      case (Some(d), Some(h)) => Some(GetOutput(d, row[1], row[2], h))
      case _ => None
  }

  /** A row keeps everything its record says. */
  lemma RowRoundTrip(o: GetOutput)
    ensures FromRow(ToRow(o)) == Some(o)
  {
  }

  /** `VecGetOutput`; its `metadata` is always `None` and is modelled by its absence. */
  datatype VecGetOutput = VecGetOutput(apiVersion: string, kind: string, hasMetadata: bool, items: seq<GetOutput>)

  /** `VecGetOutput::new`. */
  function NewVec(items: seq<GetOutput>): (v: VecGetOutput)
    ensures v.apiVersion == "v1" && v.kind == "List" && !v.hasMetadata && v.items == items
  {
    VecGetOutput("v1", "List", false, items)
  }

  /** The serialisers and the table renderer the output goes through. */
  datatype Renderers = Renderers(
    json: VecGetOutput -> Result<string, string>,
    yaml: VecGetOutput -> Result<string, string>,
    table: (seq<string>, seq<seq<string>>) -> string)

  /** `to_output`: JSON or YAML text, empty when the serialiser fails, or a table of one row per item. */
  function ToOutput(v: VecGetOutput, format: CliContext.ContextFormat, r: Renderers): (text: string)
    ensures format.Json? ==> text == r.json(v).ToOption().GetOr("")
    ensures format.Yaml? ==> text == r.yaml(v).ToOption().GetOr("")
    ensures format.Table? ==>
      exists rows: seq<seq<string>> ::
        |rows| == |v.items| && (forall i :: 0 <= i < |rows| ==> FromRow(rows[i]) == Some(v.items[i])) &&
        text == r.table(ROW_HEADERS, rows)
  {
    match format
    case Json => r.json(v).ToOption().GetOr("")
    case Yaml => r.yaml(v).ToOption().GetOr("")
    case Table =>
      var rows := seq(|v.items|, i requires 0 <= i < |v.items| => ToRow(v.items[i]));
      assert forall i :: 0 <= i < |rows| ==> FromRow(rows[i]) == Some(v.items[i]) by {
        forall i | 0 <= i < |rows|
          ensures FromRow(rows[i]) == Some(v.items[i])
        {
          RowRoundTrip(v.items[i]);
        }
      }
      r.table(ROW_HEADERS, rows)
  }

  // ---------------------------------------------------------------------------
  // `config get`
  // ---------------------------------------------------------------------------

  /** The filters of `config get`: the server's name starts with the filter URL's name; the namespace matches exactly. */
  predicate Selected(name: string, s: SC.CliServerConfig, serverUrl: Option<string>, namespace: Option<string>) {
    (serverUrl.Some? ==> IsPrefix(UrlToName(serverUrl.value), name)) &&
    (namespace.Some? ==> s.namespace == namespace.value)
  }

  /** The names the filters keep, in iteration order. */
  function SelectNames(c: CC.CliConfig, order: seq<string>, serverUrl: Option<string>, namespace: Option<string>)
    : (names: seq<string>)
    requires forall k :: k in order ==> k in c.servers
    ensures |names| <= |order|
    ensures forall n :: n in names <==> n in order && Selected(n, c.servers[n], serverUrl, namespace)
    ensures (forall i, j :: 0 <= i < j < |order| ==> order[i] != order[j]) ==>
      forall i, j :: 0 <= i < j < |names| ==> names[i] != names[j]
    decreases |order|
  {
    if |order| == 0 then []
    else
      var rest := SelectNames(c, order[1..], serverUrl, namespace);
      assert forall n :: n in order <==> n == order[0] || n in order[1..];
      if Selected(order[0], c.servers[order[0]], serverUrl, namespace) then [order[0]] + rest else rest
  }

  /** The output records for the given servers, each marked default or not. */
  function OutputsOf(c: CC.CliConfig, names: seq<string>): (outs: seq<GetOutput>)
    requires forall n :: n in names ==> n in c.servers
    ensures |outs| == |names|
    ensures forall i :: 0 <= i < |names| ==> outs[i] == NewFromServer(c.servers[names[i]], c.defaultServerName)
  {
    seq(|names|, i requires 0 <= i < |names| => NewFromServer(c.servers[names[i]], c.defaultServerName))
  }

  /**
    The records `handle_get` shows: every server with `--list`; with no
    filter, the default server if it is stored; otherwise the servers both
    filters keep.
  */
  function GetItems(c: CC.CliConfig, order: seq<string>, serverUrl: Option<string>, namespace: Option<string>, list: bool)
    : (outs: seq<GetOutput>)
    requires Enumerates(c, order)
    ensures list ==> outs == OutputsOf(c, order)
    ensures !list && serverUrl.None? && namespace.None? ==>
      outs == (if c.defaultServerName in c.servers then [NewFromServer(c.servers[c.defaultServerName], c.defaultServerName)] else [])
    ensures !list && (serverUrl.Some? || namespace.Some?) ==>
      outs == OutputsOf(c, SelectNames(c, order, serverUrl, namespace))
  {
    if list then OutputsOf(c, order)
    else if serverUrl.None? && namespace.None? then
      if c.defaultServerName in c.servers then [NewFromServer(c.servers[c.defaultServerName], c.defaultServerName)] else []
    else OutputsOf(c, SelectNames(c, order, serverUrl, namespace))
  }

  /** `handle_get`: the printed text. The configuration is left as it was. */
  function HandleGet(c: CC.CliConfig, order: seq<string>, serverUrl: Option<string>, namespace: Option<string>, list: bool,
                     format: CliContext.ContextFormat, r: Renderers): (text: string)
    requires Enumerates(c, order)
    ensures format.Table? ==>
      exists rows: seq<seq<string>> ::
        |rows| == |GetItems(c, order, serverUrl, namespace, list)| &&
        text == r.table(ROW_HEADERS, rows)
  {
    ToOutput(NewVec(GetItems(c, order, serverUrl, namespace, list)), format, r)
  }

  /**
    In a well-keyed configuration a record is marked default exactly when its
    server is the default one.
  */
  lemma DefaultMarkMatchesName(c: CC.CliConfig, order: seq<string>, serverUrl: Option<string>, namespace: Option<string>,
                               list: bool, i: nat)
    requires Enumerates(c, order) && WellKeyed(c)
    requires list || serverUrl.Some? || namespace.Some?
    requires i < |GetItems(c, order, serverUrl, namespace, list)|
    ensures var names := if list then order else SelectNames(c, order, serverUrl, namespace);
      i < |names| && (GetItems(c, order, serverUrl, namespace, list)[i].isDefault <==> names[i] == c.defaultServerName)
  {
  }

  /** `--list` shows one record per stored server. */
  lemma ListShowsEveryServer(c: CC.CliConfig, order: seq<string>)
    requires Enumerates(c, order)
    ensures |GetItems(c, order, None, None, true)| == |c.servers|
  {
    CountEnumeration(c.servers.Keys, order);
  }

  /** A duplicate-free sequence holding exactly the members of a set has the set's size. */
  lemma {:induction false} CountEnumeration(keys: set<string>, order: seq<string>)
    requires forall k :: k in order <==> k in keys
    requires forall i, j :: 0 <= i < j < |order| ==> order[i] != order[j]
    ensures |order| == |keys|
    decreases |order|
  {
    if |order| == 0 {
      assert forall k :: k !in keys;
      assert keys == {};
    } else {
      var rest := order[1..];
      assert forall i, j :: 0 <= i < j < |rest| ==> rest[i] != rest[j] by {
        forall i, j | 0 <= i < j < |rest|
          ensures rest[i] != rest[j]
        {
          assert rest[i] == order[i + 1] && rest[j] == order[j + 1];
        }
      }
      assert forall k :: k in rest <==> k in keys - {order[0]} by {
        forall k
          ensures k in rest <==> k in keys - {order[0]}
        {
          if k in rest {
            var j :| 0 <= j < |rest| && rest[j] == k;
            assert order[j + 1] == k;
          }
          if k in keys - {order[0]} {
            var j :| 0 <= j < |order| && order[j] == k;
            assert j != 0;
            assert rest[j - 1] == k;
          }
        }
      }
      CountEnumeration(keys - {order[0]}, rest);
    }
  }

  /** Filtering by a stored server's own URL shows that server, whatever its namespace. */
  lemma OwnUrlFilterFindsServer(c: CC.CliConfig, order: seq<string>, name: string)
    requires Enumerates(c, order) && WellKeyed(c) && name in c.servers
    ensures var items := GetItems(c, order, Some(c.servers[name].url), None, false);
      NewFromServer(c.servers[name], c.defaultServerName) in items
  {
    var names := SelectNames(c, order, Some(c.servers[name].url), None);
    assert Selected(name, c.servers[name], Some(c.servers[name].url), None);
    var i :| 0 <= i < |names| && names[i] == name;
    assert OutputsOf(c, names)[i] == NewFromServer(c.servers[name], c.defaultServerName);
  }

  /** Filtering by namespace alone shows exactly the servers with that default namespace. */
  lemma NamespaceFilterIsExact(c: CC.CliConfig, order: seq<string>, ns: string, name: string)
    requires Enumerates(c, order) && name in c.servers
    ensures name in SelectNames(c, order, None, Some(ns)) <==> c.servers[name].namespace == ns
  {
  }

  // ---------------------------------------------------------------------------
  // `config set-def` and `config clear`
  // ---------------------------------------------------------------------------

  /** The configuration after a command, and whether the command wrote it to disk. */
  datatype CommandOutcome = CommandOutcome(config: CC.CliConfig, saved: bool)

  /**
    `handle_set_def`. `--default-server` alone decides: a stored server becomes
    the default, an unknown one changes nothing. Otherwise `--server-url` and
    `--namespace` are needed together, and set a stored server's namespace.
  */
  function HandleSetDef(c: CC.CliConfig, serverUrl: Option<string>, namespace: Option<string>, defaultServer: Option<string>)
    : (r: CommandOutcome)
    ensures r.saved <==>
      if defaultServer.Some? then UrlToName(defaultServer.value) in c.servers
      else serverUrl.Some? && namespace.Some? && UrlToName(serverUrl.value) in c.servers
    ensures !r.saved ==> r.config == c
    ensures r.saved && defaultServer.Some? ==>
      r.config == c.(defaultServerName := UrlToName(defaultServer.value))
    ensures r.saved && defaultServer.None? ==>
      var name := UrlToName(serverUrl.value);
      r.config.defaultServerName == c.defaultServerName && r.config.servers.Keys == c.servers.Keys &&
      r.config.servers[name] == c.servers[name].(namespace := namespace.value) &&
      forall k :: k in c.servers && k != name ==> r.config.servers[k] == c.servers[k]
  {
    if defaultServer.Some? then
      var name := UrlToName(defaultServer.value);
      if name !in c.servers then CommandOutcome(c, false)
      else CommandOutcome(c.(defaultServerName := name), true)
    else if serverUrl.None? || namespace.None? then CommandOutcome(c, false)
    else
      var name := UrlToName(serverUrl.value);
      if name in c.servers then
        CommandOutcome(c.(servers := c.servers[name := c.servers[name].(namespace := namespace.value)]), true)
      else CommandOutcome(c, false)
  }

  /** `set-def` keeps both invariants. */
  lemma SetDefKeepsInvariants(c: CC.CliConfig, serverUrl: Option<string>, namespace: Option<string>, defaultServer: Option<string>)
    requires WellKeyed(c) && DefaultResolves(c)
    ensures WellKeyed(HandleSetDef(c, serverUrl, namespace, defaultServer).config)
    ensures DefaultResolves(HandleSetDef(c, serverUrl, namespace, defaultServer).config)
  {
  }

  /**
    After `set-def --default-server u` for a stored server, a plain `get`
    shows that server and marks it as the default.
  */
  lemma SetDefaultThenGet(c: CC.CliConfig, u: string, order: seq<string>)
    requires WellKeyed(c) && UrlToName(u) in c.servers && Enumerates(c, order)
    ensures var c' := HandleSetDef(c, None, None, Some(u)).config;
      Enumerates(c', order) &&
      GetItems(c', order, None, None, false) == [NewFromServer(c.servers[UrlToName(u)], UrlToName(u))] &&
      GetItems(c', order, None, None, false)[0].isDefault
  {
  }

  /**
    `handle_clear`. `--all` replaces the configuration by its cleared form
    (`CliConfig::clear`, whose definition is an input). `--server-url` forgets
    that server; if it was the default, the default name is emptied even when
    the server is not stored. Without either flag nothing changes.
  */
  function HandleClear(c: CC.CliConfig, all: bool, serverUrl: Option<string>, clear: CC.CliConfig -> CC.CliConfig)
    : (r: CommandOutcome)
    ensures all ==> r == CommandOutcome(clear(c), true)
    ensures !all && serverUrl.None? ==> r == CommandOutcome(c, false)
    ensures !all && serverUrl.Some? ==>
      var name := UrlToName(serverUrl.value);
      r.config.servers == c.servers - {name} &&
      r.config.defaultServerName == (if c.defaultServerName == name then "" else c.defaultServerName) &&
      (r.saved <==> name in c.servers)
  {
    if all then CommandOutcome(clear(c), true)
    else if serverUrl.Some? then
      var name := UrlToName(serverUrl.value);
      var c1 := if c.defaultServerName == name then c.(defaultServerName := "") else c;
      CommandOutcome(c1.(servers := c1.servers - {name}), name in c.servers)
    else CommandOutcome(c, false)
  }

  /** Clearing one server keeps both invariants. */
  lemma ClearKeepsInvariants(c: CC.CliConfig, serverUrl: string, clear: CC.CliConfig -> CC.CliConfig)
    requires WellKeyed(c) && DefaultResolves(c)
    ensures WellKeyed(HandleClear(c, false, Some(serverUrl), clear).config)
    ensures DefaultResolves(HandleClear(c, false, Some(serverUrl), clear).config)
  {
  }

  /**
    After clearing a server, no record `get --list` shows belongs to it: in a
    well-keyed configuration no remaining server has a URL with its name.
  */
  lemma ClearedServerIsGone(c: CC.CliConfig, serverUrl: string, clear: CC.CliConfig -> CC.CliConfig, order: seq<string>)
    requires WellKeyed(c)
    requires Enumerates(HandleClear(c, false, Some(serverUrl), clear).config, order)
    ensures forall o :: o in GetItems(HandleClear(c, false, Some(serverUrl), clear).config, order, None, None, true) ==>
      UrlToName(o.url) != UrlToName(serverUrl)
  {
    var c' := HandleClear(c, false, Some(serverUrl), clear).config;
    var items := GetItems(c', order, None, None, true);
    forall o | o in items
      ensures UrlToName(o.url) != UrlToName(serverUrl)
    {
      var i :| 0 <= i < |items| && items[i] == o;
      assert o.url == c'.servers[order[i]].url;
    }
  }

  /** Setting a default and then clearing that server leaves no default. */
  lemma ClearingTheDefaultEmptiesIt(c: CC.CliConfig, u: string, clear: CC.CliConfig -> CC.CliConfig)
    requires UrlToName(u) in c.servers
    ensures var c1 := HandleSetDef(c, None, None, Some(u)).config;
      HandleClear(c1, false, Some(u), clear).config.defaultServerName == ""
  {
  }

  // ---------------------------------------------------------------------------
  // Dispatch
  // ---------------------------------------------------------------------------

  datatype ConfigCommand =
    | SetDef(serverUrl: Option<string>, namespace: Option<string>, defaultServer: Option<string>)
    | Clear(all: bool, clearUrl: Option<string>)
    | Get(getUrl: Option<string>, getNamespace: Option<string>, list: bool)

  /**
    `handle_config_commands` of the tool's own `config` module: `set-def` and
    `clear` run; `get` only logs that it is not implemented.
  */
  function HandleConfigCommand(cmd: ConfigCommand, c: CC.CliConfig, clear: CC.CliConfig -> CC.CliConfig)
    : (r: CommandOutcome)
    ensures cmd.Get? ==> r == CommandOutcome(c, false)
    ensures cmd.SetDef? ==> r == HandleSetDef(c, cmd.serverUrl, cmd.namespace, cmd.defaultServer)
    ensures cmd.Clear? ==> r == HandleClear(c, cmd.all, cmd.clearUrl, clear)
  {
    match cmd
    case SetDef(u, ns, d) => HandleSetDef(c, u, ns, d)
    case Clear(all, u) => HandleClear(c, all, u, clear)
    case Get(_, _, _) => CommandOutcome(c, false)
  }

  /** Apart from `clear --all`, whose result is outside this model, every command keeps both invariants. */
  lemma CommandsKeepInvariants(cmd: ConfigCommand, c: CC.CliConfig, clear: CC.CliConfig -> CC.CliConfig)
    requires WellKeyed(c) && DefaultResolves(c)
    requires !(cmd.Clear? && cmd.all)
    ensures WellKeyed(HandleConfigCommand(cmd, c, clear).config)
    ensures DefaultResolves(HandleConfigCommand(cmd, c, clear).config)
  {
    match cmd
    case SetDef(u, ns, d) => SetDefKeepsInvariants(c, u, ns, d);
    case Clear(_, u) =>
      if u.Some? {
        ClearKeepsInvariants(c, u.value, clear);
      }
    case Get(_, _, _) =>
  }
}

=== FILE: cli_config.dfy ===
/**
  The command-line tool's configuration file: the servers it knows, keyed by
  their names, and which one is the default. Finding a cluster's record from
  its public URL needs the URL's host, port and path, which a URL parser
  supplies as an input.
*/
module CliConfig {
  import opened Outcomes
  import opened Strings
  import opened CliServerConfig
  import SC = CliServerConfig
  import CliErrors

  datatype CliConfig = CliConfig(defaultServerName: string, servers: map<string, SC.CliServerConfig>)

  const DEFAULT_SERVER_URL: string := "http://localhost:5437"
  const DEFAULT_SERVER_NAME: string := "localhost-5437"

  /** The name of a host and port with neither '.' nor scheme: only the ':' changes. */
  lemma LocalHostName(hp: string)
    requires hp == "localhost:5437"
    ensures UrlToName("http://" + hp) == "localhost-5437"
  {
    UrlToNameOfHost(hp);
    var r := ReplaceChar(ReplaceChar(hp, '.', '-'), ':', '-');
    forall i | 0 <= i < |hp|
      ensures r[i] == "localhost-5437"[i]
    {
    }
  }

  /** The name of the built-in server, worked out from its URL. */
  lemma DefaultServerName(url: string)
    requires url == DEFAULT_SERVER_URL
    ensures UrlToName(url) == DEFAULT_SERVER_NAME
  {
    assert url == "http://" + url[7..];
    LocalHostName(url[7..]);
  }

  /**
    `CliConfig::new` (and `Default`): one server, the local one with the
    "default" namespace and no clusters, stored under its `url_to_name`
    (which `DefaultServerName` shows to be "localhost-5437"), which is also
    the default server's name.
  */
  function New(): (c: CliConfig)
    ensures c.defaultServerName == DEFAULT_SERVER_NAME && c.servers.Keys == {DEFAULT_SERVER_NAME}
    ensures c.servers[DEFAULT_SERVER_NAME] == SC.New(DEFAULT_SERVER_URL)
  {
    var server := SC.CliServerConfig(DEFAULT_SERVER_URL, "default", map[]);
    DefaultServerName(server.url);
    var key := DEFAULT_SERVER_NAME;
    assert key == UrlToName(server.url);
    CliConfig(DEFAULT_SERVER_NAME, map[key := server])
  }

  /** `get_cluster_config`: the named server (the default one when none is named), then its cluster. */
  function GetClusterConfig(c: CliConfig, serverName: Option<string>, clusterName: string, ns: Option<string>)
    : (r: Option<CliClusterConfig>)
    ensures r.Some? <==>
      serverName.GetOr(c.defaultServerName) in c.servers &&
      ClustersFromNameNs(c.servers[serverName.GetOr(c.defaultServerName)], clusterName, ns).Some?
    ensures r.Some? ==> r == ClustersFromNameNs(c.servers[serverName.GetOr(c.defaultServerName)], clusterName, ns)
  {
    var name := serverName.GetOr(c.defaultServerName);
    if name in c.servers then ClustersFromNameNs(c.servers[name], clusterName, ns) else None
  }

  /** What the URL parser reports: the host, an explicit non-default port, and the path segments. */
  datatype ParsedUrl = ParsedUrl(host: Option<string>, port: Option<nat>, segments: Option<seq<string>>)

  datatype UrlInfo = UrlInfo(serverName: string, namespace: string, clusterName: string)

  const NO_HOST: string := "No host found in URL"
  const NO_PATH: string := "Namespace or cluster name not found in URL path"

  /** The steps of `proxy_url_to_tuple` common to the code as written and as corrected, given how the server is named. */
  function UrlToTuple(url: string, parse: string -> Result<ParsedUrl, string>, serverNameOf: ParsedUrl -> string)
    : (r: Result<UrlInfo, CliErrors.CliConfigError>)
    ensures parse(url).Err? ==> r == Err(CliErrors.InvalidServerUrl(url, parse(url).error))
    ensures parse(url).Ok? && parse(url).value.host.None? ==> r == Err(CliErrors.InvalidServerUrl(url, NO_HOST))
    ensures r.Ok? <==>
      parse(url).Ok? && parse(url).value.host.Some? && parse(url).value.segments.Some? &&
      |parse(url).value.segments.value| >= 3
    ensures r.Err? && parse(url).Ok? && parse(url).value.host.Some? ==> r == Err(CliErrors.InvalidServerUrl(url, NO_PATH))
    ensures r.Ok? ==>
      var segs := parse(url).value.segments.value;
      r.value == UrlInfo(serverNameOf(parse(url).value), segs[1], segs[2])
  {
    match parse(url)
    case Err(e) => Err(CliErrors.InvalidServerUrl(url, e))
    case Ok(u) =>
      if u.host.None? then Err(CliErrors.InvalidServerUrl(url, NO_HOST))
      else if u.segments.None? || |u.segments.value| < 3 then Err(CliErrors.InvalidServerUrl(url, NO_PATH))
      else Ok(UrlInfo(serverNameOf(u), u.segments.value[1], u.segments.value[2]))
  }

  /** The server name as the code computes it: the host alone, '.' and ':' turned into '-'. */
  function HostOnlyName(u: ParsedUrl): string {
    if u.host.Some? then ReplaceAll(ReplaceAll(u.host.value, ".", "-"), ":", "-") else ""
  }

  /** The server name the configuration is keyed by: the host and its port, as `url_to_name` names them. */
  function HostPortName(u: ParsedUrl): string {
    if u.host.Some? then
      UrlToName(u.host.value + (if u.port.Some? then ":" + NatToString(u.port.value) else ""))
    else ""
  }

  /** A host with '.' and ':' turned into '-'. */
  function DashedHost(host: string): string {
    ReplaceChar(ReplaceChar(host, '.', '-'), ':', '-')
  }

  /**
    `proxy_url_to_tuple` as written: the server is named by the host alone,
    the port dropped; it fails exactly where the corrected form does.
  */
  function ProxyUrlToTupleAsWritten(url: string, parse: string -> Result<ParsedUrl, string>)
    : (r: Result<UrlInfo, CliErrors.CliConfigError>)
    ensures parse(url).Err? ==> r == Err(CliErrors.InvalidServerUrl(url, parse(url).error))
    ensures r.Ok? <==>
      parse(url).Ok? && parse(url).value.host.Some? && parse(url).value.segments.Some? &&
      |parse(url).value.segments.value| >= 3
    ensures r.Ok? ==>
      var u := parse(url).value;
      r.value == UrlInfo(DashedHost(u.host.value), u.segments.value[1], u.segments.value[2])
    ensures r.Err? ==> r == ProxyUrlToTuple(url, parse)
  {
    HostOnlyNameIsDashedHost(parse(url));
    UrlToTuple(url, parse, HostOnlyName)
  }

  lemma HostOnlyNameIsDashedHost(p: Result<ParsedUrl, string>)
    ensures p.Ok? && p.value.host.Some? ==> HostOnlyName(p.value) == DashedHost(p.value.host.value)
  {
    if p.Ok? && p.value.host.Some? {
      var host := p.value.host.value;
      ReplaceAllSingleChar(host, '.', '-');
      ReplaceAllSingleChar(ReplaceChar(host, '.', '-'), ':', '-');
    }
  }

  /**
    `proxy_url_to_tuple` with the server named by host and port, as the
    configuration keys servers: for a plain host this is the as-written name,
    with "-{port}" appended when the URL gives a port.
  */
  function ProxyUrlToTuple(url: string, parse: string -> Result<ParsedUrl, string>)
    : (r: Result<UrlInfo, CliErrors.CliConfigError>)
    ensures parse(url).Err? ==> r == Err(CliErrors.InvalidServerUrl(url, parse(url).error))
    ensures r.Ok? <==>
      parse(url).Ok? && parse(url).value.host.Some? && parse(url).value.segments.Some? &&
      |parse(url).value.segments.value| >= 3
    ensures r.Ok? ==>
      var segs := parse(url).value.segments.value;
      r.value.namespace == segs[1] && r.value.clusterName == segs[2]
    ensures r.Ok? && '/' !in parse(url).value.host.value ==>
      var u := parse(url).value;
      r.value.serverName == DashedHost(u.host.value) + (if u.port.Some? then "-" + NatToString(u.port.value) else "")
  {
    HostPortNameIsDashed(parse(url));
    UrlToTuple(url, parse, HostPortName)
  }

  lemma HostPortNameIsDashed(p: Result<ParsedUrl, string>)
    ensures p.Ok? && p.value.host.Some? && '/' !in p.value.host.value ==>
      HostPortName(p.value) ==
        DashedHost(p.value.host.value) + (if p.value.port.Some? then "-" + NatToString(p.value.port.value) else "")
  {
    if p.Ok? && p.value.host.Some? && '/' !in p.value.host.value {
      var host := p.value.host.value;
      match p.value.port
      case None =>
        assert host + "" == host;
        UrlToNameSchemeless(host);
      case Some(port) =>
        DashedPortName(host, port);
    }
  }

  /** Digits pass the dash mapping unchanged, so the port survives in the name. */
  lemma DashedPortName(host: string, port: nat)
    requires '/' !in host
    ensures UrlToName(host + (":" + NatToString(port))) == DashedHost(host) + ("-" + NatToString(port))
  {
    var digits := NatToString(port);
    var x := host + (":" + digits);
    NatToStringHasNoSlash(port);
    assert '/' !in x;
    UrlToNameSchemeless(x);
    NatToStringRoundTrip(port);
    var l := DashedHost(x);
    var rgt := DashedHost(host) + ("-" + digits);
    assert |l| == |rgt|;
    forall i | 0 <= i < |l|
      ensures l[i] == rgt[i]
    {
      if i > |host| {
        assert x[i] == digits[i - |host| - 1];
        assert IsDigit(digits[i - |host| - 1]);
      }
    }
  }

  /** `get_cluster_config_by_url`, given how the URL is split. */
  function ClusterConfigByInfo(c: CliConfig, clusterUrl: string, info: Result<UrlInfo, CliErrors.CliConfigError>)
    : (r: Result<CliClusterConfig, CliErrors.CliConfigError>)
    ensures info.Err? ==> r == Err(info.error)
    ensures info.Ok? ==>
      var i := info.value;
      (r.Ok? <==> i.serverName in c.servers && ClustersFromNameNs(c.servers[i.serverName], i.clusterName, Some(i.namespace)).Some?) &&
      (r.Ok? ==> r.value == c.servers[i.serverName].clusters[ClusterKey(i.namespace, i.clusterName)]) &&
      (r.Err? ==> r.error == CliErrors.ServerNotFound(clusterUrl))
  {
    match info
    case Err(e) => Err(e)
    case Ok(i) =>
      if i.serverName in c.servers then
        match ClustersFromNameNs(c.servers[i.serverName], i.clusterName, Some(i.namespace))
        case Some(cc) => Ok(cc)
        case None => Err(CliErrors.ServerNotFound(clusterUrl))
      else Err(CliErrors.ServerNotFound(clusterUrl))
  }

  /** The record a well-formed URL names: the cluster "{ns}/{cluster}" of the server called `server`. */
  predicate Names(c: CliConfig, server: string, ns: string, cluster: string) {
    server in c.servers && ClusterKey(ns, cluster) in c.servers[server].clusters
  }

  /**
    `get_cluster_config_by_url` as written: a URL the parser cannot split is
    reported as such; otherwise the record is found under the host-only
    server name, and a missing server or cluster is "server not found".
  */
  function GetClusterConfigByUrlAsWritten(c: CliConfig, clusterUrl: string, parse: string -> Result<ParsedUrl, string>)
    : (r: Result<CliClusterConfig, CliErrors.CliConfigError>)
    ensures ProxyUrlToTupleAsWritten(clusterUrl, parse).Err? ==> r == Err(ProxyUrlToTupleAsWritten(clusterUrl, parse).error)
    ensures ProxyUrlToTupleAsWritten(clusterUrl, parse).Ok? ==>
      var u := parse(clusterUrl).value;
      var server := DashedHost(u.host.value);
      (r.Ok? <==> Names(c, server, u.segments.value[1], u.segments.value[2])) &&
      (r.Ok? ==> r.value == c.servers[server].clusters[ClusterKey(u.segments.value[1], u.segments.value[2])]) &&
      (r.Err? ==> r.error == CliErrors.ServerNotFound(clusterUrl))
  {
    ClusterConfigByInfo(c, clusterUrl, ProxyUrlToTupleAsWritten(clusterUrl, parse))
  }

  /**
    `get_cluster_config_by_url` with the corrected server name: the same
    errors, and the record found under the name the configuration uses.
  */
  function GetClusterConfigByUrl(c: CliConfig, clusterUrl: string, parse: string -> Result<ParsedUrl, string>)
    : (r: Result<CliClusterConfig, CliErrors.CliConfigError>)
    ensures ProxyUrlToTuple(clusterUrl, parse).Err? ==> r == Err(ProxyUrlToTuple(clusterUrl, parse).error)
    ensures ProxyUrlToTuple(clusterUrl, parse).Ok? ==>
      var u := parse(clusterUrl).value;
      var server := ProxyUrlToTuple(clusterUrl, parse).value.serverName;
      (r.Ok? <==> Names(c, server, u.segments.value[1], u.segments.value[2])) &&
      (r.Ok? ==> r.value == c.servers[server].clusters[ClusterKey(u.segments.value[1], u.segments.value[2])]) &&
      (r.Err? ==> r.error == CliErrors.ServerNotFound(clusterUrl))
    ensures r.Err? && ProxyUrlToTuple(clusterUrl, parse).Err? ==> r == GetClusterConfigByUrlAsWritten(c, clusterUrl, parse)
  {
    ClusterConfigByInfo(c, clusterUrl, ProxyUrlToTuple(clusterUrl, parse))
  }

  lemma NatToStringHasNoSlash(n: nat)
    ensures '/' !in NatToString(n)
  {
    NatToStringRoundTrip(n);
    var s := NatToString(n);
    forall i | 0 <= i < |s|
      ensures s[i] != '/'
    {
      assert IsDigit(s[i]);
    }
  }

  /**
    With the name built from host and port, a cluster URL on a server with an
    explicit port finds the server the configuration stores under that URL,
    whichever scheme either side uses.
  */
  lemma CorrectedNameMatchesServerKey(host: string, port: nat, scheme: string, url: string,
                                      parse: string -> Result<ParsedUrl, string>)
    requires '/' !in host
    requires scheme == "https://" || scheme == "http://"
    requires parse(url).Ok? && parse(url).value.host == Some(host) && parse(url).value.port == Some(port)
    ensures HostPortName(parse(url).value) == UrlToName(scheme + (host + ":" + NatToString(port)))
  {
    NatToStringHasNoSlash(port);
    var hp := host + ":" + NatToString(port);
    assert '/' !in hp;
    assert host + (":" + NatToString(port)) == hp;
    assert HostPortName(parse(url).value) == UrlToName(hp);
    UrlToNameSchemeless(hp);
    UrlToNameOfHost(hp);
  }

  /** A text with no '/' and no scheme is named by the character mapping alone. */
  lemma UrlToNameSchemeless(x: string)
    requires '/' !in x
    ensures UrlToName(x) == ReplaceChar(ReplaceChar(x, '.', '-'), ':', '-')
  {
    MissingCharMeansAbsent(x, "https://", '/');
    ReplaceAllAbsent(x, "https://", "");
    MissingCharMeansAbsent(x, "http://", '/');
    ReplaceAllAbsent(x, "http://", "");
    ReplaceAllSingleChar(x, '.', '-');
    ReplaceAllSingleChar(ReplaceChar(x, '.', '-'), ':', '-');
  }

  /**
    The as-written name of a host is as long as the host, while the
    configuration's key for the server adds the port: they never match.
  */
  lemma HostOnlyNameMissesServerKey(host: string, port: nat, scheme: string, url: string,
                                    parse: string -> Result<ParsedUrl, string>)
    requires '/' !in host
    requires scheme == "https://" || scheme == "http://"
    requires parse(url).Ok? && parse(url).value.host == Some(host) && parse(url).value.port == Some(port)
    ensures HostOnlyName(parse(url).value) != UrlToName(scheme + (host + ":" + NatToString(port)))
  {
    ReplaceAllSingleChar(host, '.', '-');
    ReplaceAllSingleChar(ReplaceChar(host, '.', '-'), ':', '-');
    assert |HostOnlyName(parse(url).value)| == |host|;
    assert host + (":" + NatToString(port)) == host + ":" + NatToString(port);
    CorrectedNameMatchesServerKey(host, port, scheme, url, parse);
    NatToStringRoundTrip(port);
    UrlToNameSchemeless(host + ":" + NatToString(port));
    assert |UrlToName(host + ":" + NatToString(port))| > |host|;
  }

  /**
    As written, a cluster URL with an explicit port never reaches a server
    stored under a URL with that port: the lookup reports the server missing
    although the cluster is recorded. With host and port in the name, it is
    found.
  */
  lemma ExplicitPortLosesServerAsWritten(c: CliConfig, scheme: string, host: string, port: nat, ns: string, cluster: string,
                                         url: string, parse: string -> Result<ParsedUrl, string>)
    requires '/' !in host
    requires scheme == "https://" || scheme == "http://"
    requires c.servers.Keys == {UrlToName(scheme + (host + ":" + NatToString(port)))}
    requires ClusterKey(ns, cluster) in c.servers[UrlToName(scheme + (host + ":" + NatToString(port)))].clusters
    requires parse(url) == Ok(ParsedUrl(Some(host), Some(port), Some(["clusters", ns, cluster])))
    ensures GetClusterConfigByUrlAsWritten(c, url, parse) == Err(CliErrors.ServerNotFound(url))
    ensures GetClusterConfigByUrl(c, url, parse).Ok?
  {
    HostOnlyNameMissesServerKey(host, port, scheme, url, parse);
    CorrectedNameMatchesServerKey(host, port, scheme, url, parse);
  }

  lemma PortText(port: nat)
    requires port == 5437
    ensures NatToString(port) == "5437"
  {
    var a := port / 1000;
    var b := port / 100;
    var c := port / 10;
    assert a == 5 && b == 54 && c == 543;
    assert NatToString(a) == "5";
    assert NatToString(b) == NatToString(a) + [DigitChar(4)];
    assert NatToString(c) == NatToString(b) + [DigitChar(3)];
    assert NatToString(port) == NatToString(c) + [DigitChar(7)];
  }

  /**
    The documented URL form "https://localhost:5437/clusters/default/local-sso",
    with that cluster recorded on the built-in server, is an instance.
  */
  lemma BuiltInServerLostAsWritten(url: string, parse: string -> Result<ParsedUrl, string>,
                                   host: string, port: nat, ns: string, cluster: string)
    requires host == "localhost" && port == 5437 && ns == "default" && cluster == "local-sso"
    requires url == "https://localhost:5437/clusters/default/local-sso"
    requires parse(url) == Ok(ParsedUrl(Some(host), Some(port), Some(["clusters", ns, cluster])))
    ensures GetClusterConfigByUrlAsWritten(WithCluster(New(), ns, cluster), url, parse) == Err(CliErrors.ServerNotFound(url))
    ensures GetClusterConfigByUrl(WithCluster(New(), ns, cluster), url, parse).Ok?
  {
    BuiltInServerName(host, port);
    BuiltInServerHasCluster(ns, cluster);
    ExplicitPortLosesServerAsWritten(WithCluster(New(), ns, cluster), "http://", host, port, ns, cluster, url, parse);
  }

  lemma BuiltInServerName(host: string, port: nat)
    requires host == "localhost" && port == 5437
    ensures UrlToName("http://" + (host + ":" + NatToString(port))) == DEFAULT_SERVER_NAME
  {
    PortText(port);
    DefaultServerName("http://" + (host + ":" + NatToString(port)));
  }

  lemma BuiltInServerHasCluster(ns: string, cluster: string)
    ensures WithCluster(New(), ns, cluster).servers.Keys == {DEFAULT_SERVER_NAME}
    ensures ClusterKey(ns, cluster) in WithCluster(New(), ns, cluster).servers[DEFAULT_SERVER_NAME].clusters
  {
  }

  /** The configuration with one cluster record added to the default server. */
  function WithCluster(c: CliConfig, ns: string, cluster: string): (r: CliConfig)
    ensures r.defaultServerName == c.defaultServerName && r.servers.Keys == c.servers.Keys
    ensures c.defaultServerName in c.servers ==>
      r.servers[c.defaultServerName].clusters == c.servers[c.defaultServerName].clusters[ClusterKey(ns, cluster) := NEW_CLUSTER]
  {
    if c.defaultServerName in c.servers then
      var s := c.servers[c.defaultServerName];
      c.(servers := c.servers[c.defaultServerName := s.(clusters := s.clusters[ClusterKey(ns, cluster) := NEW_CLUSTER])])
    else c
  }
}

=== FILE: cli_context.dfy ===
/**
  The command-line tool's context: where the kubeconfig and the tool's own
  configuration file are found, how many `-v` flags map to a tracing level,
  and the `context` command, which lists contexts and can switch the current
  context of the kubeconfig it holds in memory, a switch that is never
  written back to the kubeconfig file. Environment variables are inputs; how one
  kubeconfig context becomes a row of output is an input as well.
*/
module CliContext {
  import opened Outcomes
  import opened Strings
  import opened Verbosity
  import CliErrors

  /** The output format; `Table` is the `Default`. */
  datatype ContextFormat = Table | Json | Yaml

  const DEFAULT_FORMAT: ContextFormat := Table

  const KUBECONFIG_SUFFIX: string := "/.kube/config"
  const CONFIG_SUFFIX: string := "/.kube/proxyauth_config.yaml"

  /**
    `detect_kubeconfig_path`: the `--kubeconfig` flag, else `$KUBECONFIG`,
    else "$HOME/.kube/config" when `$HOME` is set and not empty. An unset
    variable is `None`.
  */
  function DetectKubeconfigPath(flag: Option<string>, kubeconfigEnv: Option<string>, homeEnv: Option<string>)
    : (r: Option<string>)
    ensures flag.Some? ==> r == flag
    ensures flag.None? && kubeconfigEnv.Some? ==> r == kubeconfigEnv
    ensures flag.None? && kubeconfigEnv.None? ==>
      (r.Some? <==> homeEnv.GetOr("") != "") &&
      (r.Some? ==> r.value == homeEnv.value + KUBECONFIG_SUFFIX)
  {
    if flag.Some? then flag
    else if kubeconfigEnv.Some? then kubeconfigEnv
    else
      var home := homeEnv.GetOr("");
      if home != "" then Some(home + KUBECONFIG_SUFFIX) else None
  }

  /**
    The tool's configuration path: the `--proxy-auth-config` flag, else
    "$HOME/.kube/proxyauth_config.yaml"; with neither the source panics with
    `ConfigPathCouldNotBeCalculated`, modelled as that error.
  */
  function ConfigPath(flag: Option<string>, homeEnv: Option<string>): (r: Result<string, CliErrors.ProxyAuthK8sError>)
    ensures flag.Some? ==> r == Ok(flag.value)
    ensures flag.None? ==> (r.Err? <==> homeEnv.GetOr("") == "")
    ensures r.Err? ==> r.error == CliErrors.ConfigPathCouldNotBeCalculated
    ensures flag.None? && r.Ok? ==> r.value == homeEnv.value + CONFIG_SUFFIX
  {
    if flag.Some? then Ok(flag.value)
    else
      var home := homeEnv.GetOr("");
      if home == "" then Err(CliErrors.ConfigPathCouldNotBeCalculated)
      else Ok(home + CONFIG_SUFFIX)
  }

  /**
    With no flags and no `$KUBECONFIG`, both paths come from the same
    `$HOME`, and they are different files: writing the tool's configuration
    never overwrites the kubeconfig.
  */
  lemma DefaultPathsDiffer(homeEnv: Option<string>)
    requires DetectKubeconfigPath(None, None, homeEnv).Some?
    ensures ConfigPath(None, homeEnv).Ok?
    ensures ConfigPath(None, homeEnv).value != DetectKubeconfigPath(None, None, homeEnv).value
  {
    var home := homeEnv.value;
    var a := home + CONFIG_SUFFIX;
    var b := home + KUBECONFIG_SUFFIX;
    assert |a| != |b|;
  }

  /**
    `to_tracing_verbose_level`: no `-v` or none counted gives INFO, one
    gives DEBUG, two or more give TRACE.
  */
  function ToTracingVerboseLevel(verbose: Option<U8>): (l: VerboseLevel)
    ensures verbose.GetOr(0) == 0 <==> l == INFO
    ensures verbose.GetOr(0) == 1 <==> l == DEBUG
    ensures verbose.GetOr(0) >= 2 <==> l == TRACE
  {
    match verbose.GetOr(0)
    case 0 => INFO
    case 1 => DEBUG
    case _ => TRACE
  }

  /** More `-v` flags never make the output less verbose: the level only goes down the order. */
  lemma MoreFlagsMoreVerbose(a: U8, b: U8)
    requires a <= b
    ensures Repr(ToTracingVerboseLevel(Some(b))) <= Repr(ToTracingVerboseLevel(Some(a)))
  {
  }

  /** The flag count never selects WARN or ERROR. */
  lemma FlagsNeverSilence(verbose: Option<U8>)
    ensures Repr(ToTracingVerboseLevel(verbose)) <= Repr(INFO)
  {
  }

  // ---------------------------------------------------------------------------
  // The `context` command
  // ---------------------------------------------------------------------------

  datatype NamedContext = NamedContext(name: string, cluster: string, user: string, namespace: Option<string>)

  datatype Kubeconfig = Kubeconfig(contexts: seq<NamedContext>, currentContext: Option<string>)

  /** The index of the first context with the given name (Rust's `iter().find`). */
  function FindContext(cs: seq<NamedContext>, name: string): (r: Option<nat>)
    ensures r.Some? ==> r.value < |cs| && cs[r.value].name == name
    ensures r.Some? ==> forall j :: 0 <= j < r.value ==> cs[j].name != name
    ensures r.None? <==> forall j :: 0 <= j < |cs| ==> cs[j].name != name
    decreases |cs|
  {
    if |cs| == 0 then None
    else if cs[0].name == name then Some(0)
    else
      match FindContext(cs[1..], name)
      case Some(k) => Some(k + 1)
      case None => None
  }

  /**
    `filter_map` of the row projection over the contexts, in order. The
    projection sees the kubeconfig as it stands after any switch, since
    `new_from_kubeconfig` is given a copy of the whole CLI context.
  */
  function ProjectAll<O>(kc: Kubeconfig, cs: seq<NamedContext>, project: (Kubeconfig, NamedContext) -> Option<O>)
    : (rows: seq<O>)
    ensures |rows| <= |cs|
    ensures forall r :: r in rows ==> exists i :: 0 <= i < |cs| && project(kc, cs[i]) == Some(r)
    ensures (forall i :: 0 <= i < |cs| ==> project(kc, cs[i]).Some?) ==> |rows| == |cs|
    ensures forall i :: 0 <= i < |cs| && project(kc, cs[i]).Some? ==> project(kc, cs[i]).value in rows
    decreases |cs|
  {
    if |cs| == 0 then []
    else
      var rest := ProjectAll(kc, cs[1..], project);
      assert forall r :: r in rest ==> exists i :: 0 <= i < |cs| && project(kc, cs[i]) == Some(r) by {
        forall r | r in rest
          ensures exists i :: 0 <= i < |cs| && project(kc, cs[i]) == Some(r)
        {
          var i :| 0 <= i < |cs[1..]| && project(kc, cs[1..][i]) == Some(r);
          assert cs[1..][i] == cs[i + 1];
        }
      }
      assert forall i :: 1 <= i < |cs| && project(kc, cs[i]).Some? ==> project(kc, cs[i]).value in rest by {
        forall i | 1 <= i < |cs| && project(kc, cs[i]).Some?
          ensures project(kc, cs[i]).value in rest
        {
          assert cs[1..][i - 1] == cs[i];
        }
      }
      match project(kc, cs[0])
      case Some(row) => [row] + rest
      case None => rest
  }

  /** One context gives its own row, or none when it does not project. */
  lemma ProjectAllSingle<O>(kc: Kubeconfig, c: NamedContext, project: (Kubeconfig, NamedContext) -> Option<O>)
    ensures ProjectAll(kc, [c], project) == if project(kc, c).Some? then [project(kc, c).value] else []
  {
    assert [c][1..] == [];
  }

  /**
    The rows of two runs of contexts are the rows of the first followed by
    the rows of the second: with `ProjectAllSingle`, each context contributes
    at most its one row, in the contexts' order.
  */
  lemma {:induction false} ProjectAllAppend<O>(kc: Kubeconfig, a: seq<NamedContext>, b: seq<NamedContext>,
                                               project: (Kubeconfig, NamedContext) -> Option<O>)
    ensures ProjectAll(kc, a + b, project) == ProjectAll(kc, a, project) + ProjectAll(kc, b, project)
    decreases |a|
  {
    if |a| == 0 {
      assert a + b == b;
    } else {
      assert (a + b)[0] == a[0];
      assert (a + b)[1..] == a[1..] + b;
      ProjectAllAppend(kc, a[1..], b, project);
    }
  }

  /** The rows for one context name: the first context so named, if it projects to a row. */
  function RowsFor<O>(kc: Kubeconfig, name: string, project: (Kubeconfig, NamedContext) -> Option<O>): (rows: seq<O>)
    ensures |rows| <= 1
    ensures |rows| == 1 <==> FindContext(kc.contexts, name).Some? && project(kc, kc.contexts[FindContext(kc.contexts, name).value]).Some?
    ensures |rows| == 1 ==> Some(rows[0]) == project(kc, kc.contexts[FindContext(kc.contexts, name).value])
  {
    match FindContext(kc.contexts, name)
    case None => []
    case Some(i) =>
      match project(kc, kc.contexts[i])
      case Some(row) => [row]
      case None => []
  }

  const NO_CONTEXT_NAME: string := "Context name must be provided when using the --set flag."

  function ContextNotFound(name: string): string {
    "Context '" + name + "' not found in kubeconfig."
  }

  /**
    What the command leaves behind: a panic, or the (possibly switched)
    in-memory kubeconfig, the rows shown, and whether the kubeconfig was
    written back to its file.
  */
  datatype ContextOutcome<O> = Panicked(message: string) | Shown(kubeconfig: Kubeconfig, rows: seq<O>, saved: bool)

  /**
    `handle_context`. `--set` needs a name that some context has, and makes it
    the current context of the kubeconfig in memory only: nothing writes it
    back, so the switch affects just the rows of this run. Then: `--list` shows every context that projects to
    a row; a name shows that context; otherwise the current context is shown,
    a missing current context being read as the empty name.
  */
  function HandleContext<O>(kc: Kubeconfig, name: Option<string>, list: bool, switch: bool,
                            project: (Kubeconfig, NamedContext) -> Option<O>): (r: ContextOutcome<O>)
    ensures switch && name.None? ==> r == Panicked(NO_CONTEXT_NAME)
    ensures switch && name.Some? && FindContext(kc.contexts, name.value).None? ==> r == Panicked(ContextNotFound(name.value))
    ensures r.Panicked? <==> switch && (name.None? || FindContext(kc.contexts, name.value).None?)
    ensures r.Shown? ==> r.kubeconfig.contexts == kc.contexts && !r.saved
    ensures r.Shown? ==> r.kubeconfig.currentContext == (if switch then name else kc.currentContext)
    ensures r.Shown? && list ==> r.rows == ProjectAll(r.kubeconfig, kc.contexts, project)
    ensures r.Shown? && !list && name.Some? ==> r.rows == RowsFor(r.kubeconfig, name.value, project)
    ensures r.Shown? && !list && name.None? ==> r.rows == RowsFor(r.kubeconfig, kc.currentContext.GetOr(""), project)
  {
    if switch && name.None? then Panicked(NO_CONTEXT_NAME)
    else if switch && FindContext(kc.contexts, name.value).None? then Panicked(ContextNotFound(name.value))
    else
      var kc' := if switch then kc.(currentContext := name) else kc;
      var rows :=
        if list then ProjectAll(kc', kc'.contexts, project)
        else if name.Some? then RowsFor(kc', name.value, project)
        else RowsFor(kc', kc'.currentContext.GetOr(""), project);
      Shown(kc', rows, false)
  }

  /**
    After switching to a context, showing the current context shows the
    context just chosen: the same rows as naming it.
  */
  lemma SwitchThenShowCurrent<O>(kc: Kubeconfig, name: string, project: (Kubeconfig, NamedContext) -> Option<O>)
    requires FindContext(kc.contexts, name).Some?
    ensures HandleContext(kc, Some(name), false, true, project).Shown?
    ensures var kc' := HandleContext(kc, Some(name), false, true, project).kubeconfig;
      HandleContext(kc', None, false, false, project) == Shown(kc', RowsFor(kc', name, project), false)
  {
  }

  /** Without `--set` the kubeconfig is never changed. */
  lemma OnlySetSwitches<O>(kc: Kubeconfig, name: Option<string>, list: bool, project: (Kubeconfig, NamedContext) -> Option<O>)
    ensures HandleContext(kc, name, list, false, project).Shown?
    ensures HandleContext(kc, name, list, false, project).kubeconfig == kc
  {
  }
}

=== FILE: cli_errors.dfy ===
/**
  The command-line tool's errors: the configuration file's own errors, the
  tool-wide error with its "ERR0000nn" codes, and the conversions into it.
*/
module CliErrors {
  import opened Outcomes
  import opened Strings

  /** `CliConfigError`. */
  datatype CliConfigError =
    | InvalidServerUrl(url: string, error: string)
    | ServerNotFound(server: string)
    | YamlParseError(error: string)
    | YamlSerializeError(error: string)

  /** The configuration error's `Display` without its "CLIERROR000n: " code. */
  function ConfigDetail(e: CliConfigError): string {
    match e
    case InvalidServerUrl(u, err) => "Invalid server URL provided: " + u + " with error: " + err
    case ServerNotFound(s) => "Server '" + s + "' not found in configuration"
    case YamlParseError(err) => "YAML Parse Error: " + err
    case YamlSerializeError(err) => "YAML Serialize Error: " + err
  }

  /** The configuration error's `Display`: "CLIERROR000n: " and its detail. */
  function DescribeConfigError(e: CliConfigError): (t: string)
    ensures |t| >= 14 && t[14..] == ConfigDetail(e)
  {
    var n := match e
      case InvalidServerUrl(_, _) => 1
      case ServerNotFound(_) => 2
      case YamlParseError(_) => 3
      case YamlSerializeError(_) => 4;
    "CLIERROR000" + [DigitChar(n)] + ": " + ConfigDetail(e)
  }

  /**
    `ProxyAuthK8sError`. Four variants share their names with
    `CliConfigError`'s in the source (`InvalidServerUrl`, `ServerNotFound`,
    `YamlParseError`, `YamlSerializeError`). Both types live in this module, so
    here they are `InvalidUrl`, `NotFound`, `YamlParse` and `YamlSerialize`,
    which keeps every unqualified constructor unambiguous.
  */
  datatype ProxyAuthK8sError =
    | KubeconfigPathCouldNotBeCalculated
    | KubeconfigReadError(message: string)
    | KubeconfigParseError(message: string)
    | InvalidUrl(url: string, error: string)
    | NotFound(server: string)
    | YamlParse(message: string)
    | YamlSerialize(message: string)
    | ConfigPathCouldNotBeCalculated
    | KubeconfigWriteError(message: string)
    | KeyringReadError(message: string)
    | KeyringWriteError(message: string)
    | RemoteServerError(message: string)
    | Unauthenticated(message: string)

  /** The number in the error's code. */
  function Code(e: ProxyAuthK8sError): (n: nat)
    ensures 1 <= n <= 13
  {
    match e
    case KubeconfigPathCouldNotBeCalculated => 1
    case KubeconfigReadError(_) => 2
    case KubeconfigParseError(_) => 3
    case InvalidUrl(_, _) => 4
    case NotFound(_) => 5
    case YamlParse(_) => 6
    case YamlSerialize(_) => 7
    case ConfigPathCouldNotBeCalculated => 8
    case KubeconfigWriteError(_) => 9
    case KeyringReadError(_) => 10
    case KeyringWriteError(_) => 11
    case RemoteServerError(_) => 12
    case Unauthenticated(_) => 13
  }

  /** "ERR0000nn", the code written with two digits. */
  function CodeText(n: nat): (t: string)
    requires 1 <= n <= 13
    ensures |t| == 9 && IsPrefix("ERR0000", t)
  {
    "ERR0000" + [DigitChar(n / 10), DigitChar(n % 10)]
  }

  /** The text after the code: the error's `Display` without its "ERR0000nn: ". */
  function Detail(e: ProxyAuthK8sError): string {
    match e
    case KubeconfigPathCouldNotBeCalculated =>
      "Kubeconfig path could not be calculated, either provide via --kubeconfig flag or set the KUBECONFIG environment variable"
    case KubeconfigReadError(m) => "Failed to read kubeconfig file: " + m
    case KubeconfigParseError(m) => "Failed to parse kubeconfig file: " + m
    case InvalidUrl(u, err) => "Invalid server URL provided: " + u + " with error: " + err
    case NotFound(s) => "Server '" + s + "' not found in configuration"
    case YamlParse(m) => "YAML Parse Error: " + m
    case YamlSerialize(m) => "YAML Serialize Error: " + m
    case ConfigPathCouldNotBeCalculated =>
      "Configuration path could not be calculated, either provide via --proxy-auth-config flag or set the HOME environment variable"
    case KubeconfigWriteError(m) => "Failed to write kubeconfig file: " + m
    case KeyringReadError(m) => "Failed to read from keyring: " + m
    case KeyringWriteError(m) => "Failed to write to keyring: " + m
    case RemoteServerError(m) => "Remote Server error: " + m
    case Unauthenticated(m) => "Unauthenticated: " + m
  }

  /** The error's `Display`: its code, ": ", then its detail. */
  function Describe(e: ProxyAuthK8sError): (t: string)
    ensures |t| >= 11 && t[..9] == CodeText(Code(e)) && t[9..11] == ": " && t[11..] == Detail(e)
  {
    CodeText(Code(e)) + ": " + Detail(e)
  }

  /** Different numbers are written as different codes, so the code at the head of a message tells which kind of error was raised. */
  lemma CodeTextInjective(m: nat, n: nat)
    requires 1 <= m <= 13 && 1 <= n <= 13
    requires CodeText(m) == CodeText(n)
    ensures m == n
  {
    assert CodeText(m)[7] == CodeText(n)[7] && CodeText(m)[8] == CodeText(n)[8];
    DigitCharValue(m / 10);
    DigitCharValue(m % 10);
    DigitCharValue(n / 10);
    DigitCharValue(n % 10);
  }

  /** `From<CliConfigError>`: each configuration error becomes its namesake, payload kept. */
  function FromConfigError(e: CliConfigError): (r: ProxyAuthK8sError)
    ensures e.InvalidServerUrl? ==> r == InvalidUrl(e.url, e.error)
    ensures e.ServerNotFound? ==> r == NotFound(e.server)
    ensures e.YamlParseError? ==> r == YamlParse(e.error)
    ensures e.YamlSerializeError? ==> r == YamlSerialize(e.error)
    ensures r.InvalidUrl? || r.NotFound? || r.YamlParse? || r.YamlSerialize?
  {
    match e
    case InvalidServerUrl(u, err) => InvalidUrl(u, err)
    case ServerNotFound(s) => NotFound(s)
    case YamlParseError(err) => YamlParse(err)
    case YamlSerializeError(err) => YamlSerialize(err)
  }

  /** The conversion changes only the code: the words after it are the same. */
  lemma ConversionKeepsWording(e: CliConfigError)
    ensures DescribeConfigError(e)[14..] == Describe(FromConfigError(e))[11..]
  {
  }

  /** The failures the generated client reports for the cluster listing. */
  datatype GetAllVisibleClusterError = Status401 | Status500 | UnknownValue(value: string)

  /** The client's error wrapper: an HTTP error answer with or without a decoded body, a decoding failure, or anything else. */
  datatype ClientError =
    | ResponseError(entity: Option<GetAllVisibleClusterError>)
    | SerdeError(message: string)
    | OtherClientError(debugText: string)

  /** `From<GetAllVisibleClusterError>`. */
  function FromListingError(e: GetAllVisibleClusterError): (r: ProxyAuthK8sError)
    ensures r.Unauthenticated? <==> e.Status401?
    ensures r.Unauthenticated? || r.RemoteServerError?
    ensures e.Status401? ==> r.message == "Authentification failed, please re-login to the server."
    ensures e.Status500? ==> r.message == "Invalid response from server, see debug to have more details"
    ensures e.UnknownValue? ==> r.message == "Unknown error from server: " + e.value
  {
    match e
    case Status401 => Unauthenticated("Authentification failed, please re-login to the server.")
    case Status500 => RemoteServerError("Invalid response from server, see debug to have more details")
    case UnknownValue(v) => RemoteServerError("Unknown error from server: " + v)
  }

  /** `From<apis::Error<GetAllVisibleClusterError>>`. */
  function FromClientError(e: ClientError): (r: ProxyAuthK8sError)
    ensures r.Unauthenticated? <==> e == ResponseError(Some(Status401))
    ensures r.Unauthenticated? || r.RemoteServerError?
    ensures e.ResponseError? && e.entity.Some? ==> r == FromListingError(e.entity.value)
    ensures e == ResponseError(None) ==> r == RemoteServerError("No error details provided by server")
    ensures e.SerdeError? ==> r == RemoteServerError("Serialization error: " + e.message)
    ensures e.OtherClientError? ==> r == RemoteServerError("Unexpected error: " + e.debugText)
  {
    match e
    case ResponseError(Some(err)) => FromListingError(err)
    case ResponseError(None) => RemoteServerError("No error details provided by server")
    case SerdeError(m) => RemoteServerError("Serialization error: " + m)
    case OtherClientError(d) => RemoteServerError("Unexpected error: " + d)
  }

  /** Only a decoded 401 asks the user to log in again; every other failure is the server's (ERR000012). */
  lemma OnlyUnauthorizedAsksForLogin(e: ClientError)
    ensures Code(FromClientError(e)) == (if e == ResponseError(Some(Status401)) then 13 else 12)
  {
    var r := FromClientError(e);
    if r.Unauthenticated? {
      assert Code(r) == 13;
    } else {
      assert Code(r) == 12;
    }
  }
}

=== FILE: cli_server_config.dfy ===
/**
  The command-line tool's record of one proxy server: its URL, its default
  namespace and the clusters the user has a token for. The tokens themselves
  live in the operating system's keyring, modelled as a map from (service,
  account) to secret; whether creating an entry or reaching the keyring
  backend fails is an input. The three copies of this type in the repository
  share the operations modelled here.
*/
module CliServerConfig {
  import opened Outcomes
  import opened Strings

  /** The per-cluster record; only whether a token was stored. */
  datatype CliClusterConfig = CliClusterConfig(tokenExist: bool)

  /** `CliClusterConfig::new` and its `Default`. */
  const NEW_CLUSTER: CliClusterConfig := CliClusterConfig(true)

  datatype CliServerConfig = CliServerConfig(url: string, namespace: string, clusters: map<string, CliClusterConfig>)

  /** `CliServerConfig::new`. */
  function New(url: string): (s: CliServerConfig)
    ensures s.url == url && s.namespace == "default" && |s.clusters| == 0
  {
    CliServerConfig(url, "default", map[])
  }

  /**
    `url_to_name` and `url_to_name_from_string`: every "https://" removed,
    then every "http://", then '.' and ':' each turned into '-'.
  */
  function UrlToName(url: string): (name: string)
    ensures '.' !in name && ':' !in name
  {
    var noScheme := ReplaceAll(ReplaceAll(url, "https://", ""), "http://", "");
    var noDots := ReplaceAll(noScheme, ".", "-");
    ReplaceAllRemovesChar(noScheme, '.', "-");
    ReplaceAllKeepsAbsentChar(noDots, ":", "-", '.');
    ReplaceAllRemovesChar(noDots, ':', "-");
    ReplaceAll(noDots, ":", "-")
  }

  /** A string that is already a server name is its own name. */
  lemma UrlToNameIdempotent(url: string)
    ensures UrlToName(UrlToName(url)) == UrlToName(url)
  {
    var n := UrlToName(url);
    MissingCharMeansAbsent(n, "https://", ':');
    ReplaceAllAbsent(n, "https://", "");
    MissingCharMeansAbsent(n, "http://", ':');
    ReplaceAllAbsent(n, "http://", "");
    MissingCharMeansAbsent(n, ".", '.');
    ReplaceAllAbsent(n, ".", "-");
    MissingCharMeansAbsent(n, ":", ':');
    ReplaceAllAbsent(n, ":", "-");
  }

  /** "https://" cannot occur in "http://" followed by a text without '/'. */
  lemma HttpsNotAfterHttp(x: string)
    requires '/' !in x
    ensures !Contains("http://" + x, "https://")
  {
    var s := "http://" + x;
    forall i: nat | i <= |s|
      ensures !OccursAt(s, "https://", i)
    {
      if i + 8 <= |s| {
        if i == 0 {
          assert s[i..i + 8][4] == ':' != "https://"[4];
        } else {
          assert s[i + 6] == x[i - 1];
          assert s[i..i + 8][6] == s[i + 6] != '/';
        }
      }
    }
  }

  /** Both scheme removals turn "https://" followed by a '/'-free text into that text. */
  lemma HttpsStripped(x: string)
    requires '/' !in x
    ensures ReplaceAll(ReplaceAll("https://" + x, "https://", ""), "http://", "") == x
  {
    ReplaceAllLeading(x, "https://", "");
    MissingCharMeansAbsent(x, "https://", '/');
    ReplaceAllAbsent(x, "https://", "");
    var once := ReplaceAll("https://" + x, "https://", "");
    assert once == x;
    MissingCharMeansAbsent(x, "http://", '/');
    ReplaceAllAbsent(x, "http://", "");
  }

  /** Both scheme removals turn "http://" followed by a '/'-free text into that text. */
  lemma HttpStripped(x: string)
    requires '/' !in x
    ensures ReplaceAll(ReplaceAll("http://" + x, "https://", ""), "http://", "") == x
  {
    HttpsNotAfterHttp(x);
    ReplaceAllAbsent("http://" + x, "https://", "");
    var once := ReplaceAll("http://" + x, "https://", "");
    assert once == "http://" + x;
    ReplaceAllLeading(x, "http://", "");
    MissingCharMeansAbsent(x, "http://", '/');
    ReplaceAllAbsent(x, "http://", "");
  }

  /**
    Behind either scheme, a host and port without '/' is named by turning its
    '.' and ':' into '-': the scheme does not matter.
  */
  lemma UrlToNameOfHost(hostPort: string)
    requires '/' !in hostPort
    ensures UrlToName("https://" + hostPort) == UrlToName("http://" + hostPort)
         == ReplaceChar(ReplaceChar(hostPort, '.', '-'), ':', '-')
  {
    HttpsStripped(hostPort);
    HttpStripped(hostPort);
    ReplaceAllSingleChar(hostPort, '.', '-');
    ReplaceAllSingleChar(ReplaceChar(hostPort, '.', '-'), ':', '-');
  }

  /** The key of a cluster in `clusters`, and the tail of its keyring account: "{ns}/{cluster}". */
  function ClusterKey(ns: string, cluster: string): string {
    ns + "/" + cluster
  }

  /** `get_cluster_url_from_ns_name`: always a URL, the namespace defaulting to the server's. */
  function ClusterUrl(s: CliServerConfig, ns: Option<string>, name: string): (r: Option<string>)
    ensures r.Some?
    ensures r.value == s.url + "/" + ClusterKey(ns.GetOr(s.namespace), name)
  {
    Some(s.url + "/" + ns.GetOr(s.namespace) + "/" + name)
  }

  /** `get_clusters_from_name_ns`: the record under "{ns}/{name}", the namespace defaulting to the server's. */
  function ClustersFromNameNs(s: CliServerConfig, name: string, ns: Option<string>): (r: Option<CliClusterConfig>)
    ensures r.Some? <==> ClusterKey(ns.GetOr(s.namespace), name) in s.clusters
    ensures r.Some? ==> r.value == s.clusters[ClusterKey(ns.GetOr(s.namespace), name)]
  {
    var key := ns.GetOr(s.namespace) + "/" + name;
    if key in s.clusters then Some(s.clusters[key]) else None
  }

  /** The key split back into namespace and cluster, as `clear_all_tokens` does: "" for a missing part. */
  function SplitClusterKey(key: string): (r: (string, string))
    ensures '/' !in r.0
  {
    var parts := Split(key, '/');
    SplitPieceHasNoSeparator(key, '/');
    (parts[0], if |parts| > 1 then parts[1] else "")
  }

  lemma {:induction false} SplitPieceHasNoSeparator(s: string, sep: char)
    ensures sep !in Split(s, sep)[0]
    decreases |s|
  {
    if |s| > 0 {
      SplitPieceHasNoSeparator(s[1..], sep);
    }
  }

  /** Splitting a key gives back the namespace and cluster it was built from. */
  lemma SplitClusterKeyRoundTrip(ns: string, cluster: string)
    requires '/' !in ns && '/' !in cluster
    ensures SplitClusterKey(ClusterKey(ns, cluster)) == (ns, cluster)
  {
    SplitAfterHead(ns, '/', cluster);
    SplitWithoutSeparator(cluster, '/');
    assert ns + "/" + cluster == ns + ['/'] + cluster;
  }

  // ---------------------------------------------------------------------------
  // Tokens in the keyring
  // ---------------------------------------------------------------------------

  const KEYRING_SERVICE: string := "proxyauthk8s"

  /** The keyring: the secret stored for each (service, account). */
  type Keyring = map<(string, string), string>

  /** How one keyring call fares: the entry cannot be created, or the backend refuses the operation. */
  datatype KeyringAccess = KeyringAccess(entryFails: bool, backendFails: bool)

  const RELIABLE: KeyringAccess := KeyringAccess(false, false)

  datatype KeyringError = ReadError(message: string) | WriteError(message: string) | DeleteError(message: string)

  /** The account of the server's own token: its URL. */
  function ServerAccount(s: CliServerConfig): string {
    s.url
  }

  /** The account of a cluster token: "{url}::{ns}/{cluster}". */
  function ClusterAccount(s: CliServerConfig, ns: string, cluster: string): string {
    s.url + "::" + ClusterKey(ns, cluster)
  }

  function EntryError(url: string): string {
    "Failed to create keyring entry for server URL: " + url
  }

  /** `get_password` on the entry of `account`; a missing entry is a read failure. */
  function GetToken(kr: Keyring, account: string, a: KeyringAccess, url: string): (r: Result<string, KeyringError>)
    ensures r.Ok? <==> !a.entryFails && !a.backendFails && (KEYRING_SERVICE, account) in kr
    ensures r.Ok? ==> r.value == kr[(KEYRING_SERVICE, account)]
    ensures a.entryFails ==> r == Err(ReadError(EntryError(url)))
    ensures r.Err? && !a.entryFails ==> r == Err(ReadError("Failed to read token from keyring for server URL: " + url))
  {
    if a.entryFails then Err(ReadError(EntryError(url)))
    else if a.backendFails || (KEYRING_SERVICE, account) !in kr then
      Err(ReadError("Failed to read token from keyring for server URL: " + url))
    else Ok(kr[(KEYRING_SERVICE, account)])
  }

  datatype KeyringOutcome = KeyringOutcome(keyring: Keyring, result: Result<Unit, KeyringError>)

  /** `set_password` on the entry of `account`. */
  function SetToken(kr: Keyring, account: string, token: string, a: KeyringAccess, url: string): (r: KeyringOutcome)
    ensures r.result.Ok? <==> !a.entryFails && !a.backendFails
    ensures r.result.Ok? ==> r.keyring == kr[(KEYRING_SERVICE, account) := token]
    ensures r.result.Err? ==> r.keyring == kr
    ensures a.entryFails ==> r.result == Err(WriteError(EntryError(url)))
    ensures !a.entryFails && a.backendFails ==> r.result == Err(WriteError("Failed to write token to keyring for server URL: " + url))
  {
    if a.entryFails then KeyringOutcome(kr, Err(WriteError(EntryError(url))))
    else if a.backendFails then KeyringOutcome(kr, Err(WriteError("Failed to write token to keyring for server URL: " + url)))
    else KeyringOutcome(kr[(KEYRING_SERVICE, account) := token], Ok(Unit))
  }

  /** `delete_credential` on the entry of `account`; deleting a missing entry fails. */
  function DeleteToken(kr: Keyring, account: string, a: KeyringAccess, url: string): (r: KeyringOutcome)
    ensures r.result.Ok? <==> !a.entryFails && !a.backendFails && (KEYRING_SERVICE, account) in kr
    ensures (KEYRING_SERVICE, account) !in r.keyring || r.result.Err?
    ensures forall e :: e in r.keyring <==> e in kr && (e != (KEYRING_SERVICE, account) || r.result.Err?)
    ensures forall e :: e in r.keyring ==> r.keyring[e] == kr[e]
    ensures a.entryFails ==> r.result == Err(DeleteError(EntryError(url)))
  {
    if a.entryFails then KeyringOutcome(kr, Err(DeleteError(EntryError(url))))
    else if a.backendFails || (KEYRING_SERVICE, account) !in kr then
      KeyringOutcome(kr, Err(DeleteError("Failed to delete token from keyring for server URL: " + url)))
    else KeyringOutcome(kr - {(KEYRING_SERVICE, account)}, Ok(Unit))
  }

  /** A token stored without fault is read back unchanged, and a deleted one is gone. */
  lemma TokenRoundTrip(kr: Keyring, account: string, token: string, url: string)
    ensures GetToken(SetToken(kr, account, token, RELIABLE, url).keyring, account, RELIABLE, url) == Ok(token)
    ensures GetToken(DeleteToken(kr, account, RELIABLE, url).keyring, account, RELIABLE, url).Err?
  {
  }

  /**
    The server's account and every cluster account are distinct entries, and
    cluster accounts of '/'-free namespaces differ whenever their keys do.
  */
  lemma AccountsAreDistinct(s: CliServerConfig, ns1: string, c1: string, ns2: string, c2: string)
    requires '/' !in ns1 && '/' !in ns2
    ensures ServerAccount(s) != ClusterAccount(s, ns1, c1)
    ensures ClusterAccount(s, ns1, c1) == ClusterAccount(s, ns2, c2) ==> ns1 == ns2 && c1 == c2
  {
    assert |ServerAccount(s)| < |ClusterAccount(s, ns1, c1)|;
    if ClusterAccount(s, ns1, c1) == ClusterAccount(s, ns2, c2) {
      var n := |s.url + "::"|;
      var key := ClusterKey(ns1, c1);
      assert key == ClusterAccount(s, ns1, c1)[n..];
      assert ClusterKey(ns2, c2) == ClusterAccount(s, ns2, c2)[n..];
      assert ns1 + "/" + c1 == ns1 + ['/'] + c1;
      assert ns2 + "/" + c2 == ns2 + ['/'] + c2;
      SplitAfterHead(ns1, '/', c1);
      SplitAfterHead(ns2, '/', c2);
      assert ns1 == Split(key, '/')[0] == ns2;
      assert c1 == key[|ns1| + 1..] == c2;
    }
  }

  datatype ClusterTokenOutcome = ClusterTokenOutcome(server: CliServerConfig, keyring: Keyring, result: Result<Unit, KeyringError>)

  /**
    `set_cluster_token`: the record "{ns}/{cluster}" is added when missing
    (an existing one is kept as it is), whatever the keyring then does.
  */
  function SetClusterToken(s: CliServerConfig, ns: string, cluster: string, token: string, kr: Keyring, a: KeyringAccess)
    : (r: ClusterTokenOutcome)
    ensures r.server.url == s.url && r.server.namespace == s.namespace
    ensures ClusterKey(ns, cluster) in r.server.clusters
    ensures ClusterKey(ns, cluster) in s.clusters ==> r.server.clusters == s.clusters
    ensures ClusterKey(ns, cluster) !in s.clusters ==> r.server.clusters == s.clusters[ClusterKey(ns, cluster) := NEW_CLUSTER]
    ensures r.keyring == SetToken(kr, ClusterAccount(s, ns, cluster), token, a, s.url).keyring
    ensures r.result == SetToken(kr, ClusterAccount(s, ns, cluster), token, a, s.url).result
  {
    var key := ns + "/" + cluster;
    var clusters := if key in s.clusters then s.clusters else s.clusters[key := NEW_CLUSTER];
    var o := SetToken(kr, s.url + "::" + key, token, a, s.url);
    ClusterTokenOutcome(s.(clusters := clusters), o.keyring, o.result)
  }

  /** The accounts removed in turn, each with its own access; a failed deletion leaves its entry. */
  function ClearAccounts(kr: Keyring, accounts: seq<string>, access: string -> KeyringAccess): (r: Keyring)
    ensures forall e :: e in r ==> e in kr && r[e] == kr[e]
    ensures forall e :: e in kr && !(e.0 == KEYRING_SERVICE && e.1 in accounts) ==> e in r
    ensures forall acc :: acc in accounts && !access(acc).entryFails && !access(acc).backendFails ==>
      (KEYRING_SERVICE, acc) !in r
    ensures forall acc :: (access(acc).entryFails || access(acc).backendFails) && (KEYRING_SERVICE, acc) in kr ==>
      (KEYRING_SERVICE, acc) in r
    decreases |accounts|
  {
    if |accounts| == 0 then kr
    else
      var rest := ClearAccounts(kr, accounts[1..], access);
      DeleteToken(rest, accounts[0], access(accounts[0]), "").keyring
  }

  /** The account `clear_all_tokens` deletes for a cluster key. */
  function AccountOfKey(s: CliServerConfig, key: string): string {
    ClusterAccount(s, SplitClusterKey(key).0, SplitClusterKey(key).1)
  }

  /** `acc` is one of the accounts `clear_all_tokens` deletes for `s`: the server's own or a cluster's. */
  ghost predicate IsAccountOf(s: CliServerConfig, acc: string) {
    acc == ServerAccount(s) || exists k :: k in s.clusters && acc == AccountOfKey(s, k)
  }

  /**
    `clear_all_tokens`: the token of every cluster key, visited in `order`
    (the map's iteration order), then the server's own token. Failures are
    only logged.
  */
  function ClearAllTokens(s: CliServerConfig, order: seq<string>, kr: Keyring, access: string -> KeyringAccess)
    : (r: Keyring)
    requires forall k :: k in order <==> k in s.clusters
    ensures forall e :: e in r ==> e in kr && r[e] == kr[e]
    ensures !access(ServerAccount(s)).entryFails && !access(ServerAccount(s)).backendFails ==>
      (KEYRING_SERVICE, ServerAccount(s)) !in r
    ensures forall k :: k in s.clusters && !access(AccountOfKey(s, k)).entryFails && !access(AccountOfKey(s, k)).backendFails ==>
      (KEYRING_SERVICE, AccountOfKey(s, k)) !in r
    ensures forall e :: e in kr && !(e.0 == KEYRING_SERVICE && IsAccountOf(s, e.1)) ==> e in r
    ensures forall acc :: (access(acc).entryFails || access(acc).backendFails) && (KEYRING_SERVICE, acc) in kr ==>
      (KEYRING_SERVICE, acc) in r
  {
    var accounts := seq(|order|, i requires 0 <= i < |order| => AccountOfKey(s, order[i]));
    assert forall acc :: acc in accounts + [ServerAccount(s)] ==> IsAccountOf(s, acc) by {
      forall acc | acc in accounts + [ServerAccount(s)]
        ensures IsAccountOf(s, acc)
      {
        if acc != ServerAccount(s) {
          var i :| 0 <= i < |accounts| && accounts[i] == acc;
          assert order[i] in s.clusters && acc == AccountOfKey(s, order[i]);
        }
      }
    }
    assert forall k :: k in s.clusters ==> AccountOfKey(s, k) in accounts by {
      forall k | k in s.clusters
        ensures AccountOfKey(s, k) in accounts
      {
        var i :| 0 <= i < |order| && order[i] == k;
        assert accounts[i] == AccountOfKey(s, k);
      }
    }
    ClearAccounts(kr, accounts + [ServerAccount(s)], access)
  }

  /**
    A cluster token stored through `set_cluster_token` is exactly the one
    `clear_all_tokens` deletes: its key splits back into the same account.
  */
  lemma ClearAllRemovesStoredClusterToken(s: CliServerConfig, ns: string, cluster: string, token: string, kr: Keyring,
                                          order: seq<string>)
    requires '/' !in ns && '/' !in cluster
    requires var s2 := SetClusterToken(s, ns, cluster, token, kr, RELIABLE).server;
      forall k :: k in order <==> k in s2.clusters
    ensures var o := SetClusterToken(s, ns, cluster, token, kr, RELIABLE);
      (KEYRING_SERVICE, ClusterAccount(s, ns, cluster)) in o.keyring &&
      (KEYRING_SERVICE, ClusterAccount(s, ns, cluster)) !in ClearAllTokens(o.server, order, o.keyring, _ => RELIABLE)
  {
    var o := SetClusterToken(s, ns, cluster, token, kr, RELIABLE);
    SplitClusterKeyRoundTrip(ns, cluster);
    assert AccountOfKey(o.server, ClusterKey(ns, cluster)) == ClusterAccount(s, ns, cluster);
  }
}

=== FILE: controller.dfy ===
/**
  The leader-elected controller around one reconciliation: the error policy,
  the entry point that gates on leadership and on the namespace before
  handing the resource to the finalizer helper, and the leader flag kept up
  to date by the lease loop.
*/
module Controller {
  import opened Outcomes
  import opened ControllerTypes
  import ProxyResource
  import RedisCache
  import Reconcile

  /** `error_policy_proxy_kube_api`: an hour when another instance leads, else five seconds. */
  function ErrorPolicy(isLeader: bool, error: ControllerError): (a: Action)
    ensures a.Requeue?
    ensures !isLeader ==> a.seconds == ONE_HOUR_SECONDS
    ensures isLeader ==> a.seconds == ERROR_POLICY_SECONDS
  {
    if !isLeader then Requeue(ONE_HOUR_SECONDS) else Requeue(ERROR_POLICY_SECONDS)
  }

  /** The policy looks only at leadership, never at the error. */
  lemma ErrorPolicyIgnoresError(isLeader: bool, e1: ControllerError, e2: ControllerError)
    ensures ErrorPolicy(isLeader, e1) == ErrorPolicy(isLeader, e2)
    ensures ErrorPolicy(isLeader, e1).seconds >= ERROR_POLICY_SECONDS
  {
  }

  /** Which handler ran, what the cache became, and what the runtime is told. */
  datatype MainOutcome = MainOutcome(
    ran: Option<FinalizerEvent>,
    cache: RedisCache.Cache,
    patch: Option<Reconcile.PatchRequest>,
    result: Result<Action, ControllerError>)

  /** A handler's error, as the finalizer helper reports it. */
  function WrapHandlerError(event: FinalizerEvent, e: ControllerError): (w: ControllerError)
    ensures w.FinalizerError?
    ensures event == Apply ==> w.failure == ApplyFailed(e)
    ensures event == Cleanup ==> w.failure == CleanupFailed(e)
  {
    match event
    case Apply => FinalizerError(ApplyFailed(e))
    case Cleanup => FinalizerError(CleanupFailed(e))
  }

  /**
    `main_reconcile_proxy_kube_api`. The cleanup handler of this controller
    is passed in as `cleanup`; the finalizer helper's choice of event, or its
    own failure, is `step`.
  */
  function MainReconcile(p: ProxyResource.ProxyKubeApi, isLeader: bool, cache: RedisCache.Cache,
                         step: FinalizerStep, env: Reconcile.Environment,
                         cleanup: (ProxyResource.ProxyKubeApi, RedisCache.Cache) -> Reconcile.StepOutcome)
    : (o: MainOutcome)
    ensures !isLeader ==> o == MainOutcome(None, cache, None, Ok(Requeue(ONE_HOUR_SECONDS)))
    ensures isLeader && p.metadata.namespace.None? ==>
      o == MainOutcome(None, cache, None, Err(InvalidResource(NO_NAMESPACE_MESSAGE)))
    ensures o.ran.Some? <==> isLeader && p.metadata.namespace.Some? && step.Dispatch?
    ensures o.ran.Some? ==> o.ran.value == step.event
    ensures o.ran == Some(Apply) ==>
      var r := Reconcile.ReconcileStep(p, env, cache);
      o.cache == r.cache && o.patch == r.patch &&
      (r.result.Ok? ==> o.result == r.result) &&
      (r.result.Err? ==> o.result == Err(FinalizerError(ApplyFailed(r.result.error))))
    ensures o.ran == Some(Cleanup) ==>
      var r := cleanup(p, cache);
      o.cache == r.cache &&
      (r.result.Ok? ==> o.result == r.result) &&
      (r.result.Err? ==> o.result == Err(FinalizerError(CleanupFailed(r.result.error))))
    ensures isLeader && p.metadata.namespace.Some? && step.BookkeepingFailed? ==>
      o == MainOutcome(None, cache, None, Err(FinalizerError(step.failure)))
  {
    if !isLeader then MainOutcome(None, cache, None, Ok(Requeue(ONE_HOUR_SECONDS)))
    else if p.metadata.namespace.None? then MainOutcome(None, cache, None, Err(InvalidResource(NO_NAMESPACE_MESSAGE)))
    else
      match step
      case BookkeepingFailed(f) => MainOutcome(None, cache, None, Err(FinalizerError(f)))
      case Dispatch(event) =>
        var r := if event == Apply then Reconcile.ReconcileStep(p, env, cache) else cleanup(p, cache);
        var result := if r.result.Err? then Err(WrapHandlerError(event, r.result.error)) else r.result;
        MainOutcome(Some(event), r.cache, r.patch, result)
  }

  /**
    A follower neither reconciles nor cleans up, whatever the resource, and
    it comes back after the same hour the error policy would wait.
  */
  lemma FollowerDoesNothing(p: ProxyResource.ProxyKubeApi, cache: RedisCache.Cache, step: FinalizerStep,
                            env: Reconcile.Environment,
                            cleanup: (ProxyResource.ProxyKubeApi, RedisCache.Cache) -> Reconcile.StepOutcome,
                            e: ControllerError)
    ensures MainReconcile(p, false, cache, step, env, cleanup).cache == cache
    ensures MainReconcile(p, false, cache, step, env, cleanup).result == Ok(ErrorPolicy(false, e))
  {
  }

  // ---------------------------------------------------------------------------
  // Leader election
  // ---------------------------------------------------------------------------

  /** `LeaseLockResult`: this instance holds the lease, or another one does. */
  datatype LeaseLockResult = Acquired | NotAcquired

  const LEASE_NAME: string := "proxy-auth-k8s-leader-election"
  const LEASE_TTL_SECONDS: nat := 15
  const RENEW_TICK_SECONDS: nat := 5

  datatype LeaseLockParams = LeaseLockParams(holderId: string, leaseName: string, leaseTtlSeconds: nat)

  /** The lease the controller competes for, held under the instance's own name. */
  function LeaseParamsOf(instanceLeaseName: string): (params: LeaseLockParams)
    ensures params.holderId == instanceLeaseName && params.leaseName == LEASE_NAME
    ensures params.leaseTtlSeconds > RENEW_TICK_SECONDS
    ensures params.leaseTtlSeconds >= 3 * RENEW_TICK_SECONDS
  {
    LeaseLockParams(instanceLeaseName, LEASE_NAME, LEASE_TTL_SECONDS)
  }

  /** The leader flag after one renewal attempt. */
  function NextLeaderFlag(attempt: Result<LeaseLockResult, string>): (leader: bool)
    ensures leader <==> attempt == Ok(Acquired)
  {
    match attempt
    case Ok(lease) => lease == Acquired
    case Err(_) => false
  }

  /** What wakes the supervising loop: the controller stream ending, or the renewal tick. */
  datatype LoopEvent = ControllerFinished | Tick(attempt: Result<LeaseLockResult, string>)

  datatype LoopState = LoopState(isLeader: bool, exited: bool, handled: nat)

  /** The supervising loop of `run` over a sequence of wake-ups. */
  function RunLoop(events: seq<LoopEvent>, isLeader: bool): (s: LoopState)
    ensures s.exited <==> exists i :: 0 <= i < |events| && events[i] == ControllerFinished
    ensures s.handled <= |events|
    ensures s.exited ==>
      (s.handled >= 1 && events[s.handled - 1] == ControllerFinished &&
       forall i :: 0 <= i < s.handled - 1 ==> events[i].Tick?)
    ensures !s.exited ==> s.handled == |events|
    ensures s.handled >= 1 && events[s.handled - 1].Tick? ==> s.isLeader == NextLeaderFlag(events[s.handled - 1].attempt)
    ensures s.handled == 0 ==> s.isLeader == isLeader
    decreases |events|
  {
    if |events| == 0 then LoopState(isLeader, false, 0)
    else
      match events[0]
      case ControllerFinished => LoopState(isLeader, true, 1)
      case Tick(attempt) =>
        var rest := RunLoop(events[1..], NextLeaderFlag(attempt));
        LoopState(rest.isLeader, rest.exited, rest.handled + 1)
  }

  /** Ticks alone never end the loop, whatever the lease calls return. */
  lemma TicksNeverExit(events: seq<LoopEvent>, isLeader: bool)
    requires forall i :: 0 <= i < |events| ==> events[i].Tick?
    ensures !RunLoop(events, isLeader).exited
  {
  }

  /** How `run` starts: the initial listing must succeed, or the process panics. */
  datatype Startup = Started | Panicked(message: string)

  function StartupOutcome(listing: Result<Unit, string>): (s: Startup)
    ensures s.Started? <==> listing.Ok?
    ensures listing.Err? ==> s.message == "Failed to list ProxyKubeApi resources: " + listing.error
  {
    match listing
    case Ok(_) => Started
    case Err(e) => Panicked("Failed to list ProxyKubeApi resources: " + e)
  }
}

=== FILE: controller_types.dfy ===
/**
  The values the controllers hand back to the Kubernetes runtime: what to do
  next with a resource, and why a reconciliation failed.
*/
module ControllerTypes {
  /** `kube::runtime::controller::Action`: come back after some seconds, or only on the next change. */
  datatype Action = Requeue(seconds: nat) | AwaitChange

  /**
    `ControllerError`. The foreign error values (Kubernetes client, JSON,
    connection pool) are represented by their message.
  */
  datatype ControllerError =
    | Kube(message: string)
    | Serde(message: string)
    | FinalizerError(failure: FinalizerFailure)
    | InvalidResource(message: string)
    | RedisPool(message: string)

  /**
    `kube::runtime::finalizer::Error`: the handler's own error wrapped by the
    event it served, or a failure of the finalizer bookkeeping itself.
  */
  datatype FinalizerFailure =
    | ApplyFailed(cause: ControllerError)
    | CleanupFailed(cause: ControllerError)
    | AddFinalizer(message: string)
    | RemoveFinalizer(message: string)
    | UnnamedObject
    | InvalidFinalizer

  /** The two events the finalizer helper hands to the reconciler. */
  datatype FinalizerEvent = Apply | Cleanup

  /**
    What the finalizer helper does with a resource: call the handler with an
    event, or fail on its own bookkeeping before calling it.
  */
  datatype FinalizerStep = Dispatch(event: FinalizerEvent) | BookkeepingFailed(failure: FinalizerFailure)

  const ONE_HOUR_SECONDS: nat := 60 * 60
  const ERROR_POLICY_SECONDS: nat := 5
  const NO_NAMESPACE_MESSAGE: string := "ProxyKubeApi has no namespace"
}

=== FILE: crd_defaults.dfy ===
/**
  The serde default values of the custom resource's fields. Both trees of the
  repository define the same functions with the same values; the newer tree
  adds the empty list, the empty string and the default token validator
  (the last is `AuthConfig.DEFAULT_VALIDATE_AGAINST`).
*/
module CrdDefaults {

  /** `default_enabled`. */
  const ENABLED: bool := true
  /** `default_disabled`. */
  const DISABLED: bool := false
  /** `default_max_failed_logins`. */
  const MAX_FAILED_LOGINS: nat := 5
  /** `default_ban_duration`, in seconds. */
  const BAN_DURATION: nat := 300
  /** `default_max_requests_per_minute`. */
  const MAX_REQUESTS_PER_MINUTE: nat := 60
  /** `default_empty_string`. */
  const EMPTY_STRING: string := ""

}

=== FILE: headers.dfy ===
/**
  HTTP header lists as the reverse proxy copies them between the client and
  the upstream. A header is a name (already lower-case, as the HTTP library
  normalises names) and a raw byte value; only values made of visible ASCII
  can be read as text.
*/
module Headers {
  import opened Outcomes
  import opened Strings
  import opened Bytes

  datatype Header = Header(name: string, value: seq<Byte>)

  /** A header as text, once its value has been read. */
  datatype TextHeader = TextHeader(name: string, value: string)

  /** `HeaderValue::to_str`: the text of a value, if every byte is visible ASCII. */
  function ValueText(value: seq<Byte>): (r: Option<string>)
    ensures r.Some? <==> AllVisibleAscii(value)
    ensures r.Some? ==> r.value == BytesToChars(value)
  {
    if AllVisibleAscii(value) then Some(BytesToChars(value)) else None
  }

  /**
    The headers the proxy never forwards in either direction: the hop-by-hop
    `connection`, `transfer-encoding` and the body length (both recomputed for
    the streamed body), and `host`, compared without regard to ASCII case.
  */
  predicate IsExcluded(name: string) {
    EqIgnoreAsciiCase(name, "connection") || EqIgnoreAsciiCase(name, "transfer-encoding") ||
    EqIgnoreAsciiCase(name, "content-length") || EqIgnoreAsciiCase(name, "host")
  }

  /** A header passes the filter: its name is not excluded and its value is readable. */
  predicate Passes(h: Header) {
    !IsExcluded(h.name) && AllVisibleAscii(h.value)
  }

  /** A header's text form, once its value is known to be readable. */
  function AsText(h: Header): TextHeader {
    TextHeader(h.name, BytesToChars(h.value))
  }

  /** `t` is the text form of some header of `hs` that passes the filter. */
  ghost predicate ComesFrom(hs: seq<Header>, t: TextHeader) {
    exists i :: 0 <= i < |hs| && Passes(hs[i]) && t == AsText(hs[i])
  }

  lemma ComesFromTail(hs: seq<Header>, t: TextHeader)
    requires |hs| > 0 && ComesFrom(hs[1..], t)
    ensures ComesFrom(hs, t)
  {
    var i :| 0 <= i < |hs[1..]| && Passes(hs[1..][i]) && t == AsText(hs[1..][i]);
    assert hs[1..][i] == hs[i + 1];
  }

  /** The headers that pass, in order, as text. */
  function PassingAsText(hs: seq<Header>): seq<TextHeader>
    decreases |hs|
  {
    if |hs| == 0 then []
    else Kept(hs[0]) + PassingAsText(hs[1..])
  }

  /** One header's contribution to the copy: itself as text when it passes, else nothing. */
  function Kept(h: Header): seq<TextHeader> {
    if Passes(h) then [AsText(h)] else []
  }

  lemma {:induction false} PassingAsTextFacts(hs: seq<Header>)
    ensures |PassingAsText(hs)| <= |hs|
    ensures forall t :: t in PassingAsText(hs) ==> !IsExcluded(t.name) && ComesFrom(hs, t)
    ensures forall i :: 0 <= i < |hs| && Passes(hs[i]) ==> AsText(hs[i]) in PassingAsText(hs)
    decreases |hs|
  {
    if |hs| > 0 {
      var rest := PassingAsText(hs[1..]);
      PassingAsTextFacts(hs[1..]);
      forall t | t in rest
        ensures ComesFrom(hs, t)
      {
        ComesFromTail(hs, t);
      }
      forall i | 1 <= i < |hs| && Passes(hs[i])
        ensures AsText(hs[i]) in rest
      {
        assert hs[1..][i - 1] == hs[i];
      }
      if Passes(hs[0]) {
        assert ComesFrom(hs, AsText(hs[0]));
      }
    }
  }

  /** Filtering a concatenation filters each part. */
  lemma {:induction false} PassingAsTextAppend(a: seq<Header>, b: seq<Header>)
    ensures PassingAsText(a + b) == PassingAsText(a) + PassingAsText(b)
    decreases |a|
  {
    if |a| == 0 {
      assert a + b == b;
    } else {
      PassingAsTextAppend(a[1..], b);
      ConsAppend(a, b);
      AppendAssoc(Kept(a[0]), PassingAsText(a[1..]), PassingAsText(b));
    }
  }

  lemma ConsAppend(a: seq<Header>, b: seq<Header>)
    requires |a| > 0
    ensures (a + b)[0] == a[0] && (a + b)[1..] == a[1..] + b
  {
  }

  lemma AppendAssoc<T>(x: seq<T>, y: seq<T>, z: seq<T>)
    ensures x + (y + z) == (x + y) + z
  {
  }

  /**
    The filtering copy loop: every header that passes, in order, as text;
    the others are skipped silently.
  */
  function Forwardable(hs: seq<Header>): (out: seq<TextHeader>)
    ensures |out| <= |hs|
    ensures forall t :: t in out ==> !IsExcluded(t.name) && ComesFrom(hs, t)
    ensures forall i :: 0 <= i < |hs| && Passes(hs[i]) ==> AsText(hs[i]) in out
  {
    PassingAsTextFacts(hs);
    PassingAsText(hs)
  }

  /** Headers that pass keep their relative order: filtering a concatenation filters each part. */
  lemma ForwardableAppend(a: seq<Header>, b: seq<Header>)
    ensures Forwardable(a + b) == Forwardable(a) + Forwardable(b)
  {
    PassingAsTextAppend(a, b);
  }

  /** The full list, every value as text, when no byte is outside visible ASCII (the older copy loop). */
  function AllAsText(hs: seq<Header>): (out: seq<TextHeader>)
    requires forall i :: 0 <= i < |hs| ==> AllVisibleAscii(hs[i].value)
    ensures |out| == |hs|
    ensures forall i :: 0 <= i < |hs| ==> out[i] == AsText(hs[i])
  {
    seq(|hs|, i requires 0 <= i < |hs| => AsText(hs[i]))
  }

  /** The index of the first header whose value `to_str` rejects. */
  function FirstUnreadable(hs: seq<Header>): (r: Option<nat>)
    ensures r.None? <==> forall i :: 0 <= i < |hs| ==> AllVisibleAscii(hs[i].value)
    ensures r.Some? ==> r.value < |hs| && !AllVisibleAscii(hs[r.value].value)
    decreases |hs|
  {
    if |hs| == 0 then None
    else if !AllVisibleAscii(hs[0].value) then Some(0)
    else
      match FirstUnreadable(hs[1..])
      case Some(k) => Some(k + 1)
      case None => None
  }
}

=== FILE: json.dfy ===
/**
  How the resource is written to and read from the cache as JSON. The JSON
  library itself is not modelled: a `Codec` gives its outcome for each value
  and each text, and `ToJson`/`FromJson` add what the repository's wrappers
  do on failure (an empty text when writing fails, no value when reading
  fails).
*/
module Json {
  import opened Outcomes

  /** The JSON library's writer and reader for one type. */
  datatype Codec<!T> = Codec(write: T -> Result<string, string>, read: string -> Result<T, string>)

  /** `to_json`: the pretty-printed text, or "" when serialisation fails. */
  function ToJson<T>(c: Codec<T>, x: T): (s: string)
    ensures c.write(x).Ok? ==> s == c.write(x).value
    ensures c.write(x).Err? ==> s == ""
  {
    match c.write(x)
    case Ok(text) => text
    case Err(_) => ""
  }

  /** `from_json`: the parsed value, or nothing when the text does not parse. */
  function FromJson<T>(c: Codec<T>, s: string): (r: Option<T>)
    ensures r.None? <==> c.read(s).Err?
    ensures r.Some? ==> c.read(s) == Ok(r.value)
  {
    c.read(s).ToOption()
  }

  /** Whenever the library reads back what it wrote, so do the wrappers. */
  lemma RoundTrip<T>(c: Codec<T>, x: T)
    requires c.write(x).Ok? && c.read(c.write(x).value) == Ok(x)
    ensures FromJson(c, ToJson(c, x)) == Some(x)
  {
  }

  /**
    A value that fails to serialise is stored as "", which is not a JSON
    document, so a later read finds no value rather than a wrong one.
  */
  lemma FailedWriteReadsAsMissing<T>(c: Codec<T>, x: T)
    requires c.write(x).Err? && c.read("").Err?
    ensures FromJson(c, ToJson(c, x)) == None
  {
  }
}

=== FILE: kube_redirect.dfy ===
/**
  The reverse proxy of the API server: a request under
  "/clusters/{ns}/{cluster}/..." is looked up in the cache, checked, and
  forwarded to the upstream cluster with a rewritten URL, filtered headers,
  the client address and an optional timeout taken from the query; the
  upstream's status and headers come back to the client.

  The cache connection, the HTTP client, the Service lookup, the JSON codec
  and the upstream's answer are inputs; the request and response bodies are
  streamed and not modelled.
*/
module KubeRedirect {
  import opened Outcomes
  import opened Strings
  import opened Headers
  import opened Bytes
  import Json
  import RedisCache
  import Service
  import ProxyResource

  const NOT_FOUND: nat := 404
  const SERVICE_UNAVAILABLE: nat := 503
  const TIMEOUT_KEY: string := "timeout="
  const FORWARDED_FOR: string := "x-forwarded-for"

  /** The cache key of the proxy named in the request path. */
  function CacheKey(ns: string, cluster: string): string {
    ProxyResource.IDENTIFIER_PREFIX + ns + "/" + cluster
  }

  /** The key the proxy looks up is the one the controller writes for that namespace and name. */
  lemma CacheKeyIsIdentifier(p: ProxyResource.ProxyKubeApi)
    requires p.metadata.namespace.Some?
    ensures CacheKey(p.metadata.namespace.value, ProxyResource.NameAny(p.metadata)) == ProxyResource.ToIdentifier(p)
  {
  }

  /** The incoming request: method, path, raw query, headers and the peer's IP address, if known. */
  datatype Request = Request(verb: string, path: string, query: string, headers: seq<Header>, peer: Option<string>)

  /** The request sent upstream. */
  datatype Forwarded = Forwarded(verb: string, url: string, headers: seq<TextHeader>, timeoutSeconds: Option<nat>)

  datatype UpstreamResponse = UpstreamResponse(status: nat, headers: seq<Header>)

  datatype Body = NoBody | Text(text: string) | Streamed

  datatype Response = Response(status: nat, headers: seq<TextHeader>, body: Body)

  // ---------------------------------------------------------------------------
  // Target URL
  // ---------------------------------------------------------------------------

  /** The query part of the upstream URL: "?" and the query, or nothing for an empty query. */
  function QuerySuffix(query: string): string {
    if query != "" then "?" + query else ""
  }

  /**
    The upstream URL: every "/clusters/{ns}/{cluster}" in the request path
    replaced by the Service URL, then "?" and the query when there is one.
    A path that names the proxy once, at its start, is sent to the Service
    URL followed by the rest of the path; a path that does not name it is
    sent as it came.
  */
  function TargetUrl(path: string, ns: string, cluster: string, serviceUrl: string, query: string): (url: string)
    ensures query == "" ==> url == ReplaceAll(path, "/clusters/" + ns + "/" + cluster, serviceUrl)
    ensures query != "" ==> url == ReplaceAll(path, "/clusters/" + ns + "/" + cluster, serviceUrl) + "?" + query
    ensures !Contains(path, "/clusters/" + ns + "/" + cluster) ==> url == path + QuerySuffix(query)
    ensures IsPrefix("/clusters/" + ns + "/" + cluster, path) &&
            !Contains(path[|"/clusters/" + ns + "/" + cluster|..], "/clusters/" + ns + "/" + cluster) ==>
      url == serviceUrl + path[|"/clusters/" + ns + "/" + cluster|..] + QuerySuffix(query)
  {
    var pat := "/clusters/" + ns + "/" + cluster;
    ReplaceAllAtMostOnce(path, pat, serviceUrl);
    var base := ReplaceAll(path, pat, serviceUrl);
    if query != "" then base + "?" + query else base
  }

  /** Replacing a prefix occurrence: the path's proxy prefix becomes the Service URL. */
  lemma {:induction false} TargetUrlOfPrefixedPath(ns: string, cluster: string, serviceUrl: string, rest: string)
    requires !Contains(rest, "/clusters/" + ns + "/" + cluster)
    ensures TargetUrl("/clusters/" + ns + "/" + cluster + rest, ns, cluster, serviceUrl, "") == serviceUrl + rest
  {
    var pat := "/clusters/" + ns + "/" + cluster;
    var s := pat + rest;
    assert IsPrefix(pat, s);
    assert s[|pat|..] == rest;
    ReplaceAllAbsent(rest, pat, serviceUrl);
  }

  // ---------------------------------------------------------------------------
  // Timeout
  // ---------------------------------------------------------------------------

  /** `find_map` over the query parameters: the first one starting with "timeout=", with "timeout=" removed. */
  function FirstTimeoutValue(params: seq<string>): (r: Option<string>)
    ensures r.None? <==> forall i :: 0 <= i < |params| ==> !IsPrefix(TIMEOUT_KEY, params[i])
    ensures r.Some? ==>
      (exists i :: 0 <= i < |params| && IsPrefix(TIMEOUT_KEY, params[i]) &&
        (forall j :: 0 <= j < i ==> !IsPrefix(TIMEOUT_KEY, params[j])) &&
        r.value == ReplaceAll(params[i], TIMEOUT_KEY, ""))
    decreases |params|
  {
    if |params| == 0 then None
    else if IsPrefix(TIMEOUT_KEY, params[0]) then Some(ReplaceAll(params[0], TIMEOUT_KEY, ""))
    else
      var tail := params[1..];
      var rest := FirstTimeoutValue(tail);
      assert forall i :: 1 <= i < |params| ==> tail[i - 1] == params[i];
      assert rest.Some? ==>
        (exists i :: 0 <= i < |params| && IsPrefix(TIMEOUT_KEY, params[i]) &&
          (forall j :: 0 <= j < i ==> !IsPrefix(TIMEOUT_KEY, params[j])) &&
          rest.value == ReplaceAll(params[i], TIMEOUT_KEY, "")) by {
        if rest.Some? {
          var k :| 0 <= k < |tail| && IsPrefix(TIMEOUT_KEY, tail[k]) &&
            (forall j :: 0 <= j < k ==> !IsPrefix(TIMEOUT_KEY, tail[j])) &&
            rest.value == ReplaceAll(tail[k], TIMEOUT_KEY, "");
          assert params[k + 1] == tail[k];
          assert forall j :: 1 <= j < k + 1 ==> !IsPrefix(TIMEOUT_KEY, params[j]) by {
            forall j | 1 <= j < k + 1
              ensures !IsPrefix(TIMEOUT_KEY, params[j])
            {
              assert params[j] == tail[j - 1];
            }
          }
        }
      }
      rest
  }

  /** The raw timeout text: only looked for when the query mentions "timeout=" at all. */
  function TimeoutText(query: string): Option<string> {
    if Contains(query, TIMEOUT_KEY) then FirstTimeoutValue(Split(query, '&')) else None
  }

  /**
    The upstream timeout in seconds: one more than the requested value, when
    that value is a `u64`; no timeout when it does not parse. The addition
    saturates at the largest `u64`.
  */
  function UpstreamTimeout(query: string): (r: Option<nat>)
    ensures r.Some? <==> TimeoutText(query).Some? && ParseU64(TimeoutText(query).value).Some?
    ensures r.Some? ==>
      var n := ParseU64(TimeoutText(query).value).value;
      r.value > 0 && r.value <= U64_MAX && r.value >= n && (n < U64_MAX ==> r.value == n + 1)
  {
    match TimeoutText(query)
    case None => None
    case Some(text) =>
      match ParseU64(text)
      case None => None
      case Some(n) =>
        ParseU64Facts(text, n);
        Some(if n < U64_MAX then n + 1 else U64_MAX)
  }

  /**
    The timeout as the source computes it: `timeout_secs + 1` on a `u64`,
    which wraps to 0 at the largest value in an optimised build.
  */
  function UpstreamTimeoutAsWritten(query: string): (r: Option<nat>)
    ensures r.Some? <==> UpstreamTimeout(query).Some?
    ensures r.Some? ==> r.value <= U64_MAX
    ensures r.Some? ==> (r.value == 0 <==> ParseU64(TimeoutText(query).value) == Some(U64_MAX))
    ensures r.Some? && r.value == 0 ==> UpstreamTimeout(query) == Some(U64_MAX)
    ensures r.Some? && r.value != 0 ==> r == UpstreamTimeout(query)
  {
    match TimeoutText(query)
    case None => None
    case Some(text) =>
      match ParseU64(text)
      case None => None
      case Some(n) =>
        ParseU64Facts(text, n);
        CorrectedTimeoutOfValue(query, text, n);
        Some(WrappingSuccessor(n))
  }

  /** A query with one parameter "timeout={n}". */
  lemma {:induction false} SingleTimeoutParameter(n: nat)
    requires n <= U64_MAX
    ensures TimeoutText(TIMEOUT_KEY + NatToString(n)) == Some(NatToString(n))
    ensures ParseU64(NatToString(n)) == Some(n)
  {
    var digits := NatToString(n);
    var q := TIMEOUT_KEY + digits;
    NatToStringAllDigits(n);
    assert IsPrefix(TIMEOUT_KEY, q);
    OccursAtZeroIsPrefix(q, TIMEOUT_KEY);
    assert Contains(q, TIMEOUT_KEY);
    assert '&' !in q by {
      forall i | 0 <= i < |q|
        ensures q[i] != '&'
      {
        if i >= |TIMEOUT_KEY| {
          assert q[i] == digits[i - |TIMEOUT_KEY|];
        }
      }
    }
    SplitWithoutSeparator(q, '&');
    assert q[|TIMEOUT_KEY|..] == digits;
    assert !Contains(digits, TIMEOUT_KEY) by {
      forall i: nat | i <= |digits|
        ensures !OccursAt(digits, TIMEOUT_KEY, i)
      {
        if i + |TIMEOUT_KEY| <= |digits| {
          assert digits[i..i + |TIMEOUT_KEY|][0] == digits[i];
          assert IsDigit(digits[i]);
        }
      }
    }
    ReplaceAllAbsent(digits, TIMEOUT_KEY, "");
    assert ReplaceAll(q, TIMEOUT_KEY, "") == "" + ReplaceAll(q[|TIMEOUT_KEY|..], TIMEOUT_KEY, "");
    assert FirstTimeoutValue([q]) == Some(ReplaceAll(q, TIMEOUT_KEY, ""));
    assert ReplaceAll(q, TIMEOUT_KEY, "") == digits;
    assert Split(q, '&') == [q];
    assert TimeoutText(q) == FirstTimeoutValue([q]);
    ParseU64Facts(digits, n);
  }

  lemma {:induction false} NatToStringAllDigits(n: nat)
    ensures AllDigits(NatToString(n))
    decreases n
  {
    if n >= 10 {
      NatToStringAllDigits(n / 10);
    }
  }

  lemma CorrectedTimeoutOfValue(q: string, text: string, n: nat)
    requires TimeoutText(q) == Some(text) && ParseU64(text) == Some(n)
    ensures n <= U64_MAX
    ensures UpstreamTimeout(q) == Some(if n < U64_MAX then n + 1 else U64_MAX)
  {
    ParseU64Facts(text, n);
  }

  /** The timeout depends on the query only through the timeout text and its value. */
  lemma UpstreamTimeoutOfValue(q: string, text: string, n: nat)
    requires TimeoutText(q) == Some(text) && ParseU64(text) == Some(n)
    ensures UpstreamTimeout(q) == Some(if n < U64_MAX then n + 1 else U64_MAX)
    ensures UpstreamTimeoutAsWritten(q) == Some((n + 1) % (U64_MAX + 1))
  {
    var r := UpstreamTimeout(q);
    assert r.Some?;
    ParseU64Facts(text, n);
    assert r.value == if n < U64_MAX then n + 1 else U64_MAX;
  }

  /** `n + 1` on a `u64` in an optimised build: it wraps only at the largest value. */
  function WrappingSuccessor(n: nat): (m: nat)
    requires n <= U64_MAX
    ensures m == if n < U64_MAX then n + 1 else 0
  {
    (n + 1) % (U64_MAX + 1)
  }

  lemma SmallSuccessorUnchangedByWrap(n: nat)
    requires n < U64_MAX
    ensures (n + 1) % (U64_MAX + 1) == n + 1
  {
  }

  /** With a requested timeout below the largest `u64`, the upstream gets one more second. */
  lemma TimeoutIsOneMore(n: nat)
    requires n < U64_MAX
    ensures UpstreamTimeout(TIMEOUT_KEY + NatToString(n)) == Some(n + 1)
    ensures UpstreamTimeoutAsWritten(TIMEOUT_KEY + NatToString(n)) == Some(n + 1)
  {
    SingleTimeoutParameter(n);
    UpstreamTimeoutOfValue(TIMEOUT_KEY + NatToString(n), NatToString(n), n);
    SmallSuccessorUnchangedByWrap(n);
  }

  /**
    "timeout=18446744073709551615" makes the source's addition wrap: the
    upstream request would get a zero timeout instead of the longest one.
  */
  lemma TimeoutOverflowAsWritten()
    ensures UpstreamTimeoutAsWritten(TIMEOUT_KEY + NatToString(U64_MAX)) == Some(0)
    ensures UpstreamTimeout(TIMEOUT_KEY + NatToString(U64_MAX)) == Some(U64_MAX)
  {
    SingleTimeoutParameter(U64_MAX);
    UpstreamTimeoutOfValue(TIMEOUT_KEY + NatToString(U64_MAX), NatToString(U64_MAX), U64_MAX);
  }

  // ---------------------------------------------------------------------------
  // Request and response shaping
  // ---------------------------------------------------------------------------

  /** The headers sent upstream: the filtered request headers, then the client's address when known. */
  function ForwardedHeaders(req: Request): (hs: seq<TextHeader>)
    ensures req.peer.None? ==> hs == Forwardable(req.headers)
    ensures req.peer.Some? ==> hs == Forwardable(req.headers) + [TextHeader(FORWARDED_FOR, req.peer.value)]
  {
    Forwardable(req.headers) + (if req.peer.Some? then [TextHeader(FORWARDED_FOR, req.peer.value)] else [])
  }

  /** No forwarded header is one of the four excluded ones. */
  lemma ForwardedHeadersExcludeHopByHop(req: Request)
    ensures forall t :: t in ForwardedHeaders(req) ==> !IsExcluded(t.name)
  {
    assert !IsExcluded(FORWARDED_FOR);
  }

  /**
    The response headers: the upstream's headers that pass the same filter,
    every one of them kept (the source keeps only the last value per name,
    see `ResponseHeadersAsWritten`).
  */
  function ResponseHeaders(upstream: seq<Header>): (hs: seq<TextHeader>)
    ensures forall t :: t in hs ==> !IsExcluded(t.name) && ComesFrom(upstream, t)
    ensures forall i :: 0 <= i < |upstream| && Passes(upstream[i]) ==> AsText(upstream[i]) in hs
  {
    Forwardable(upstream)
  }

  /** The response headers as the source builds them: each inserted header replaces earlier ones of that name. */
  function ResponseHeadersAsWritten(upstream: seq<Header>): (m: map<string, string>)
    ensures forall name :: name in m ==> ComesFrom(upstream, TextHeader(name, m[name]))
    ensures forall i :: 0 <= i < |upstream| && Passes(upstream[i]) ==> upstream[i].name in m
    decreases |upstream|
  {
    if |upstream| == 0 then map[]
    else
      var last := upstream[|upstream| - 1];
      var before := ResponseHeadersAsWritten(upstream[..|upstream| - 1]);
      ComesFromPrefix(upstream, |upstream| - 1);
      if Passes(last) then
        assert ComesFrom(upstream, AsText(last)) by {
          assert Passes(upstream[|upstream| - 1]) && AsText(last) == AsText(upstream[|upstream| - 1]);
        }
        before[last.name := BytesToChars(last.value)]
      else before
  }

  /** No later header that passes the filter has the name of header `i`. */
  ghost predicate IsLastOfName(hs: seq<Header>, i: nat)
    requires i < |hs|
  {
    forall j :: i < j < |hs| && Passes(hs[j]) ==> hs[j].name != hs[i].name
  }

  /** The source answers each header name with the value of the last header of that name. */
  lemma {:induction false} AsWrittenKeepsLastValue(upstream: seq<Header>, i: nat)
    requires i < |upstream| && Passes(upstream[i]) && IsLastOfName(upstream, i)
    ensures upstream[i].name in ResponseHeadersAsWritten(upstream)
    ensures ResponseHeadersAsWritten(upstream)[upstream[i].name] == BytesToChars(upstream[i].value)
    decreases |upstream|
  {
    var k := |upstream| - 1;
    var pre := upstream[..k];
    if i < k {
      assert pre[i] == upstream[i];
      assert IsLastOfName(pre, i) by {
        forall j | i < j < |pre| && Passes(pre[j])
          ensures pre[j].name != pre[i].name
        {
          assert pre[j] == upstream[j];
        }
      }
      AsWrittenKeepsLastValue(pre, i);
      assert !Passes(upstream[k]) || upstream[k].name != upstream[i].name;
    }
  }

  lemma ComesFromPrefix(hs: seq<Header>, k: nat)
    requires k <= |hs|
    ensures forall t :: ComesFrom(hs[..k], t) ==> ComesFrom(hs, t)
  {
    forall t | ComesFrom(hs[..k], t)
      ensures ComesFrom(hs, t)
    {
      var i :| 0 <= i < |hs[..k]| && Passes(hs[..k][i]) && t == AsText(hs[..k][i]);
      assert hs[..k][i] == hs[i];
    }
  }

  /**
    The source's response carries exactly the header names the model's does;
    only the number of values per name differs.
  */
  lemma AsWrittenHasSameNames(upstream: seq<Header>)
    ensures forall t :: t in ResponseHeaders(upstream) ==> t.name in ResponseHeadersAsWritten(upstream)
    ensures forall name :: name in ResponseHeadersAsWritten(upstream) ==>
      TextHeader(name, ResponseHeadersAsWritten(upstream)[name]) in ResponseHeaders(upstream)
  {
    var m := ResponseHeadersAsWritten(upstream);
    forall t | t in ResponseHeaders(upstream)
      ensures t.name in m
    {
      var i :| 0 <= i < |upstream| && Passes(upstream[i]) && t == AsText(upstream[i]);
    }
    forall name | name in m
      ensures TextHeader(name, m[name]) in ResponseHeaders(upstream)
    {
      var i :| 0 <= i < |upstream| && Passes(upstream[i]) && TextHeader(name, m[name]) == AsText(upstream[i]);
    }
  }

  /** Two values of one header: the source answers with the second only; the model keeps both. */
  lemma RepeatedHeaderCollapsesAsWritten()
    ensures var upstream := [Header("warning", [0x61]), Header("warning", [0x62])];
      ResponseHeadersAsWritten(upstream) == map["warning" := "b"] &&
      ResponseHeaders(upstream) == [TextHeader("warning", "a"), TextHeader("warning", "b")]
  {
    var upstream := [Header("warning", [0x61]), Header("warning", [0x62])];
    assert upstream[..1] == [Header("warning", [0x61])];
    assert [Header("warning", [0x61])][..0] == [];
    assert !IsExcluded("warning");
    assert BytesToChars([0x61]) == "a";
    assert BytesToChars([0x62]) == "b";
    assert upstream[1..] == [Header("warning", [0x62])];
  }

  // ---------------------------------------------------------------------------
  // The handler
  // ---------------------------------------------------------------------------

  /** Everything outside the handler that one request depends on. */
  datatype Backend = Backend(
    connection: Result<Unit, string>,
    lookup: Result<Unit, string>,
    cache: RedisCache.Cache,
    codec: Json.Codec<ProxyResource.ProxyKubeApi>,
    fetchService: (string, string) -> Result<Service.KubeService, string>,
    client: Result<Unit, string>,
    send: Forwarded -> Result<UpstreamResponse, string>)

  /** The request sent upstream once the Service URL is known. */
  function ForwardedOf(req: Request, ns: string, cluster: string, serviceUrl: string): Forwarded {
    Forwarded(req.verb, TargetUrl(req.path, ns, cluster, serviceUrl, req.query), ForwardedHeaders(req), UpstreamTimeout(req.query))
  }

  /** The proxy stored under the request's key, if the cache holds a record that parses. */
  function StoredProxy(b: Backend, ns: string, cluster: string): Option<ProxyResource.ProxyKubeApi> {
    var key := CacheKey(ns, cluster);
    if key in b.cache then Json.FromJson(b.codec, b.cache[key]) else None
  }

  /** `redirect`. */
  function Redirect(ns: string, cluster: string, req: Request, b: Backend): (r: Response)
    ensures b.connection.Err? ==> r == Response(SERVICE_UNAVAILABLE, [], Text(b.connection.error))
    ensures b.connection.Ok? && b.lookup.Err? ==> r == Response(SERVICE_UNAVAILABLE, [], Text(b.lookup.error))
    ensures b.connection.Ok? && b.lookup.Ok? && StoredProxy(b, ns, cluster).None? ==> r == Response(NOT_FOUND, [], NoBody)
    ensures b.connection.Ok? && b.lookup.Ok? && StoredProxy(b, ns, cluster).Some? ==>
      var p := StoredProxy(b, ns, cluster).value;
      var url := Service.UrlToCall(p.spec.service, "default", b.fetchService);
      (!p.spec.enabled ==> r == Response(NOT_FOUND, [], NoBody)) &&
      (p.spec.enabled && url.Err? ==> r == Response(NOT_FOUND, [], NoBody)) &&
      (p.spec.enabled && url.Ok? && b.client.Err? ==> r == Response(SERVICE_UNAVAILABLE, [], Text(b.client.error))) &&
      (p.spec.enabled && url.Ok? && b.client.Ok? ==>
        var sent := b.send(ForwardedOf(req, ns, cluster, url.value));
        (sent.Err? ==> r == Response(SERVICE_UNAVAILABLE, [], Text(sent.error))) &&
        (sent.Ok? ==> r == Response(sent.value.status, ResponseHeaders(sent.value.headers), Streamed)))
  {
    if b.connection.Err? then Response(SERVICE_UNAVAILABLE, [], Text(b.connection.error))
    else if b.lookup.Err? then Response(SERVICE_UNAVAILABLE, [], Text(b.lookup.error))
    else
      match StoredProxy(b, ns, cluster)
      case None => Response(NOT_FOUND, [], NoBody)
      case Some(p) =>
        if !p.spec.enabled then Response(NOT_FOUND, [], NoBody)
        else
          match Service.UrlToCall(p.spec.service, "default", b.fetchService)
          case Err(_) => Response(NOT_FOUND, [], NoBody)
          case Ok(url) =>
            match b.client
            case Err(e) => Response(SERVICE_UNAVAILABLE, [], Text(e))
            case Ok(_) =>
              match b.send(ForwardedOf(req, ns, cluster, url))
              case Err(e) => Response(SERVICE_UNAVAILABLE, [], Text(e))
              case Ok(res) => Response(res.status, ResponseHeaders(res.headers), Streamed)
  }

  /** Only an upstream answer is passed through; every refusal is a 404 or a 503. */
  lemma RefusalsAreNotFoundOrUnavailable(ns: string, cluster: string, req: Request, b: Backend)
    requires Redirect(ns, cluster, req, b).body != Streamed
    ensures Redirect(ns, cluster, req, b).status in {NOT_FOUND, SERVICE_UNAVAILABLE}
  {
  }

  /**
    A resource the controller recorded is served: with a codec that reads
    back what it writes, the request for its namespace and name reaches the
    upstream whenever the proxy is enabled and its Service resolves.
  */
  lemma RecordedProxyIsServed(p: ProxyResource.ProxyKubeApi, req: Request, b: Backend, url: string)
    requires p.metadata.namespace.Some? && p.spec.enabled
    requires b.connection.Ok? && b.lookup.Ok? && b.client.Ok?
    requires b.codec.write(p).Ok? && b.codec.read(b.codec.write(p).value) == Ok(p)
    requires ProxyResource.ToIdentifier(p) in b.cache && b.cache[ProxyResource.ToIdentifier(p)] == Json.ToJson(b.codec, p)
    requires Service.UrlToCall(p.spec.service, "default", b.fetchService) == Ok(url)
    ensures var ns, cluster := p.metadata.namespace.value, ProxyResource.NameAny(p.metadata);
      Redirect(ns, cluster, req, b).status == NOT_FOUND ==>
        b.send(ForwardedOf(req, ns, cluster, url)).Ok? && b.send(ForwardedOf(req, ns, cluster, url)).value.status == NOT_FOUND
  {
    CacheKeyIsIdentifier(p);
    Json.RoundTrip(b.codec, p);
  }
}

=== FILE: legacy_controller.dfy ===
/**
  The older controller: no configuration check, no leader election and no
  failure counter. A probe failure only patches the status; a reachable
  upstream is recorded in the cache first. Cleanup removes the record.
*/
module LegacyController {
  import opened Outcomes
  import opened ControllerTypes
  import Status
  import Json
  import RedisCache
  import LegacyCrd

  const UNREACHABLE_MESSAGE: string := "Target service is not reachable"
  const PROBE_FAILED_PREFIX: string := "Failed to check if target service is reachable: "
  const RETRY_SECONDS: nat := 5 * 60
  const SUCCESS_SECONDS: nat := 60 * 60

  /** Everything outside the controller that one older reconciliation depends on. */
  datatype Environment = Environment(
    probe: Result<bool, string>,
    codec: Json.Codec<LegacyCrd.LegacyProxyKubeApi>,
    connection: Result<Unit, string>,
    setDelivered: bool,
    patchResult: Result<Unit, string>)

  datatype StepOutcome = StepOutcome(cache: RedisCache.Cache, patch: Option<Status.Patch>, result: Result<Action, ControllerError>)

  /** The status the older reconciliation publishes for a probe verdict. */
  function StatusForProbe(probe: Result<bool, string>, path: string): (s: Status.ProxyKubeApiStatus)
    ensures s.exposed <==> s.error.None?
    ensures s.exposed <==> probe == Ok(true)
    ensures s.exposed ==> s.path == Some("/clusters/" + path)
    ensures !s.exposed ==> s.path.None?
    ensures probe == Ok(false) ==> s.error == Some(UNREACHABLE_MESSAGE)
    ensures probe.Err? ==> s.error == Some(PROBE_FAILED_PREFIX + probe.error)
  {
    match probe
    case Ok(true) => Status.NewStatus(true, Some("/clusters/" + path), None)
    case Ok(false) => Status.NewStatus(false, None, Some(UNREACHABLE_MESSAGE))
    case Err(e) => Status.NewStatus(false, None, Some(PROBE_FAILED_PREFIX + e))
  }

  /** The older `reconcile_proxy_kube_api`. */
  function ReconcileStep(p: LegacyCrd.LegacyProxyKubeApi, env: Environment, cache: RedisCache.Cache): (o: StepOutcome)
    ensures env.probe != Ok(true) ==> o.cache == cache
    ensures env.probe != Ok(true) ==>
      o.patch == Some(Status.GetPatch(StatusForProbe(env.probe, LegacyCrd.ToIdentifier(p))))
    ensures env.probe != Ok(true) && env.patchResult.Ok? ==> o.result == Ok(Requeue(RETRY_SECONDS))
    ensures env.probe == Ok(true) && env.connection.Err? ==>
      o == StepOutcome(cache, None, Err(RedisPool(env.connection.error)))
    ensures env.probe == Ok(true) && env.connection.Ok? ==>
      var id := LegacyCrd.ToIdentifier(p);
      (env.setDelivered ==> o.cache == cache[id := LegacyCrd.ToJson(env.codec, p)]) &&
      (!env.setDelivered ==> o.cache == cache) &&
      o.patch == Some(Status.GetPatch(StatusForProbe(Ok(true), id))) &&
      (env.patchResult.Ok? ==> o.result == Ok(Requeue(SUCCESS_SECONDS)))
    ensures o.patch.Some? && env.patchResult.Err? ==> o.result == Err(Kube(env.patchResult.error))
  {
    var path := LegacyCrd.ToIdentifier(p);
    var status := StatusForProbe(env.probe, path);
    var patched := if env.patchResult.Err? then Err(Kube(env.patchResult.error)) else Ok(Unit);
    if env.probe != Ok(true) then
      StepOutcome(cache, Some(Status.GetPatch(status)), if patched.Err? then Err(patched.error) else Ok(Requeue(RETRY_SECONDS)))
    else
      match env.connection
      case Err(e) => StepOutcome(cache, None, Err(RedisPool(e)))
      case Ok(_) =>
        var written := RedisCache.Set(cache, path, LegacyCrd.ToJson(env.codec, p), env.setDelivered);
        StepOutcome(written, Some(Status.GetPatch(status)), if patched.Err? then Err(patched.error) else Ok(Requeue(SUCCESS_SECONDS)))
  }

  /** Whatever the probe says, the published status has `exposed` exactly when it has no error. */
  lemma PublishedStatusConsistent(p: LegacyCrd.LegacyProxyKubeApi, env: Environment, cache: RedisCache.Cache)
    requires ReconcileStep(p, env, cache).patch.Some?
    ensures ReconcileStep(p, env, cache).patch.value.status.exposed <==>
            ReconcileStep(p, env, cache).patch.value.status.error.None?
  {
  }

  /** The older `clean_proxy_kube_api`: delete the record and wait for the next change. */
  function CleanupStep(p: LegacyCrd.LegacyProxyKubeApi, connection: Result<Unit, string>, delDelivered: bool,
                       cache: RedisCache.Cache)
    : (o: StepOutcome)
    ensures connection.Err? ==> o == StepOutcome(cache, None, Err(RedisPool(connection.error)))
    ensures connection.Ok? ==> o.result == Ok(AwaitChange) && o.patch.None?
    ensures connection.Ok? && delDelivered ==> o.cache == cache - {LegacyCrd.ToIdentifier(p)}
    ensures forall k :: k != LegacyCrd.ToIdentifier(p) ==> (k in o.cache <==> k in cache) && (k in o.cache ==> o.cache[k] == cache[k])
  {
    match connection
    case Err(e) => StepOutcome(cache, None, Err(RedisPool(e)))
    case Ok(_) => StepOutcome(RedisCache.Del(cache, LegacyCrd.ToIdentifier(p), delDelivered).cache, None, Ok(AwaitChange))
  }

  /** Cleanup answers the same whether or not the record was there, and a second cleanup changes nothing. */
  lemma CleanupIdempotent(p: LegacyCrd.LegacyProxyKubeApi, cache: RedisCache.Cache, v: string)
    ensures CleanupStep(p, Ok(Unit), true, cache).result == CleanupStep(p, Ok(Unit), true, cache[LegacyCrd.ToIdentifier(p) := v]).result
    ensures CleanupStep(p, Ok(Unit), true, cache).cache == CleanupStep(p, Ok(Unit), true, cache[LegacyCrd.ToIdentifier(p) := v]).cache
    ensures var once := CleanupStep(p, Ok(Unit), true, cache).cache;
      CleanupStep(p, Ok(Unit), true, once).cache == once
  {
  }

  /** The older `error_policy_proxy_kube_api`: five seconds, always. */
  function ErrorPolicy(error: ControllerError): (a: Action)
    ensures a == Requeue(ERROR_POLICY_SECONDS)
  {
    Requeue(ERROR_POLICY_SECONDS)
  }

  datatype MainOutcome = MainOutcome(ran: Option<FinalizerEvent>, step: StepOutcome)

  /** The older `main_reconcile_proxy_kube_api`: no leader gate. */
  function MainReconcile(p: LegacyCrd.LegacyProxyKubeApi, cache: RedisCache.Cache, step: FinalizerStep,
                         env: Environment, delDelivered: bool)
    : (o: MainOutcome)
    ensures p.namespace.None? ==>
      o == MainOutcome(None, StepOutcome(cache, None, Err(InvalidResource(NO_NAMESPACE_MESSAGE))))
    ensures o.ran.Some? <==> p.namespace.Some? && step.Dispatch?
    ensures o.ran == Some(Apply) ==>
      var r := ReconcileStep(p, env, cache);
      o.step.cache == r.cache && o.step.patch == r.patch &&
      (r.result.Ok? ==> o.step.result == r.result) &&
      (r.result.Err? ==> o.step.result == Err(FinalizerError(ApplyFailed(r.result.error))))
    ensures o.ran == Some(Cleanup) ==>
      var r := CleanupStep(p, env.connection, delDelivered, cache);
      o.step.cache == r.cache &&
      (r.result.Ok? ==> o.step.result == r.result) &&
      (r.result.Err? ==> o.step.result == Err(FinalizerError(CleanupFailed(r.result.error))))
    ensures p.namespace.Some? && step.BookkeepingFailed? ==>
      o == MainOutcome(None, StepOutcome(cache, None, Err(FinalizerError(step.failure))))
  {
    if p.namespace.None? then MainOutcome(None, StepOutcome(cache, None, Err(InvalidResource(NO_NAMESPACE_MESSAGE))))
    else
      match step
      case BookkeepingFailed(f) => MainOutcome(None, StepOutcome(cache, None, Err(FinalizerError(f))))
      case Dispatch(event) =>
        var r := if event == Apply then ReconcileStep(p, env, cache) else CleanupStep(p, env.connection, delDelivered, cache);
        var result :=
          if r.result.Ok? then r.result
          else if event == Apply then Err(FinalizerError(ApplyFailed(r.result.error)))
          else Err(FinalizerError(CleanupFailed(r.result.error)));
        MainOutcome(Some(event), StepOutcome(r.cache, r.patch, result))
  }
}

=== FILE: legacy_crd.dfy ===
/**
  The older tree's `ProxyKubeApi`: a smaller spec, a cache key without the
  "proxyk8sauth:" prefix, and the JSON wrappers that swallow errors.
*/
module LegacyCrd {
  import opened Outcomes
  import opened Strings
  import Status
  import Json

  const FINALIZER: string := "weebo.si.rs"

  /** The older certificate reference: a key of a Secret, or a file path. */
  datatype LegacyCertSource = Secret(name: string, key: string) | Cert(path: string)

  /**
    The older spec. Its authentication and security sections have no
    behaviour in this tree and are kept as their serialised text.
  */
  datatype LegacySpec = LegacySpec(
    cert: LegacyCertSource,
    authConfig: string,
    securityConfig: string,
    exposeViaDashboard: bool,
    dashboardGroup: Option<string>)

  datatype LegacyProxyKubeApi = LegacyProxyKubeApi(
    name: Option<string>,
    generateName: Option<string>,
    namespace: Option<string>,
    spec: LegacySpec,
    status: Option<Status.ProxyKubeApiStatus>)

  /** `name_any`, as in the newer tree. */
  function NameAny(p: LegacyProxyKubeApi): string {
    match p.name
    case Some(n) => n
    case None => p.generateName.GetOr("")
  }

  /** The older `to_identifier` (and `to_path`): "{namespace}/{name}", a missing namespace giving "". */
  function ToIdentifier(p: LegacyProxyKubeApi): (id: string)
    ensures p.namespace.None? ==> id == "/" + NameAny(p)
    ensures p.namespace.Some? ==> IsPrefix(p.namespace.value + "/", id)
    ensures id[|p.namespace.GetOr("")| + 1..] == NameAny(p)
  {
    p.namespace.GetOr("") + "/" + NameAny(p)
  }

  /** The namespace and name are recovered from the identifier when the namespace has no '/'. */
  lemma IdentifierSplits(p: LegacyProxyKubeApi)
    requires '/' !in p.namespace.GetOr("")
    ensures Split(ToIdentifier(p), '/')[0] == p.namespace.GetOr("")
  {
    SplitAfterHead(p.namespace.GetOr(""), '/', NameAny(p));
  }

  /** `to_json`: the JSON text, or "" when serialisation fails. */
  function ToJson(codec: Json.Codec<LegacyProxyKubeApi>, p: LegacyProxyKubeApi): (s: string)
    ensures codec.write(p).Err? ==> s == ""
    ensures codec.write(p).Ok? ==> s == codec.write(p).value
  {
    Json.ToJson(codec, p)
  }

  /** `from_json`: the value, or nothing for text that does not parse. */
  function FromJson(codec: Json.Codec<LegacyProxyKubeApi>, s: string): (r: Option<LegacyProxyKubeApi>)
    ensures r.None? <==> codec.read(s).Err?
    ensures r.Some? ==> codec.read(s) == Ok(r.value)
  {
    Json.FromJson(codec, s)
  }

  /** A codec that reads back what it writes makes the wrappers round-trip too. */
  lemma JsonRoundTrip(codec: Json.Codec<LegacyProxyKubeApi>, p: LegacyProxyKubeApi)
    requires codec.write(p).Ok? && codec.read(codec.write(p).value) == Ok(p)
    ensures FromJson(codec, ToJson(codec, p)) == Some(p)
  {
    Json.RoundTrip(codec, p);
  }
}

=== FILE: legacy_redirect.dfy ===
/**
  The older reverse proxy: the same cache lookup, no `enabled` check, the
  whole request URI rewritten, every request header copied as text (a value
  that is not visible ASCII makes the handler panic), and every upstream
  header but `connection` copied back.
*/
module LegacyRedirect {
  import opened Outcomes
  import opened Strings
  import opened Headers
  import Json
  import RedisCache
  import Service
  import ProxyResource
  import KubeRedirect

  /**
    The request as the older handler sees it. The query is absent when the URI
    has no "?", and present (possibly empty) when it has one, since the URI is
    printed back as it was received.
  */
  datatype Request = Request(verb: string, path: string, query: Option<string>, headers: seq<Header>, peer: Option<string>)

  datatype Forwarded = Forwarded(verb: string, url: string, headers: seq<TextHeader>)

  /** The response, or the panic of the header copy. */
  datatype Outcome = Respond(status: nat, headers: seq<Header>, body: KubeRedirect.Body) | Panicked

  /** `req.uri().to_string()`: the path, then "?" and the query whenever the URI had a "?". */
  function RequestUri(req: Request): (uri: string)
    ensures IsPrefix(req.path, uri)
    ensures req.query.None? <==> |uri| == |req.path|
    ensures req.query.Some? ==> uri[|req.path|] == '?' && uri[|req.path| + 1..] == req.query.value
  {
    match req.query
    case None => req.path
    case Some(q) => req.path + "?" + q
  }

  /** The query string the newer handler reads: empty both for no "?" and for a bare "?". */
  function NewerQuery(req: Request): string {
    req.query.GetOr("")
  }

  /**
    The older target: the proxy prefix replaced anywhere in the full URI,
    query included. A URI that names the proxy once, at its start, is sent to
    the Service URL followed by the rest of the URI; a URI that does not name
    it is sent as it came. Unless the query names the proxy or is a bare "?",
    this is the newer handler's target.
  */
  function TargetUrl(req: Request, ns: string, cluster: string, serviceUrl: string): (url: string)
    ensures url == ReplaceAll(RequestUri(req), "/clusters/" + ns + "/" + cluster, serviceUrl)
    ensures !Contains(RequestUri(req), "/clusters/" + ns + "/" + cluster) ==> url == RequestUri(req)
    ensures IsPrefix("/clusters/" + ns + "/" + cluster, RequestUri(req)) &&
            !Contains(RequestUri(req)[|"/clusters/" + ns + "/" + cluster|..], "/clusters/" + ns + "/" + cluster) ==>
      url == serviceUrl + RequestUri(req)[|"/clusters/" + ns + "/" + cluster|..]
    ensures QueryLeavesProxyAlone(req, ns, cluster) ==>
      url == KubeRedirect.TargetUrl(req.path, ns, cluster, serviceUrl, NewerQuery(req))
  {
    ReplaceAllAtMostOnce(RequestUri(req), "/clusters/" + ns + "/" + cluster, serviceUrl);
    TargetUrlAgreesWithNewer(req, ns, cluster, serviceUrl);
    ReplaceAll(RequestUri(req), "/clusters/" + ns + "/" + cluster, serviceUrl)
  }

  /**
    The query neither names the proxy nor is a bare "?", and the proxy's names
    hold no "?", so no replacement can reach across into the query.
  */
  predicate QueryLeavesProxyAlone(req: Request, ns: string, cluster: string) {
    '?' !in ns && '?' !in cluster &&
    (req.query.Some? ==> req.query.value != "" && !Contains("?" + req.query.value, "/clusters/" + ns + "/" + cluster))
  }

  /**
    When the query leaves the proxy prefix alone, both handlers send the same
    URL: the older one rewrites the query too, but finds nothing there.
  */
  lemma {:induction false} TargetUrlAgreesWithNewer(req: Request, ns: string, cluster: string, serviceUrl: string)
    ensures QueryLeavesProxyAlone(req, ns, cluster) ==>
      ReplaceAll(RequestUri(req), "/clusters/" + ns + "/" + cluster, serviceUrl) ==
      KubeRedirect.TargetUrl(req.path, ns, cluster, serviceUrl, NewerQuery(req))
  {
    var pat := "/clusters/" + ns + "/" + cluster;
    if QueryLeavesProxyAlone(req, ns, cluster) && req.query.Some? {
      var q := req.query.value;
      ReplaceAllAppendAbsent(req.path, "?" + q, pat, serviceUrl);
      assert req.path + "?" + q == req.path + ("?" + q);
    }
  }

  /**
    A URI ending in a bare "?" keeps it: "/clusters/{ns}/{cluster}/api?" is
    sent to the Service URL followed by "/api?", where the newer handler sends
    "/api" alone.
  */
  lemma BareQueryMarkIsForwarded(req: Request, ns: string, cluster: string, serviceUrl: string, rest: string)
    requires req.path == "/clusters/" + ns + "/" + cluster + rest && req.query == Some("")
    requires !Contains(rest, "/clusters/" + ns + "/" + cluster)
    requires !Contains(rest + "?", "/clusters/" + ns + "/" + cluster)
    ensures TargetUrl(req, ns, cluster, serviceUrl) == serviceUrl + rest + "?"
    ensures KubeRedirect.TargetUrl(req.path, ns, cluster, serviceUrl, NewerQuery(req)) == serviceUrl + rest
  {
    var pat := "/clusters/" + ns + "/" + cluster;
    assert RequestUri(req) == pat + (rest + "?");
    assert RequestUri(req)[|pat|..] == rest + "?";
    assert req.path[|pat|..] == rest;
  }

  /** Replacement distributes over a concatenation when the second part starts with a character the pattern lacks. */
  lemma {:induction false} ReplaceAllAppendAbsent(a: string, b: string, pat: string, rep: string)
    requires |pat| > 0 && |b| > 0 && b[0] !in pat
    requires !Contains(b, pat)
    ensures ReplaceAll(a + b, pat, rep) == ReplaceAll(a, pat, rep) + b
    decreases |a|
  {
    if |a| == 0 {
      assert a + b == b;
      ReplaceAllAbsent(b, pat, rep);
    } else if IsPrefix(pat, a) {
      assert (a + b)[..|pat|] == a[..|pat|];
      assert (a + b)[|pat|..] == a[|pat|..] + b;
      ReplaceAllAppendAbsent(a[|pat|..], b, pat, rep);
    } else {
      if |a| >= |pat| {
        assert (a + b)[..|pat|] == a[..|pat|];
      } else if |pat| <= |a + b| {
        assert (a + b)[..|pat|][|a|] == b[0] != pat[|a|];
      }
      assert (a + b)[1..] == a[1..] + b;
      ReplaceAllAppendAbsent(a[1..], b, pat, rep);
    }
  }

  /** Upstream headers the older handler returns: all but `connection`, raw bytes kept. */
  function ResponseHeaders(upstream: seq<Header>): (hs: seq<Header>)
    ensures forall h :: h in hs ==> h in upstream && !EqIgnoreAsciiCase(h.name, "connection")
    ensures forall h :: h in upstream && !EqIgnoreAsciiCase(h.name, "connection") ==> h in hs
    decreases |upstream|
  {
    if |upstream| == 0 then []
    else
      var rest := ResponseHeaders(upstream[1..]);
      if EqIgnoreAsciiCase(upstream[0].name, "connection") then rest else [upstream[0]] + rest
  }

  datatype Backend = Backend(
    connection: Result<Unit, string>,
    lookup: Result<Unit, string>,
    cache: RedisCache.Cache,
    codec: Json.Codec<ProxyResource.ProxyKubeApi>,
    fetchService: (string, string) -> Result<Service.KubeService, string>,
    client: Result<Unit, string>,
    send: Forwarded -> Result<KubeRedirect.UpstreamResponse, string>)

  function StoredProxy(b: Backend, ns: string, cluster: string): Option<ProxyResource.ProxyKubeApi> {
    var key := KubeRedirect.CacheKey(ns, cluster);
    if key in b.cache then Json.FromJson(b.codec, b.cache[key]) else None
  }

  /** The headers sent upstream: all request headers as text, then the client's address when known. */
  function ForwardedHeaders(req: Request): (hs: seq<TextHeader>)
    requires forall i :: 0 <= i < |req.headers| ==> Bytes.AllVisibleAscii(req.headers[i].value)
    ensures |hs| == |req.headers| + (if req.peer.Some? then 1 else 0)
    ensures forall i :: 0 <= i < |req.headers| ==> hs[i] == AsText(req.headers[i])
  {
    AllAsText(req.headers) + (if req.peer.Some? then [TextHeader(KubeRedirect.FORWARDED_FOR, req.peer.value)] else [])
  }

  /** The older `redirect`. */
  function Redirect(ns: string, cluster: string, req: Request, b: Backend): (r: Outcome)
    ensures r.Panicked? <==>
      b.connection.Ok? && b.lookup.Ok? && StoredProxy(b, ns, cluster).Some? &&
      Service.UrlToCall(StoredProxy(b, ns, cluster).value.spec.service, "default", b.fetchService).Ok? &&
      b.client.Ok? && FirstUnreadable(req.headers).Some?
    ensures b.connection.Err? ==> r == Respond(KubeRedirect.SERVICE_UNAVAILABLE, [], KubeRedirect.Text(b.connection.error))
    ensures b.connection.Ok? && b.lookup.Err? ==> r == Respond(KubeRedirect.SERVICE_UNAVAILABLE, [], KubeRedirect.Text(b.lookup.error))
    ensures b.connection.Ok? && b.lookup.Ok? && StoredProxy(b, ns, cluster).None? ==> r == Respond(KubeRedirect.NOT_FOUND, [], KubeRedirect.NoBody)
    ensures b.connection.Ok? && b.lookup.Ok? && StoredProxy(b, ns, cluster).Some? ==>
      var p := StoredProxy(b, ns, cluster).value;
      var url := Service.UrlToCall(p.spec.service, "default", b.fetchService);
      (url.Err? ==> r == Respond(KubeRedirect.NOT_FOUND, [], KubeRedirect.NoBody)) &&
      (url.Ok? && b.client.Err? ==> r == Respond(KubeRedirect.SERVICE_UNAVAILABLE, [], KubeRedirect.Text(b.client.error))) &&
      (url.Ok? && b.client.Ok? && FirstUnreadable(req.headers).None? ==>
        var sent := b.send(Forwarded(req.verb, TargetUrl(req, ns, cluster, url.value), ForwardedHeaders(req)));
        (sent.Err? ==> r == Respond(KubeRedirect.SERVICE_UNAVAILABLE, [], KubeRedirect.Text(sent.error))) &&
        (sent.Ok? ==> r == Respond(sent.value.status, ResponseHeaders(sent.value.headers), KubeRedirect.Streamed)))
  {
    if b.connection.Err? then Respond(KubeRedirect.SERVICE_UNAVAILABLE, [], KubeRedirect.Text(b.connection.error))
    else if b.lookup.Err? then Respond(KubeRedirect.SERVICE_UNAVAILABLE, [], KubeRedirect.Text(b.lookup.error))
    else
      match StoredProxy(b, ns, cluster)
      case None => Respond(KubeRedirect.NOT_FOUND, [], KubeRedirect.NoBody)
      case Some(p) =>
        match Service.UrlToCall(p.spec.service, "default", b.fetchService)
        case Err(_) => Respond(KubeRedirect.NOT_FOUND, [], KubeRedirect.NoBody)
        case Ok(url) =>
          match b.client
          case Err(e) => Respond(KubeRedirect.SERVICE_UNAVAILABLE, [], KubeRedirect.Text(e))
          case Ok(_) =>
            if FirstUnreadable(req.headers).Some? then Panicked
            else
              match b.send(Forwarded(req.verb, TargetUrl(req, ns, cluster, url), ForwardedHeaders(req)))
              case Err(e) => Respond(KubeRedirect.SERVICE_UNAVAILABLE, [], KubeRedirect.Text(e))
              case Ok(res) => Respond(res.status, ResponseHeaders(res.headers), KubeRedirect.Streamed)
  }

  /**
    The older handler serves disabled proxies too: once the upstream answers,
    a proxy whose `enabled` is false is streamed like any other.
  */
  lemma DisabledProxyIsServed(ns: string, cluster: string, req: Request, b: Backend, p: ProxyResource.ProxyKubeApi, url: string)
    requires !p.spec.enabled
    requires b.connection.Ok? && b.lookup.Ok? && StoredProxy(b, ns, cluster) == Some(p)
    requires Service.UrlToCall(p.spec.service, "default", b.fetchService) == Ok(url) && b.client.Ok?
    requires FirstUnreadable(req.headers).None?
    requires b.send(Forwarded(req.verb, TargetUrl(req, ns, cluster, url), ForwardedHeaders(req))).Ok?
    ensures Redirect(ns, cluster, req, b).Respond? && Redirect(ns, cluster, req, b).body == KubeRedirect.Streamed
  {
  }
}

=== FILE: outcomes.dfy ===
/**
  Failure-carrying values shared by every module: `Option` for Rust's
  `Option<T>` and `Result` for Rust's `Result<T, E>`.
*/
module Outcomes {

  datatype Option<+T> = None | Some(value: T) {

    /** The carried value, or `default` when there is none (Rust's `unwrap_or`). */
    function GetOr(default: T): T {
      match this
      case Some(v) => v
      case None => default
    }
  }

  datatype Result<+T, +E> = Ok(value: T) | Err(error: E) {

    /** Rust's `Result::ok`: drops the error. */
    function ToOption(): Option<T> {
      match this
      case Ok(v) => Some(v)
      case Err(_) => None
    }
  }

  /** Rust's unit type `()`, for results that carry no value. */
  datatype Unit = Unit
}

=== FILE: proxy_resource.dfy ===
/**
  The `ProxyKubeApi` custom resource of the server tree and the helpers
  defined on it: validation, the identifier, path and dashboard-group
  formats, the dashboard access check, the reachability probe's reading of
  HTTP status codes, and the OIDC redirect and client settings.
*/
module ProxyResource {
  import opened Outcomes
  import opened Strings
  import Status
  import Service
  import Certificate
  import AuthConfig
  import SecurityConfig

  /** The finalizer token the controller puts on every resource. */
  const FINALIZER: string := "weebo.si.rs"

  /** The object metadata the helpers read. */
  datatype ObjectMeta = ObjectMeta(name: Option<string>, generateName: Option<string>, namespace: Option<string>)

  datatype ProxyKubeApiSpec = ProxyKubeApiSpec(
    enabled: bool,
    cert: Certificate.CertSource,
    service: Service.Service,
    authConfig: Option<AuthConfig.AuthenticationConfiguration>,
    securityConfig: Option<SecurityConfig.SecurityConfiguration>,
    exposeViaDashboard: bool,
    dashboardGroup: Option<string>)

  datatype ProxyKubeApi = ProxyKubeApi(
    metadata: ObjectMeta,
    spec: ProxyKubeApiSpec,
    status: Option<Status.ProxyKubeApiStatus>)

  /** kube's `name_any`: the name, else the generate-name prefix, else "". */
  function NameAny(m: ObjectMeta): (r: string)
    ensures m.name.Some? ==> r == m.name.value
    ensures m.name.None? && m.generateName.Some? ==> r == m.generateName.value
    ensures m.name.None? && m.generateName.None? ==> r == ""
  {
    match m.name
    case Some(n) => n
    case None => m.generateName.GetOr("")
  }

  /** The namespace as the formats render it: "" when there is none. */
  function NamespaceText(p: ProxyKubeApi): string {
    p.metadata.namespace.GetOr("")
  }

  // ---------------------------------------------------------------------------
  // Validation
  // ---------------------------------------------------------------------------

  /**
    `ProxyKubeApi::validate`. A disabled proxy is always valid; an enabled one
    passes its authentication section's check, then its security section's.
    The security check is not part of this model and is passed in.
  */
  function Validate(p: ProxyKubeApi, securityValidate: SecurityConfig.SecurityConfiguration -> Result<Unit, string>)
    : (r: Result<Unit, string>)
    ensures !p.spec.enabled ==> r == Ok(Unit)
    ensures p.spec.enabled && p.spec.authConfig.Some? && AuthConfig.Validate(p.spec.authConfig.value).Err? ==>
      r == AuthConfig.Validate(p.spec.authConfig.value)
    ensures r.Err? ==>
      p.spec.enabled &&
      ((p.spec.authConfig.Some? && r == AuthConfig.Validate(p.spec.authConfig.value)) ||
       (p.spec.securityConfig.Some? && r == securityValidate(p.spec.securityConfig.value)))
    ensures p.spec.enabled && p.spec.authConfig.None? && p.spec.securityConfig.None? ==> r == Ok(Unit)
  {
    if p.spec.enabled then
      var auth := if p.spec.authConfig.Some? then AuthConfig.Validate(p.spec.authConfig.value) else Ok(Unit);
      if auth.Err? then auth
      else if p.spec.securityConfig.Some? then securityValidate(p.spec.securityConfig.value)
      else Ok(Unit)
    else Ok(Unit)
  }

  /** Switching a proxy off makes any configuration valid. */
  lemma DisabledIsValid(p: ProxyKubeApi, securityValidate: SecurityConfig.SecurityConfiguration -> Result<Unit, string>)
    ensures Validate(p.(spec := p.spec.(enabled := false)), securityValidate) == Ok(Unit)
  {
  }

  /** When the authentication section passes, the verdict is the security section's. */
  lemma SecurityVerdictDecidesAfterAuth(p: ProxyKubeApi,
                                        securityValidate: SecurityConfig.SecurityConfiguration -> Result<Unit, string>)
    requires p.spec.enabled && p.spec.securityConfig.Some?
    requires p.spec.authConfig.None? || AuthConfig.Validate(p.spec.authConfig.value).Ok?
    ensures Validate(p, securityValidate) == securityValidate(p.spec.securityConfig.value)
  {
  }

  // ---------------------------------------------------------------------------
  // Names and paths
  // ---------------------------------------------------------------------------

  const IDENTIFIER_PREFIX: string := "proxyk8sauth:"

  /**
    `ProxyKubeApi::to_path`: "{namespace}/{name}", the namespace being empty
    when the resource has none.
  */
  function ToPath(p: ProxyKubeApi): (path: string)
    ensures |path| == |NamespaceText(p)| + 1 + |NameAny(p.metadata)|
    ensures IsPrefix(p.metadata.namespace.GetOr(""), path)
    ensures path[|NamespaceText(p)|] == '/'
    ensures path[|NamespaceText(p)| + 1..] == NameAny(p.metadata)
  {
    NamespaceText(p) + "/" + NameAny(p.metadata)
  }

  /** `ProxyKubeApi::to_identifier`: the cache key, "proxyk8sauth:{namespace}/{name}". */
  function ToIdentifier(p: ProxyKubeApi): (id: string)
    ensures IsPrefix(IDENTIFIER_PREFIX, id) && id[|IDENTIFIER_PREFIX|..] == ToPath(p)
  {
    IDENTIFIER_PREFIX + ToPath(p)
  }

  /** `ProxyKubeApi::to_full_path`: the public URL of the proxied cluster. */
  function ToFullPath(p: ProxyKubeApi, clusterRedirectBase: string): (url: string)
    ensures IsPrefix(clusterRedirectBase + "/clusters/", url)
    ensures url[|clusterRedirectBase + "/clusters/"|..] == ToPath(p)
  {
    clusterRedirectBase + "/clusters/" + ToPath(p)
  }

  /**
    The path gives back the namespace and the name: as Kubernetes namespaces
    never contain '/', the first '/'-separated piece is the namespace and the
    rest is the name.
  */
  lemma ToPathSplits(p: ProxyKubeApi)
    requires '/' !in NamespaceText(p)
    ensures Split(ToPath(p), '/')[0] == NamespaceText(p)
    ensures ToPath(p)[|NamespaceText(p)| + 1..] == NameAny(p.metadata)
  {
    SplitAfterHead(NamespaceText(p), '/', NameAny(p.metadata));
  }

  /** Two resources share a cache key only when they share namespace and name. */
  lemma IdentifierInjective(p: ProxyKubeApi, q: ProxyKubeApi)
    requires '/' !in NamespaceText(p) && '/' !in NamespaceText(q)
    requires ToIdentifier(p) == ToIdentifier(q)
    ensures NamespaceText(p) == NamespaceText(q) && NameAny(p.metadata) == NameAny(q.metadata)
  {
    assert ToPath(p) == ToIdentifier(p)[|IDENTIFIER_PREFIX|..] == ToPath(q);
    ToPathSplits(p);
    ToPathSplits(q);
  }

  /** `ProxyKubeApi::get_dashboard_group`: the configured group, else "dashboard-{namespace}-{name}". */
  function DashboardGroup(p: ProxyKubeApi): (g: string)
    ensures p.spec.dashboardGroup.Some? ==> g == p.spec.dashboardGroup.value
    ensures p.spec.dashboardGroup.None? ==>
      IsPrefix("dashboard-", g) && g[|"dashboard-"|..] == NamespaceText(p) + "-" + NameAny(p.metadata)
  {
    match p.spec.dashboardGroup
    case Some(g) => g
    case None => "dashboard-" + NamespaceText(p) + "-" + NameAny(p.metadata)
  }

  /** `ProxyKubeApi::is_user_allowed`: exposed on the dashboard, and the user is in its group. */
  function IsUserAllowed(p: ProxyKubeApi, userGroups: seq<string>): (allowed: bool)
    ensures allowed <==> p.spec.exposeViaDashboard && exists i :: 0 <= i < |userGroups| && userGroups[i] == DashboardGroup(p)
  {
    p.spec.exposeViaDashboard && DashboardGroup(p) in userGroups
  }

  /** Hiding a proxy from the dashboard locks every user out, whatever their groups. */
  lemma HiddenProxyAllowsNobody(p: ProxyKubeApi, userGroups: seq<string>)
    requires !p.spec.exposeViaDashboard
    ensures !IsUserAllowed(p, userGroups)
  {
  }

  // ---------------------------------------------------------------------------
  // Reachability probe
  // ---------------------------------------------------------------------------

  /** What the probe's GET returned: a response, or a transport error that may carry a status. */
  datatype ProbeReply = Response(status: nat) | TransportError(errorStatus: Option<nat>, message: string)

  /**
    A status proves the upstream answers: a success (2xx) or a client error
    (4xx, the upstream refused an unauthenticated request).
  */
  predicate ShowsReachable(code: nat) {
    (400 <= code < 500) || (200 <= code < 300)
  }

  /**
    The decision of `ProxyKubeApi::is_reachable`, given the Service URL lookup,
    the client construction, and the reply the GET to that URL receives.
  */
  function IsReachable(serviceUrl: Result<string, string>, client: Result<Unit, string>, send: string -> ProbeReply)
    : (r: Result<bool, string>)
    ensures serviceUrl.Err? ==> r == Ok(false)
    ensures serviceUrl.Ok? && client.Err? ==> r == Err(client.error)
    ensures serviceUrl.Ok? && client.Ok? ==>
      match send(serviceUrl.value)
      case Response(code) => r == Ok(ShowsReachable(code))
      case TransportError(Some(code), _) => r == Ok(ShowsReachable(code))
      case TransportError(None, message) => r == Err(message)
  {
    match serviceUrl
    case Err(_) => Ok(false)
    case Ok(url) =>
      match client
      case Err(e) => Err(e)
      case Ok(_) =>
        match send(url)
        case Response(code) => Ok(ShowsReachable(code))
        case TransportError(status, message) =>
          if status.Some? then Ok(ShowsReachable(status.value)) else Err(message)
  }

  /** Every 3xx and 5xx status, on a response or on an error, reads as unreachable. */
  lemma RedirectsAndServerErrorsAreUnreachable(code: nat)
    requires (300 <= code < 400) || (500 <= code < 600)
    ensures !ShowsReachable(code)
  {
  }

  /** A probe ends in an error only when the client cannot be built or the transport fails without a status. */
  lemma ProbeErrorCauses(serviceUrl: Result<string, string>, client: Result<Unit, string>, send: string -> ProbeReply)
    requires IsReachable(serviceUrl, client, send).Err?
    ensures serviceUrl.Ok?
    ensures client.Err? || (send(serviceUrl.value).TransportError? && send(serviceUrl.value).errorStatus.None?)
  {
  }

  // ---------------------------------------------------------------------------
  // OIDC redirect and client settings
  // ---------------------------------------------------------------------------

  /** The server's configured public base URLs. */
  datatype ServerUrls = ServerUrls(frontRedirectBase: string, clusterRedirectBase: string)

  /** `ProxyKubeApi::get_redirect_oidc_url`. */
  function RedirectOidcUrl(p: ProxyKubeApi, urls: ServerUrls, redirectFront: bool, redirectKubectl: Option<string>)
    : (url: string)
    ensures redirectFront ==> url == urls.frontRedirectBase + "/auth/callback/" + ToPath(p)
    ensures !redirectFront && redirectKubectl.Some? ==> url == redirectKubectl.value + "/auth/callback/" + ToPath(p)
    ensures !redirectFront && redirectKubectl.None? ==>
      url == urls.clusterRedirectBase + "/clusters/" + ToPath(p) + "/auth/callback"
  {
    if redirectFront then urls.frontRedirectBase + "/auth/callback/" + ToPath(p)
    else if redirectKubectl.Some? then redirectKubectl.value + "/auth/callback/" + ToPath(p)
    else urls.clusterRedirectBase + "/clusters/" + ToPath(p) + "/auth/callback"
  }

  /** The front-end callback wins over a kubectl callback. */
  lemma FrontTakesPrecedence(p: ProxyKubeApi, urls: ServerUrls, kubectl: Option<string>)
    ensures RedirectOidcUrl(p, urls, true, kubectl) == RedirectOidcUrl(p, urls, true, None)
  {
  }

  /** The components of a URL as a URL parser reports them. */
  datatype ParsedUrl = ParsedUrl(host: Option<string>, path: string, query: Option<string>, fragment: Option<string>)

  /** A kubectl callback must be the bare local address: path "/", no query, no fragment, host "localhost". */
  predicate IsLocalCallback(u: ParsedUrl) {
    u.path == "/" && u.query.None? && u.fragment.None? && u.host == Some("localhost")
  }

  /** The OIDC client settings handed to the login flow. */
  datatype OidcConf = OidcConf(
    clientId: string,
    clientSecret: Option<string>,
    issuerUrl: string,
    scopes: string,
    audience: string,
    redirectUrl: Option<string>)

  /**
    `ProxyKubeApi::get_oidc_conf`. URL parsing is not modelled: `parse` gives
    the parser's verdict on the kubectl callback.
  */
  function OidcConfOf(p: ProxyKubeApi, urls: ServerUrls, redirectFront: bool, redirectKubectl: Option<string>,
                      parse: string -> Option<ParsedUrl>)
    : (r: Option<OidcConf>)
    ensures r.Some? <==>
      (redirectKubectl.None? || (parse(redirectKubectl.value).Some? && IsLocalCallback(parse(redirectKubectl.value).value))) &&
      p.spec.authConfig.Some? && p.spec.authConfig.value.oidcProvider.enabled
    ensures r.Some? ==>
      var provider := p.spec.authConfig.value.oidcProvider;
      r.value.clientId == provider.clientId && r.value.audience == provider.clientId &&
      r.value.clientSecret == provider.clientSecret && r.value.issuerUrl == provider.issuerUrl &&
      r.value.scopes == provider.extraScope &&
      r.value.redirectUrl == Some(RedirectOidcUrl(p, urls, redirectFront, redirectKubectl))
  {
    if redirectKubectl.Some? && (parse(redirectKubectl.value).None? || !IsLocalCallback(parse(redirectKubectl.value).value)) then
      None
    else
      match p.spec.authConfig
      case None => None
      case Some(auth) =>
        if auth.oidcProvider.enabled then
          Some(OidcConf(
            auth.oidcProvider.clientId, auth.oidcProvider.clientSecret, auth.oidcProvider.issuerUrl,
            auth.oidcProvider.extraScope, auth.oidcProvider.clientId,
            Some(RedirectOidcUrl(p, urls, redirectFront, redirectKubectl))))
        else None
  }

  /** A rejected kubectl callback yields no settings even when the front-end flag would ignore it. */
  lemma BadKubectlCallbackRefused(p: ProxyKubeApi, urls: ServerUrls, front: bool, kubectl: string,
                                  parse: string -> Option<ParsedUrl>)
    requires parse(kubectl).Some? && parse(kubectl).value.host != Some("localhost")
    ensures OidcConfOf(p, urls, front, Some(kubectl), parse).None?
  {
  }
}

=== FILE: reconcile.dfy ===
/**
  One reconciliation of a `ProxyKubeApi` by the leader-elected controller:
  decide the new status from the configuration check and the upstream probe,
  record the resource in the cache, count consecutive failures, choose the
  requeue delay, and publish the status.

  Every call to the outside is an input: the security check, the probe's
  verdict, the JSON codec, the delivery of each Redis command and the outcome
  of the status patch.
*/
module Reconcile {
  import opened Outcomes
  import opened Strings
  import opened ControllerTypes
  import Status
  import Json
  import ProxyResource
  import SecurityConfig
  import RedisCache
  import Backoff

  const VALIDATION_FAILED_PREFIX: string := "Failed to validate proxy configuration: "
  const UNREACHABLE_MESSAGE: string := "Target service is not reachable"
  const PROBE_FAILED_PREFIX: string := "Failed to check if target service is reachable: "
  const RETRY_KEY_PREFIX: string := "requeue_retry:"
  const CLUSTERS_PREFIX: string := "/clusters/"

  /** The cache key of the consecutive-failure counter for a resource identifier. */
  function RetryKey(id: string): string {
    RETRY_KEY_PREFIX + id
  }

  /** A resource's record and its failure counter never share a key. */
  lemma RetryKeyIsNotIdentifier(p: ProxyResource.ProxyKubeApi)
    ensures RetryKey(ProxyResource.ToIdentifier(p)) != ProxyResource.ToIdentifier(p)
  {
    assert RetryKey(ProxyResource.ToIdentifier(p))[0] == 'r';
    assert ProxyResource.ToIdentifier(p)[0] == 'p';
  }

  /**
    The status a reconciliation publishes. A failed configuration check
    decides it alone; otherwise the probe does.
  */
  function DecideStatus(validation: Result<Unit, string>, probe: Result<bool, string>, path: string)
    : (s: Status.ProxyKubeApiStatus)
    ensures s.exposed <==> s.error.None?
    ensures s.exposed <==> validation.Ok? && probe == Ok(true)
    ensures s.exposed ==> s.path == Some(CLUSTERS_PREFIX + path)
    ensures !s.exposed ==> s.path.None?
    ensures validation.Err? ==> s.error == Some(VALIDATION_FAILED_PREFIX + validation.error)
    ensures validation.Ok? && probe == Ok(false) ==> s.error == Some(UNREACHABLE_MESSAGE)
    ensures validation.Ok? && probe.Err? ==> s.error == Some(PROBE_FAILED_PREFIX + probe.error)
  {
    match validation
    case Err(e) => Status.NewStatus(false, None, Some(VALIDATION_FAILED_PREFIX + e))
    case Ok(_) =>
      match probe
      case Ok(true) => Status.NewStatus(true, Some(CLUSTERS_PREFIX + path), None)
      case Ok(false) => Status.NewStatus(false, None, Some(UNREACHABLE_MESSAGE))
      case Err(e) => Status.NewStatus(false, None, Some(PROBE_FAILED_PREFIX + e))
  }

  /** A failed configuration check makes the probe irrelevant: it is never consulted. */
  lemma ProbeSkippedWhenInvalid(e: string, probe1: Result<bool, string>, probe2: Result<bool, string>, path: string)
    ensures DecideStatus(Err(e), probe1, path) == DecideStatus(Err(e), probe2, path)
  {
  }

  /** Everything outside the controller that one reconciliation depends on. */
  datatype Environment = Environment(
    securityValidate: SecurityConfig.SecurityConfiguration -> Result<Unit, string>,
    probe: Result<bool, string>,
    codec: Json.Codec<ProxyResource.ProxyKubeApi>,
    connection: Result<Unit, string>,
    setDelivered: bool,
    incrDelivered: bool,
    delDelivered: bool,
    patchResult: Result<Unit, string>)

  /** The status patch sent to the API server, with the object it addresses. */
  datatype PatchRequest = PatchRequest(namespace: string, name: string, patch: Status.Patch)

  /** The cache after the step, the patch sent (if any), and what the runtime is told. */
  datatype StepOutcome = StepOutcome(cache: RedisCache.Cache, patch: Option<PatchRequest>, result: Result<Action, ControllerError>)

  /** The status `reconcile_proxy_kube_api` decides for `p` in `env`. */
  function NewStatusOf(p: ProxyResource.ProxyKubeApi, env: Environment): Status.ProxyKubeApiStatus {
    DecideStatus(ProxyResource.Validate(p, env.securityValidate), env.probe, ProxyResource.ToPath(p))
  }

  /**
    The object the status patch addresses: its namespace, else "default", and
    its name, else "unknown".
  */
  function PatchTargetOf(p: ProxyResource.ProxyKubeApi, patch: Status.Patch): (r: PatchRequest)
    ensures r.namespace == p.metadata.namespace.GetOr("default")
    ensures r.name == p.metadata.name.GetOr("unknown")
    ensures r.patch == patch
  {
    PatchRequest(p.metadata.namespace.GetOr("default"), p.metadata.name.GetOr("unknown"), patch)
  }

  /** Two caches agree on every key but `a` and `b`. */
  ghost predicate AgreeExcept(c: RedisCache.Cache, d: RedisCache.Cache, a: string, b: string) {
    forall k :: k != a && k != b ==> (k in c <==> k in d) && (k in c ==> c[k] == d[k])
  }

  /**
    The failure counter and the requeue delay: on failure `INCR` and the
    backoff for the count it replies (1 when it fails), on success `DEL` and
    the full hour.
  */
  function CountAttempt(c: RedisCache.Cache, retryKey: string, failed: bool, env: Environment): (r: (RedisCache.Cache, Action))
    ensures forall k :: k != retryKey ==> (k in r.0 <==> k in c) && (k in r.0 ==> r.0[k] == c[k])
    ensures r.1.Requeue? && Backoff.ERROR_REQUEUE_MIN_SECONDS <= r.1.seconds <= Backoff.SUCCESS_REQUEUE_SECONDS
    ensures !failed ==> r.1 == Requeue(Backoff.SUCCESS_REQUEUE_SECONDS)
    ensures !failed && env.delDelivered ==> retryKey !in r.0
    ensures !failed && !env.delDelivered ==> r.0 == c
    ensures failed ==>
      var incr := RedisCache.Incr(c, retryKey, env.incrDelivered);
      r.0 == incr.cache && r.1 == Requeue(Backoff.RetryDelay(Backoff.AttemptsFromReply(incr.reply)))
  {
    if failed then
      var incr := RedisCache.Incr(c, retryKey, env.incrDelivered);
      (incr.cache, Requeue(Backoff.RetryDelay(Backoff.AttemptsFromReply(incr.reply))))
    else
      (RedisCache.Del(c, retryKey, env.delDelivered).cache, Requeue(Backoff.SUCCESS_REQUEUE_SECONDS))
  }

  /** `reconcile_proxy_kube_api` as a step over the cache. */
  function ReconcileStep(p: ProxyResource.ProxyKubeApi, env: Environment, cache: RedisCache.Cache): (o: StepOutcome)
    ensures env.connection.Err? ==> o == StepOutcome(cache, None, Err(RedisPool(env.connection.error)))
    ensures env.connection.Ok? ==>
      o.patch == Some(PatchTargetOf(p, Status.GetPatch(NewStatusOf(p, env))))
    ensures AgreeExcept(o.cache, cache, ProxyResource.ToIdentifier(p), RetryKey(ProxyResource.ToIdentifier(p)))
    ensures env.connection.Ok? && env.setDelivered ==>
      var id := ProxyResource.ToIdentifier(p);
      id in o.cache && o.cache[id] == Json.ToJson(env.codec, p.(status := Some(NewStatusOf(p, env))))
    ensures !env.setDelivered ==>
      var id := ProxyResource.ToIdentifier(p);
      (id in o.cache <==> id in cache) && (id in cache ==> o.cache[id] == cache[id])
    ensures env.connection.Ok? && env.patchResult.Err? ==> o.result == Err(Kube(env.patchResult.error))
    ensures o.result.Ok? ==>
      (o.result.value.Requeue? &&
       Backoff.ERROR_REQUEUE_MIN_SECONDS <= o.result.value.seconds <= Backoff.SUCCESS_REQUEUE_SECONDS)
    ensures o.result.Ok? && NewStatusOf(p, env).exposed ==> o.result.value == Requeue(Backoff.SUCCESS_REQUEUE_SECONDS)
    ensures env.connection.Ok? && env.patchResult.Ok? && NewStatusOf(p, env).exposed ==>
      o.result == Ok(Requeue(Backoff.SUCCESS_REQUEUE_SECONDS))
    ensures env.connection.Ok? && NewStatusOf(p, env).exposed && env.delDelivered ==>
      RetryKey(ProxyResource.ToIdentifier(p)) !in o.cache
    ensures env.connection.Ok? && NewStatusOf(p, env).exposed && !env.delDelivered ==>
      var key := RetryKey(ProxyResource.ToIdentifier(p));
      (key in o.cache <==> key in cache) && (key in cache ==> o.cache[key] == cache[key])
    ensures env.connection.Ok? && env.patchResult.Ok? && !NewStatusOf(p, env).exposed ==>
      var id := ProxyResource.ToIdentifier(p);
      var written := RedisCache.Set(cache, id, Json.ToJson(env.codec, p.(status := Some(NewStatusOf(p, env)))), env.setDelivered);
      var incr := RedisCache.Incr(written, RetryKey(id), env.incrDelivered);
      o.cache == incr.cache && o.result == Ok(Requeue(Backoff.RetryDelay(Backoff.AttemptsFromReply(incr.reply))))
  {
    var id := ProxyResource.ToIdentifier(p);
    var retryKey := RetryKey(id);
    var status := NewStatusOf(p, env);
    match env.connection
    case Err(e) => StepOutcome(cache, None, Err(RedisPool(e)))
    case Ok(_) =>
      RetryKeyIsNotIdentifier(p);
      var written := RedisCache.Set(cache, id, Json.ToJson(env.codec, p.(status := Some(status))), env.setDelivered);
      var counted := CountAttempt(written, retryKey, status.error.Some?, env);
      var request := PatchTargetOf(p, Status.GetPatch(status));
      StepOutcome(counted.0, Some(request), if env.patchResult.Err? then Err(Kube(env.patchResult.error)) else Ok(counted.1))
  }

  /**
    A failing step bumps the counter by one and waits the delay for the new
    count, provided the counter holds a valid count and the commands arrive.
  */
  lemma FailureAdvancesCounter(p: ProxyResource.ProxyKubeApi, env: Environment, cache: RedisCache.Cache, n: nat)
    requires env.connection.Ok? && env.incrDelivered && env.patchResult.Ok?
    requires !NewStatusOf(p, env).exposed
    requires n < I64_MAX
    requires n == 0 ==> RetryKey(ProxyResource.ToIdentifier(p)) !in cache
    requires n > 0 ==>
      (RetryKey(ProxyResource.ToIdentifier(p)) in cache &&
       cache[RetryKey(ProxyResource.ToIdentifier(p))] == NatToString(n))
    ensures var o := ReconcileStep(p, env, cache);
      RetryKey(ProxyResource.ToIdentifier(p)) in o.cache &&
      o.cache[RetryKey(ProxyResource.ToIdentifier(p))] == NatToString(n + 1) &&
      o.result == Ok(Requeue(Backoff.RetryDelay(Backoff.AttemptsFromReply(Ok(n + 1)))))
  {
    var id := ProxyResource.ToIdentifier(p);
    RetryKeyIsNotIdentifier(p);
    var written := RedisCache.Set(cache, id, Json.ToJson(env.codec, p.(status := Some(NewStatusOf(p, env)))), env.setDelivered);
    RedisCache.IncrAdvances(written, RetryKey(id), n);
  }

  /**
    When `INCR` fails, because the command is lost or the counter holds no
    valid count, the failing step waits the base delay of five minutes.
  */
  lemma FailedIncrWaitsBaseDelay(p: ProxyResource.ProxyKubeApi, env: Environment, cache: RedisCache.Cache)
    requires env.connection.Ok? && env.patchResult.Ok? && !NewStatusOf(p, env).exposed
    requires !env.incrDelivered ||
      (RetryKey(ProxyResource.ToIdentifier(p)) in cache &&
       ParseRedisInteger(cache[RetryKey(ProxyResource.ToIdentifier(p))]).None?)
    ensures ReconcileStep(p, env, cache).result == Ok(Requeue(Backoff.ERROR_REQUEUE_MIN_SECONDS))
  {
    RetryKeyIsNotIdentifier(p);
    Backoff.RetryDelaySchedule(1);
  }

  /** A successful step clears the failure counter, so the next failure waits the base delay again. */
  lemma SuccessResetsCounter(p: ProxyResource.ProxyKubeApi, env: Environment, cache: RedisCache.Cache)
    requires env.connection.Ok? && env.delDelivered && NewStatusOf(p, env).exposed
    ensures RetryKey(ProxyResource.ToIdentifier(p)) !in ReconcileStep(p, env, cache).cache
    ensures env.patchResult.Ok? ==> ReconcileStep(p, env, cache).result == Ok(Requeue(Backoff.SUCCESS_REQUEUE_SECONDS))
  {
  }

  /**
    A lost `DEL` is only logged: the successful step still waits the full hour,
    and the failure counter keeps whatever it held.
  */
  lemma LostResetStillSucceeds(p: ProxyResource.ProxyKubeApi, env: Environment, cache: RedisCache.Cache)
    requires env.connection.Ok? && env.patchResult.Ok? && NewStatusOf(p, env).exposed && !env.delDelivered
    ensures var o := ReconcileStep(p, env, cache);
      var key := RetryKey(ProxyResource.ToIdentifier(p));
      o.result == Ok(Requeue(Backoff.SUCCESS_REQUEUE_SECONDS)) &&
      (key in o.cache <==> key in cache) && (key in cache ==> o.cache[key] == cache[key])
  {
  }

  /**
    A lost `SET` and a failed status patch are not undone: the counter moves
    all the same and the patch is still attempted.
  */
  lemma PatchFailureKeepsCacheEffects(p: ProxyResource.ProxyKubeApi, env: Environment, cache: RedisCache.Cache, e: string)
    requires env.connection.Ok?
    ensures ReconcileStep(p, env.(patchResult := Err(e)), cache).cache == ReconcileStep(p, env.(patchResult := Ok(Unit)), cache).cache
    ensures ReconcileStep(p, env.(patchResult := Err(e)), cache).result == Err(Kube(e))
  {
  }
}

=== FILE: redis_cache.dfy ===
/**
  The Redis commands the controllers issue, over a cache modelled as a map
  from keys to string values. A command whose transport fails is not applied
  and returns an error.
*/
module RedisCache {
  import opened Outcomes
  import opened Strings

  type Cache = map<string, string>

  const NOT_AN_INTEGER: string := "ERR value is not an integer or out of range"
  const WOULD_OVERFLOW: string := "ERR increment or decrement would overflow"
  const TRANSPORT_FAILED: string := "connection lost"

  /** `SET key value`. */
  function Set(c: Cache, key: string, value: string, delivered: bool): (r: Cache)
    ensures delivered ==> key in r && r[key] == value
    ensures !delivered ==> r == c
    ensures forall k :: k != key ==> (k in r <==> k in c) && (k in r ==> r[k] == c[k])
  {
    if delivered then c[key := value] else c
  }

  datatype IncrOutcome = IncrOutcome(reply: Result<int, string>, cache: Cache)

  /**
    `INCR key`: a missing key counts as 0; the stored value must be a
    canonical signed 64-bit decimal, and the increment must not overflow.
  */
  function Incr(c: Cache, key: string, delivered: bool): (r: IncrOutcome)
    ensures r.reply.Ok? ==> key in r.cache && ParseRedisInteger(r.cache[key]) == Some(r.reply.value)
    ensures r.reply.Ok? && key !in c ==> r.reply.value == 1
    ensures r.reply.Ok? && key in c ==>
      ParseRedisInteger(c[key]).Some? && r.reply.value == ParseRedisInteger(c[key]).value + 1
    ensures r.reply.Err? <==>
      !delivered || (key in c && (ParseRedisInteger(c[key]).None? || ParseRedisInteger(c[key]) == Some(I64_MAX)))
    ensures r.reply.Err? ==> r.cache == c
    ensures forall k :: k != key ==> (k in r.cache <==> k in c) && (k in r.cache ==> r.cache[k] == c[k])
  {
    if !delivered then IncrOutcome(Err(TRANSPORT_FAILED), c)
    else if key !in c then
      RedisIntegerRoundTrip(1);
      IncrOutcome(Ok(1), c[key := "1"])
    else
      match ParseRedisInteger(c[key])
      case None => IncrOutcome(Err(NOT_AN_INTEGER), c)
      case Some(v) =>
        if v == I64_MAX then IncrOutcome(Err(WOULD_OVERFLOW), c)
        else
          ParseRedisIntegerRange(c[key]);
          RedisIntegerRoundTrip(v + 1);
          IncrOutcome(Ok(v + 1), c[key := IntToString(v + 1)])
  }

  /** Every value `INCR` accepts is a signed 64-bit integer. */
  lemma ParseRedisIntegerRange(s: string)
    requires ParseRedisInteger(s).Some?
    ensures I64_MIN <= ParseRedisInteger(s).value <= I64_MAX
  {
  }

  datatype DelOutcome = DelOutcome(reply: Result<nat, string>, cache: Cache)

  /** `DEL key`: the reply counts the keys removed. */
  function Del(c: Cache, key: string, delivered: bool): (r: DelOutcome)
    ensures delivered ==> key !in r.cache && r.reply == Ok(if key in c then 1 else 0)
    ensures !delivered ==> r.cache == c && r.reply.Err?
    ensures forall k :: k != key ==> (k in r.cache <==> k in c) && (k in r.cache ==> r.cache[k] == c[k])
  {
    if delivered then DelOutcome(Ok(if key in c then 1 else 0), c - {key}) else DelOutcome(Err(TRANSPORT_FAILED), c)
  }

  /** A delivered `INCR` on a counter holding `n` (or absent, for 0) replies `n + 1` and stores it. */
  lemma IncrAdvances(c: Cache, key: string, n: nat)
    requires n < I64_MAX
    requires n == 0 ==> key !in c
    requires n > 0 ==> key in c && c[key] == NatToString(n)
    ensures Incr(c, key, true) == IncrOutcome(Ok(n + 1), c[key := NatToString(n + 1)])
  {
    if n > 0 {
      RedisNonNegativeRoundTrip(n);
    }
  }

  /** The cache after `n` delivered `INCR key` commands. */
  function IncrTimes(c: Cache, key: string, n: nat): Cache
    decreases n
  {
    if n == 0 then c else Incr(IncrTimes(c, key, n - 1), key, true).cache
  }

  /** A counter that starts absent reads `n` after `n` increments. */
  lemma {:induction false} IncrCounts(c: Cache, key: string, n: nat)
    requires key !in c && 1 <= n <= I64_MAX
    ensures key in IncrTimes(c, key, n) && IncrTimes(c, key, n)[key] == NatToString(n)
    decreases n
  {
    if n > 1 {
      IncrCounts(c, key, n - 1);
      IncrAdvances(IncrTimes(c, key, n - 1), key, n - 1);
    } else {
      IncrAdvances(c, key, 0);
    }
  }
}

=== FILE: security_config.dfy ===
/**
  The security section of the custom resource: the fail-to-login ban
  settings, per-group rate limits and the allowed resources, with the
  `Default` implementations and serde's field defaults.
*/
module SecurityConfig {
  import opened Outcomes
  import CrdDefaults
  import AllowedPath

  datatype Fail2LoginEqualBanConfiguration = Fail2LoginEqualBanConfiguration(
    enabled: bool,
    maxFailedLogins: nat,
    banDuration: nat,
    exponentialBackoff: bool)

  datatype PerUserGroupRateLimiting = PerUserGroupRateLimiting(
    group: string,
    maxRequestsPerMinute: nat,
    claim: string)

  datatype SecurityConfiguration = SecurityConfiguration(
    enabled: bool,
    fail2loginEqualBan: Fail2LoginEqualBanConfiguration,
    perUserGroupRateLimiting: seq<PerUserGroupRateLimiting>,
    allowedResources: seq<AllowedPath.AllowedPathConfiguration>)

  /** `Fail2LoginEqualBanConfiguration::default`. */
  function DefaultFail2Login(): (c: Fail2LoginEqualBanConfiguration)
    ensures !c.enabled && !c.exponentialBackoff
    ensures c.maxFailedLogins == 5 && c.banDuration == 300
  {
    Fail2LoginEqualBanConfiguration(
      CrdDefaults.DISABLED, CrdDefaults.MAX_FAILED_LOGINS, CrdDefaults.BAN_DURATION, CrdDefaults.DISABLED)
  }

  /** `SecurityConfiguration::default`. */
  function DefaultSecurity(): (c: SecurityConfiguration)
    ensures c.enabled
    ensures c.fail2loginEqualBan == DefaultFail2Login()
    ensures c.perUserGroupRateLimiting == [] && c.allowedResources == []
  {
    SecurityConfiguration(CrdDefaults.ENABLED, DefaultFail2Login(), [], [])
  }

  // ---------------------------------------------------------------------------
  // Deserialisation defaults
  // ---------------------------------------------------------------------------

  datatype Fail2LoginFields = Fail2LoginFields(
    enabled: Option<bool>,
    maxFailedLogins: Option<nat>,
    banDuration: Option<nat>,
    exponentialBackoff: Option<bool>)

  datatype SecurityFields = SecurityFields(
    enabled: Option<bool>,
    fail2loginEqualBan: Fail2LoginFields,
    perUserGroupRateLimiting: Option<seq<PerUserGroupRateLimiting>>,
    allowedResources: seq<AllowedPath.AllowedPathConfiguration>)

  /** serde's reading of the ban settings: every field has a default. */
  function ReadFail2Login(f: Fail2LoginFields): (c: Fail2LoginEqualBanConfiguration)
    ensures f.enabled.Some? ==> c.enabled == f.enabled.value
    ensures f.maxFailedLogins.Some? ==> c.maxFailedLogins == f.maxFailedLogins.value
    ensures f.banDuration.Some? ==> c.banDuration == f.banDuration.value
    ensures f.exponentialBackoff.Some? ==> c.exponentialBackoff == f.exponentialBackoff.value
  {
    Fail2LoginEqualBanConfiguration(
      f.enabled.GetOr(CrdDefaults.DISABLED),
      f.maxFailedLogins.GetOr(CrdDefaults.MAX_FAILED_LOGINS),
      f.banDuration.GetOr(CrdDefaults.BAN_DURATION),
      f.exponentialBackoff.GetOr(CrdDefaults.DISABLED))
  }

  /** serde's reading of the security section; `allowed_ressources` has no default. */
  function ReadSecurity(f: SecurityFields): (c: SecurityConfiguration)
    ensures f.enabled.Some? ==> c.enabled == f.enabled.value
    ensures f.perUserGroupRateLimiting.Some? ==> c.perUserGroupRateLimiting == f.perUserGroupRateLimiting.value
    ensures c.fail2loginEqualBan == ReadFail2Login(f.fail2loginEqualBan)
    ensures c.allowedResources == f.allowedResources
  {
    SecurityConfiguration(
      f.enabled.GetOr(CrdDefaults.ENABLED),
      ReadFail2Login(f.fail2loginEqualBan),
      f.perUserGroupRateLimiting.GetOr([]),
      f.allowedResources)
  }

  /** The `Default` ban settings are exactly what serde makes of an empty ban section. */
  lemma DefaultFail2LoginIsEmptyRead()
    ensures ReadFail2Login(Fail2LoginFields(None, None, None, None)) == DefaultFail2Login()
  {
  }

  /**
    The `Default` security section is what serde makes of a section that
    lists no allowed resources and leaves every defaulted field out.
  */
  lemma DefaultSecurityIsEmptyRead()
    ensures ReadSecurity(SecurityFields(None, Fail2LoginFields(None, None, None, None), None, []))
         == DefaultSecurity()
  {
  }
}

=== FILE: service.dfy ===
/**
  The upstream a proxy forwards to: either a Kubernetes Service, whose port is
  chosen by number, by name or as the first one, or an external URL used as
  is. The Service object is the result of a lookup the caller performs and is
  passed in as the function `fetch(namespace, name)`.
*/
module Service {
  import opened Outcomes
  import opened Strings

  /** A `u16` port number as the resource states it. */
  type PortNumber = n: int | 0 <= n < 0x1_0000

  /** The service reference of the custom resource. */
  datatype Service =
    | KubernetesService(name: string, namespace: Option<string>, port: Option<PortNumber>, portName: Option<string>)
    | ExternalService(url: string)

  /** The parts of a fetched Kubernetes Service that the URL depends on. */
  datatype ServicePort = ServicePort(name: Option<string>, port: int, nodePort: Option<int>)
  datatype ServiceSpec = ServiceSpec(clusterIp: Option<string>, ports: Option<seq<ServicePort>>)
  datatype KubeService = KubeService(spec: Option<ServiceSpec>)

  /** How a port is picked from the Service's list. */
  datatype PortSelector = ByNumber(number: int) | ByName(portName: string) | FirstPort

  predicate Selects(sel: PortSelector, p: ServicePort) {
    match sel
    case ByNumber(n) => p.port == n
    case ByName(n) => p.name == Some(n)
    case FirstPort => true
  }

  /** `port` takes precedence over `port_name`; with neither, the first port. */
  function SelectorOf(port: Option<PortNumber>, portName: Option<string>): PortSelector {
    if port.Some? then ByNumber(port.value)
    else if portName.Some? then ByName(portName.value)
    else FirstPort
  }

  /** The index of the first port the selector accepts (Rust's `iter().find`). */
  function FindPort(ports: seq<ServicePort>, sel: PortSelector): (r: Option<nat>)
    ensures r.Some? ==> r.value < |ports| && Selects(sel, ports[r.value])
    ensures r.Some? ==> forall j :: 0 <= j < r.value ==> !Selects(sel, ports[j])
    ensures r.None? ==> forall j :: 0 <= j < |ports| ==> !Selects(sel, ports[j])
    decreases |ports|
  {
    if |ports| == 0 then None
    else if Selects(sel, ports[0]) then Some(0)
    else
      match FindPort(ports[1..], sel)
      case Some(k) => Some(k + 1)
      case None => None
  }

  /** The host part: the cluster IP, or "{name}:{namespace}" when the Service has none. */
  function HostOf(spec: ServiceSpec, name: string, ns: string): string {
    spec.clusterIp.GetOr(name + ":" + ns)
  }

  /** The port part: the node port when the Service has one, else the service port. */
  function PortNumberOf(p: ServicePort): int {
    p.nodePort.GetOr(p.port)
  }

  function UrlOf(host: string, port: int): string {
    "https://" + host + ":" + IntToString(port)
  }

  function NotFoundMessage(sel: PortSelector, name: string): string {
    match sel
    case ByNumber(n) => "Port " + IntToString(n) + " not found in service " + name
    case ByName(n) => "Port name " + n + " not found in service " + name
    case FirstPort => "No ports found in service " + name
  }

  /** The namespace the Service is looked up in: its own, else the resource's. */
  function TargetNamespace(svc: Service, mainNs: string): string
    requires svc.KubernetesService?
  {
    svc.namespace.GetOr(mainNs)
  }

  /** `Service::url_to_call`. */
  function UrlToCall(svc: Service, mainNs: string, fetch: (string, string) -> Result<KubeService, string>)
    : (r: Result<string, string>)
    ensures svc.ExternalService? ==> r == Ok(svc.url)
    ensures svc.KubernetesService? && fetch(TargetNamespace(svc, mainNs), svc.name).Err? ==>
      r == Err(fetch(TargetNamespace(svc, mainNs), svc.name).error)
    ensures svc.KubernetesService? && fetch(TargetNamespace(svc, mainNs), svc.name).Ok? ==>
      var k := fetch(TargetNamespace(svc, mainNs), svc.name).value;
      var sel := SelectorOf(svc.port, svc.portName);
      (k.spec.None? ==> r == Err("No spec found for service " + svc.name)) &&
      (k.spec.Some? && k.spec.value.ports.None? ==> r == Err("No ports found in service " + svc.name)) &&
      (k.spec.Some? && k.spec.value.ports.Some? ==>
        var ports := k.spec.value.ports.value;
        (r.Ok? <==> exists j :: 0 <= j < |ports| && Selects(sel, ports[j])) &&
        (r.Err? ==> r.error == NotFoundMessage(sel, svc.name)) &&
        (r.Ok? ==>
          (exists j :: 0 <= j < |ports| && Selects(sel, ports[j]) &&
            (forall i :: 0 <= i < j ==> !Selects(sel, ports[i])) &&
            r.value == UrlOf(HostOf(k.spec.value, svc.name, TargetNamespace(svc, mainNs)), PortNumberOf(ports[j])))))
  {
    match svc
    case ExternalService(url) => Ok(url)
    case KubernetesService(name, _, port, portName) =>
      var ns := TargetNamespace(svc, mainNs);
      match fetch(ns, name)
      case Err(e) => Err(e)
      case Ok(k) =>
        match k.spec
        case None => Err("No spec found for service " + name)
        case Some(spec) =>
          match spec.ports
          case None => Err("No ports found in service " + name)
          case Some(ports) =>
            var sel := SelectorOf(port, portName);
            match FindPort(ports, sel)
            case None => Err(NotFoundMessage(sel, name))
            case Some(j) => Ok(UrlOf(HostOf(spec, name, ns), PortNumberOf(ports[j])))
  }

  /**
    A port number given by the resource wins over a port name: the name is
    never consulted when the number is set.
  */
  lemma PortNumberTakesPrecedence(name: string, ns: Option<string>, port: PortNumber, n1: Option<string>, n2: Option<string>,
                                  mainNs: string, fetch: (string, string) -> Result<KubeService, string>)
    ensures UrlToCall(KubernetesService(name, ns, Some(port), n1), mainNs, fetch)
         == UrlToCall(KubernetesService(name, ns, Some(port), n2), mainNs, fetch)
  {
  }

  /** With neither number nor name, an empty port list is the same error as a missing one. */
  lemma EmptyPortListHasNoPort(name: string, ns: Option<string>, mainNs: string, ip: Option<string>,
                               fetch: (string, string) -> Result<KubeService, string>)
    requires fetch(ns.GetOr(mainNs), name) == Ok(KubeService(Some(ServiceSpec(ip, Some([])))))
    ensures UrlToCall(KubernetesService(name, ns, None, None), mainNs, fetch)
         == Err("No ports found in service " + name)
  {
  }

  /** Every URL built from a Service starts with "https://". */
  lemma KubernetesUrlIsHttps(svc: Service, mainNs: string, fetch: (string, string) -> Result<KubeService, string>)
    requires svc.KubernetesService? && UrlToCall(svc, mainNs, fetch).Ok?
    ensures IsPrefix("https://", UrlToCall(svc, mainNs, fetch).value)
  {
  }
}

=== FILE: status.dfy ===
/**
  The status block of the custom resource and the server-side-apply patch
  that publishes it.
*/
module Status {
  import opened Outcomes

  datatype ProxyKubeApiStatus = ProxyKubeApiStatus(exposed: bool, path: Option<string>, error: Option<string>)

  const API_VERSION: string := "weebo.si.rs/v1"
  const KIND: string := "ProxyKubeApi"

  /** The `#[derive(Default)]` status: not exposed, no path, no error. */
  function DefaultStatus(): (s: ProxyKubeApiStatus)
    ensures !s.exposed && s.path.None? && s.error.None?
  {
    ProxyKubeApiStatus(false, None, None)
  }

  /** `ProxyKubeApiStatus::new`: the three fields, stored as given. */
  function NewStatus(exposed: bool, path: Option<string>, error: Option<string>): (s: ProxyKubeApiStatus)
    ensures s.exposed == exposed && s.path == path && s.error == error
  {
    ProxyKubeApiStatus(exposed, path, error)
  }

  /** A server-side-apply patch: the JSON object with `apiVersion`, `kind` and `status`. */
  datatype Patch = Apply(apiVersion: string, kind: string, status: ProxyKubeApiStatus)

  /** `ProxyKubeApiStatus::get_patch`. */
  function GetPatch(s: ProxyKubeApiStatus): (p: Patch)
    ensures p.Apply? && p.apiVersion == API_VERSION && p.kind == KIND
    ensures p.status == s
  {
    Apply(API_VERSION, KIND, s)
  }

  /** The patch carries the status unchanged, so different statuses give different patches. */
  lemma GetPatchInjective(a: ProxyKubeApiStatus, b: ProxyKubeApiStatus)
    ensures GetPatch(a) == GetPatch(b) <==> a == b
  {
  }
}

=== FILE: strings.dfy ===
/**
  The string operations of Rust's standard library that the system relies on:
  `starts_with`, `contains`, `replace` (every non-overlapping occurrence, left to
  right), `split` on one character, decimal formatting of integers and the
  integer parsers (`u64::from_str` and the strict integer reading a Redis
  `INCR` performs).
*/
module Strings {
  import opened Outcomes

  const U64_MAX: nat := 0xFFFF_FFFF_FFFF_FFFF
  const I64_MAX: nat := 0x7FFF_FFFF_FFFF_FFFF
  const I64_MIN: int := -0x8000_0000_0000_0000

  // ---------------------------------------------------------------------------
  // Prefixes and occurrences
  // ---------------------------------------------------------------------------

  /** Rust's `s.starts_with(p)`. */
  predicate IsPrefix(p: string, s: string) {
    |p| <= |s| && s[..|p|] == p
  }

  /** `pat` occurs in `s` starting at index `i`. */
  predicate OccursAt(s: string, pat: string, i: nat) {
    i + |pat| <= |s| && s[i..i + |pat|] == pat
  }

  /** Rust's `s.contains(pat)`. */
  predicate Contains(s: string, pat: string) {
    exists i: nat | i <= |s| :: OccursAt(s, pat, i)
  }

  lemma OccursAtZeroIsPrefix(s: string, pat: string)
    ensures OccursAt(s, pat, 0) <==> IsPrefix(pat, s)
  {
  }

  /** An occurrence in a suffix is an occurrence in the whole string. */
  lemma ContainsSuffix(s: string, pat: string, k: nat)
    requires k <= |s|
    requires Contains(s[k..], pat)
    ensures Contains(s, pat)
  {
    var i: nat :| i <= |s[k..]| && OccursAt(s[k..], pat, i);
    assert s[k..][i..i + |pat|] == s[k + i..k + i + |pat|];
    assert OccursAt(s, pat, k + i);
  }

  /** An occurrence in a prefix is an occurrence in the whole string. */
  lemma ContainsPrefixPart(s: string, pat: string, k: nat)
    requires k <= |s|
    requires Contains(s[..k], pat)
    ensures Contains(s, pat)
  {
    var i: nat :| i <= |s[..k]| && OccursAt(s[..k], pat, i);
    assert s[..k][i..i + |pat|] == s[i..i + |pat|];
    assert OccursAt(s, pat, i);
  }

  // ---------------------------------------------------------------------------
  // Replacement
  // ---------------------------------------------------------------------------

  /**
    Rust's `s.replace(pat, rep)` for a non-empty pattern: scanning left to
    right, every occurrence that starts where the scan stands is replaced and
    skipped; otherwise one character is copied.
  */
  function ReplaceAll(s: string, pat: string, rep: string): string
    requires |pat| > 0
    decreases |s|
  {
    if |s| == 0 then ""
    else if IsPrefix(pat, s) then rep + ReplaceAll(s[|pat|..], pat, rep)
    else [s[0]] + ReplaceAll(s[1..], pat, rep)
  }

  /** Replacing a pattern that does not occur leaves the string as it was. */
  lemma {:induction false} ReplaceAllAbsent(s: string, pat: string, rep: string)
    requires |pat| > 0
    requires !Contains(s, pat)
    ensures ReplaceAll(s, pat, rep) == s
    decreases |s|
  {
    if |s| > 0 {
      if IsPrefix(pat, s) {
        OccursAtZeroIsPrefix(s, pat);
        assert false;
      }
      if Contains(s[1..], pat) {
        ContainsSuffix(s, pat, 1);
      }
      ReplaceAllAbsent(s[1..], pat, rep);
    }
  }

  /** Every character of a replacement result comes from the input or from `rep`. */
  lemma {:induction false} ReplaceAllKeepsAbsentChar(s: string, pat: string, rep: string, c: char)
    requires |pat| > 0
    requires c !in s && c !in rep
    ensures c !in ReplaceAll(s, pat, rep)
    decreases |s|
  {
    if |s| > 0 {
      if IsPrefix(pat, s) {
        assert c !in s[|pat|..];
        ReplaceAllKeepsAbsentChar(s[|pat|..], pat, rep, c);
      } else {
        assert c !in s[1..];
        ReplaceAllKeepsAbsentChar(s[1..], pat, rep, c);
      }
    }
  }

  /** Replacing a one-character pattern by text without that character removes it. */
  lemma {:induction false} ReplaceAllRemovesChar(s: string, c: char, rep: string)
    requires c !in rep
    ensures c !in ReplaceAll(s, [c], rep)
    decreases |s|
  {
    if |s| > 0 {
      if IsPrefix([c], s) {
        ReplaceAllRemovesChar(s[1..], c, rep);
      } else {
        assert s[0] != c;
        ReplaceAllRemovesChar(s[1..], c, rep);
      }
    }
  }

  /** A pattern at the very start is replaced first, whatever follows it. */
  lemma ReplaceAllLeading(x: string, pat: string, rep: string)
    requires |pat| > 0
    ensures ReplaceAll(pat + x, pat, rep) == rep + ReplaceAll(x, pat, rep)
  {
    assert (pat + x)[..|pat|] == pat;
    assert (pat + x)[|pat|..] == x;
  }

  /**
    Replacement in a string holding the pattern at most once: with no
    occurrence nothing changes, and with one leading occurrence only that one
    is replaced.
  */
  lemma ReplaceAllAtMostOnce(s: string, pat: string, rep: string)
    requires |pat| > 0
    ensures !Contains(s, pat) ==> ReplaceAll(s, pat, rep) == s
    ensures IsPrefix(pat, s) && !Contains(s[|pat|..], pat) ==> ReplaceAll(s, pat, rep) == rep + s[|pat|..]
  {
    if !Contains(s, pat) {
      ReplaceAllAbsent(s, pat, rep);
    }
    if IsPrefix(pat, s) && !Contains(s[|pat|..], pat) {
      assert s == pat + s[|pat|..];
      ReplaceAllLeading(s[|pat|..], pat, rep);
      ReplaceAllAbsent(s[|pat|..], pat, rep);
    }
  }

  /** A prefix that lacks the pattern's first character is copied through unchanged. */
  lemma {:induction false} ReplaceAllAfterPlainPrefix(x: string, y: string, pat: string, rep: string)
    requires |pat| > 0 && pat[0] !in x
    ensures ReplaceAll(x + y, pat, rep) == x + ReplaceAll(y, pat, rep)
    decreases |x|
  {
    if |x| == 0 {
      assert x + y == y;
    } else {
      assert (x + y)[0] == x[0] != pat[0];
      assert !IsPrefix(pat, x + y);
      assert (x + y)[1..] == x[1..] + y;
      ReplaceAllAfterPlainPrefix(x[1..], y, pat, rep);
    }
  }

  /** A pattern holding a character the string lacks does not occur in it. */
  lemma MissingCharMeansAbsent(s: string, pat: string, c: char)
    requires c in pat && c !in s
    ensures !Contains(s, pat)
  {
    var k :| 0 <= k < |pat| && pat[k] == c;
    forall i: nat | i <= |s|
      ensures !OccursAt(s, pat, i)
    {
      if i + |pat| <= |s| {
        assert s[i..i + |pat|][k] == s[i + k] != pat[k];
      }
    }
  }

  /** Every `c` of `s` turned into `d`, every other character kept. */
  function ReplaceChar(s: string, c: char, d: char): (r: string)
    ensures |r| == |s|
    ensures forall i :: 0 <= i < |s| ==> r[i] == (if s[i] == c then d else s[i])
  {
    seq(|s|, i requires 0 <= i < |s| => if s[i] == c then d else s[i])
  }

  /** With a one-character pattern and replacement, `str::replace` works character by character. */
  lemma {:induction false} ReplaceAllSingleChar(s: string, c: char, d: char)
    ensures ReplaceAll(s, [c], [d]) == ReplaceChar(s, c, d)
    decreases |s|
  {
    if |s| > 0 {
      ReplaceAllSingleChar(s[1..], c, d);
      var r := ReplaceAll(s, [c], [d]);
      assert IsPrefix([c], s) <==> s[0] == c by {
        assert s[..1] == [s[0]];
      }
      assert r == [if s[0] == c then d else s[0]] + ReplaceChar(s[1..], c, d);
    }
  }

  // ---------------------------------------------------------------------------
  // Splitting
  // ---------------------------------------------------------------------------

  /**
    Rust's `s.split(sep)`: the pieces between separators, always at least one
    (the empty string splits into one empty piece).
  */
  function Split(s: string, sep: char): (parts: seq<string>)
    ensures |parts| >= 1
    decreases |s|
  {
    if |s| == 0 then [""]
    else
      var rest := Split(s[1..], sep);
      if s[0] == sep then [""] + rest
      else [[s[0]] + rest[0]] + rest[1..]
  }

  /** A string without the separator is one piece. */
  lemma {:induction false} SplitWithoutSeparator(s: string, sep: char)
    requires sep !in s
    ensures Split(s, sep) == [s]
    decreases |s|
  {
    if |s| > 0 {
      assert sep !in s[1..];
      SplitWithoutSeparator(s[1..], sep);
      assert [s[0]] + s[1..] == s;
    }
  }

  /** A separator-free head is the first piece; the rest splits on its own. */
  lemma {:induction false} SplitAfterHead(a: string, sep: char, b: string)
    requires sep !in a
    ensures Split(a + [sep] + b, sep) == [a] + Split(b, sep)
    decreases |a|
  {
    if |a| == 0 {
      assert a + [sep] + b == [sep] + b;
      assert ([sep] + b)[1..] == b;
    } else {
      var s := a + [sep] + b;
      assert s[0] == a[0];
      assert s[1..] == a[1..] + [sep] + b;
      assert sep !in a[1..];
      SplitAfterHead(a[1..], sep, b);
      assert [a[0]] + a[1..] == a;
    }
  }

  // ---------------------------------------------------------------------------
  // Decimal formatting and parsing
  // ---------------------------------------------------------------------------

  predicate IsDigit(c: char) {
    '0' <= c <= '9'
  }

  predicate AllDigits(s: string) {
    forall i :: 0 <= i < |s| ==> IsDigit(s[i])
  }

  function DigitChar(d: nat): char
    requires d < 10
  {
    "0123456789"[d]
  }

  function DigitValue(c: char): nat
    requires IsDigit(c)
  {
    c as int - '0' as int
  }

  lemma DigitCharValue(d: nat)
    requires d < 10
    ensures IsDigit(DigitChar(d)) && DigitValue(DigitChar(d)) == d
  {
    if d == 0 {} else if d == 1 {} else if d == 2 {} else if d == 3 {} else if d == 4 {}
    else if d == 5 {} else if d == 6 {} else if d == 7 {} else if d == 8 {} else {}
  }

  /** Rust's `n.to_string()` for a non-negative integer. */
  function NatToString(n: nat): string
    decreases n
  {
    if n < 10 then [DigitChar(n)] else NatToString(n / 10) + [DigitChar(n % 10)]
  }

  /** Rust's `i.to_string()` for a signed integer. */
  function IntToString(i: int): string {
    if i < 0 then "-" + NatToString(-i) else NatToString(i)
  }

  /** The value of a string of decimal digits, most significant first. */
  function DigitsValue(s: string): nat
    requires AllDigits(s)
    decreases |s|
  {
    if |s| == 0 then 0 else DigitsValue(s[..|s| - 1]) * 10 + DigitValue(s[|s| - 1])
  }

  /** A non-empty string of decimal digits, read as a number (leading zeros allowed). */
  function ParseNat(s: string): Option<nat> {
    if |s| > 0 && AllDigits(s) then Some(DigitsValue(s)) else None
  }

  /** Printing a number and reading it back gives the number. */
  lemma {:induction false} NatToStringRoundTrip(n: nat)
    ensures |NatToString(n)| > 0 && AllDigits(NatToString(n))
    ensures ParseNat(NatToString(n)) == Some(n)
    decreases n
  {
    if n < 10 {
      DigitCharValue(n);
      assert NatToString(n)[..0] == "";
    } else {
      NatToStringRoundTrip(n / 10);
      DigitCharValue(n % 10);
      var s := NatToString(n);
      assert s[..|s| - 1] == NatToString(n / 10);
      assert s[|s| - 1] == DigitChar(n % 10);
      assert AllDigits(s);
      assert DigitsValue(s) == (n / 10) * 10 + n % 10;
    }
  }

  /** The printed form of a number never starts with '-' or '+'. */
  lemma NatToStringFirstIsDigit(n: nat)
    ensures IsDigit(NatToString(n)[0])
  {
    NatToStringRoundTrip(n);
  }

  /**
    Rust's `u64::from_str`: an optional '+', then one or more decimal digits
    whose value fits in 64 bits; anything else is an error.
  */
  function ParseU64(s: string): Option<nat> {
    var digits := if |s| > 0 && s[0] == '+' then s[1..] else s;
    match ParseNat(digits)
    case Some(n) => if n <= U64_MAX then Some(n) else None
    case None => None
  }

  /** Every value `u64::from_str` accepts is a 64-bit value, and its printed form parses back. */
  lemma ParseU64Facts(s: string, n: nat)
    ensures ParseU64(s) == Some(n) ==> n <= U64_MAX
    ensures n <= U64_MAX ==> ParseU64(NatToString(n)) == Some(n)
  {
    if n <= U64_MAX {
      NatToStringRoundTrip(n);
      NatToStringFirstIsDigit(n);
    }
  }

  /**
    The integer a Redis string holds, read the way `INCR` reads it: the
    canonical signed decimal form of a 64-bit integer (no '+', no leading
    zeros, no "-0"); anything else is not an integer.
  */
  function ParseRedisInteger(s: string): Option<int> {
    if |s| > 0 && s[0] == '-' then
      match ParseNat(s[1..])
      case Some(n) => if n > 0 && NatToString(n) == s[1..] && n <= -I64_MIN then Some(0 - n) else None
      case None => None
    else
      match ParseNat(s)
      case Some(n) => if NatToString(n) == s && n <= I64_MAX then Some(n) else None
      case None => None
  }

  /** Redis reads back exactly the 64-bit integers written in decimal. */
  lemma RedisIntegerRoundTrip(v: int)
    requires I64_MIN <= v <= I64_MAX
    ensures ParseRedisInteger(IntToString(v)) == Some(v)
  {
    if v < 0 {
      RedisNegativeRoundTrip(-v);
    } else {
      RedisNonNegativeRoundTrip(v);
    }
  }

  lemma RedisNegativeRoundTrip(n: nat)
    requires 0 < n <= -I64_MIN
    ensures ParseRedisInteger("-" + NatToString(n)) == Some(0 - n)
  {
    var s := "-" + NatToString(n);
    NatToStringRoundTrip(n);
    assert s[1..] == NatToString(n);
  }

  lemma RedisNonNegativeRoundTrip(n: nat)
    requires n <= I64_MAX
    ensures ParseRedisInteger(NatToString(n)) == Some(n)
  {
    NatToStringRoundTrip(n);
    NatToStringFirstIsDigit(n);
  }

  // ---------------------------------------------------------------------------
  // ASCII case
  // ---------------------------------------------------------------------------

  function AsciiLower(c: char): char {
    if 'A' <= c <= 'Z' then (c as int + 32) as char else c
  }

  /** Rust's `a.eq_ignore_ascii_case(b)`. */
  predicate EqIgnoreAsciiCase(a: string, b: string) {
    |a| == |b| && forall i :: 0 <= i < |a| ==> AsciiLower(a[i]) == AsciiLower(b[i])
  }
}

=== FILE: user.dfy ===
/**
  The authenticated user of the API server: built from a bearer token and the
  identity provider's user-info answer, or from a Kubernetes self-subject
  review made with the same token. The provider, the cluster and the cache
  are inputs: their answers are given as values or as functions of the token.
*/
module User {
  import opened Outcomes
  import opened Headers
  import AuthHelper
  import ProxyResource
  import AuthConfig

  const INTERNAL_ERROR: nat := 500

  datatype User = User(username: string, email: string, groups: seq<string>)

  /** `is_in_group`. */
  function IsInGroup(u: User, group: string): (r: bool)
    ensures r <==> exists i :: 0 <= i < |u.groups| && u.groups[i] == group
  {
    group in u.groups
  }

  /** The claims of a user-info answer that the user is built from. */
  datatype Claims = Claims(email: Option<string>, preferredUsername: Option<string>, groups: seq<string>)

  /** How the user-info request can fail: the library's catch-all kind, or any of its other kinds. */
  datatype UserInfoFailure = OtherKind(message: string) | ProtocolKind(message: string)

  /** What `from_request` sees of the running server. */
  datatype Provider = Provider(
    stateAvailable: bool,
    oidcConf: Result<Unit, string>,
    userInfoRequest: Result<Unit, string>,
    userInfo: string -> Result<Claims, UserInfoFailure>)

  /** The user the claims describe: absent e-mail and username become "". */
  function UserOfClaims(c: Claims): (u: User)
    ensures u.email == c.email.GetOr("") && u.username == c.preferredUsername.GetOr("")
    ensures u.groups == c.groups
  {
    User(c.preferredUsername.GetOr(""), c.email.GetOr(""), c.groups)
  }

  /** The claims a provider reports for a user it knows in full. */
  function ClaimsOf(u: User): Claims {
    Claims(Some(u.email), Some(u.username), u.groups)
  }

  /** A provider that reports every field hands back the very user it describes. */
  lemma ClaimsRoundTrip(u: User)
    ensures UserOfClaims(ClaimsOf(u)) == u
  {
  }

  /** `User::from_request`. */
  function FromRequest(hs: seq<Header>, p: Provider): (r: Result<User, AuthHelper.ActixError>)
    ensures AuthHelper.ExtractAuthorizationHeader(hs).Err? ==>
      r == Err(AuthHelper.IntoActixError(AuthHelper.ExtractAuthorizationHeader(hs).error))
    ensures r.Err? && r.error.status != AuthHelper.UNAUTHORIZED ==> r.error.status == INTERNAL_ERROR
    ensures r.Ok? <==>
      AuthHelper.ExtractAuthorizationHeader(hs).Ok? && p.stateAvailable && p.oidcConf.Ok? &&
      p.userInfoRequest.Ok? && p.userInfo(AuthHelper.ExtractAuthorizationHeader(hs).value).Ok?
    ensures r.Ok? ==> r.value == UserOfClaims(p.userInfo(AuthHelper.ExtractAuthorizationHeader(hs).value).value)
    ensures AuthHelper.ExtractAuthorizationHeader(hs).Ok? && p.stateAvailable && p.oidcConf.Ok? && p.userInfoRequest.Ok? ==>
      var reply := p.userInfo(AuthHelper.ExtractAuthorizationHeader(hs).value);
      (reply.Err? && reply.error.OtherKind? ==> r == Err(AuthHelper.ActixError(INTERNAL_ERROR, "Invalid user info response"))) &&
      (reply.Err? && reply.error.ProtocolKind? ==> r == Err(AuthHelper.ActixError(AuthHelper.UNAUTHORIZED, "Invalid user info response")))
  {
    match AuthHelper.ExtractAuthorizationHeader(hs)
    case Err(e) => Err(AuthHelper.IntoActixError(e))
    case Ok(token) =>
      if !p.stateAvailable then Err(AuthHelper.ActixError(INTERNAL_ERROR, "Invalid OIDC handler"))
      else if p.oidcConf.Err? then Err(AuthHelper.ActixError(INTERNAL_ERROR, "Invalid OIDC config"))
      else if p.userInfoRequest.Err? then Err(AuthHelper.ActixError(INTERNAL_ERROR, "Invalid user info request"))
      else
        match p.userInfo(token)
        case Err(OtherKind(_)) => Err(AuthHelper.ActixError(INTERNAL_ERROR, "Invalid user info response"))
        case Err(ProtocolKind(_)) => Err(AuthHelper.ActixError(AuthHelper.UNAUTHORIZED, "Invalid user info response"))
        case Ok(claims) => Ok(UserOfClaims(claims))
  }

  /**
    The user-info request is made with the bearer token itself: a client that
    sends "Bearer " and the token the provider knows gets that user back.
  */
  lemma ProviderUserIsReturned(before: seq<Header>, token: string, after: seq<Header>, p: Provider, u: User)
    requires forall i :: 0 <= i < |token| ==> token[i] as int < 256 && Bytes.IsVisibleAscii(token[i] as int)
    requires forall j :: 0 <= j < |before| ==> before[j].name != "authorization"
    requires p.stateAvailable && p.oidcConf.Ok? && p.userInfoRequest.Ok?
    requires p.userInfo(token) == Ok(ClaimsOf(u))
    ensures FromRequest(before + [AuthHelper.BearerHeader(token)] + after, p) == Ok(u)
  {
    AuthHelper.ExtractBearerRoundTrip(before, token, after);
  }

  /** The parts of a `SelfSubjectReview` the user is built from. */
  datatype ReviewUserInfo = ReviewUserInfo(
    username: Option<string>,
    extra: Option<map<string, seq<string>>>,
    groups: Option<seq<string>>)
  datatype ReviewStatus = ReviewStatus(userInfo: Option<ReviewUserInfo>)
  datatype SelfSubjectReview = SelfSubjectReview(status: Option<ReviewStatus>)

  /** The e-mail of a review: the first value listed under the extra key "email", else "". */
  function ReviewEmail(extra: Option<map<string, seq<string>>>): (e: string)
    ensures extra.Some? && "email" in extra.value && |extra.value["email"]| > 0 ==> e == extra.value["email"][0]
    ensures !(extra.Some? && "email" in extra.value && |extra.value["email"]| > 0) ==> e == ""
  {
    if extra.Some? && "email" in extra.value && |extra.value["email"]| > 0 then extra.value["email"][0] else ""
  }

  /** The user a review describes: every missing part becomes "" or the empty list. */
  function UserOfReview(r: SelfSubjectReview): (u: User)
    ensures r.status.None? || r.status.value.userInfo.None? ==> u == User("", "", [])
    ensures r.status.Some? && r.status.value.userInfo.Some? ==>
      var info := r.status.value.userInfo.value;
      u == User(info.username.GetOr(""), ReviewEmail(info.extra), info.groups.GetOr([]))
  {
    var info := if r.status.Some? && r.status.value.userInfo.Some? then r.status.value.userInfo.value
                else ReviewUserInfo(None, None, None);
    User(info.username.GetOr(""), ReviewEmail(info.extra), info.groups.GetOr([]))
  }

  /** The review the cluster returns for a user it knows in full. */
  function ReviewOf(u: User): SelfSubjectReview {
    SelfSubjectReview(Some(ReviewStatus(Some(ReviewUserInfo(Some(u.username), Some(map["email" := [u.email]]), Some(u.groups))))))
  }

  lemma ReviewRoundTrip(u: User)
    ensures UserOfReview(ReviewOf(u)) == u
  {
  }

  /** What `auth_against_kubernetes` asks of the cluster, as functions of the token. */
  datatype Cluster = Cluster(
    makeClient: string -> Result<Unit, string>,
    review: string -> Result<SelfSubjectReview, string>)

  /** `auth_against_kubernetes`. */
  function AuthAgainstKubernetes(token: string, c: Cluster): (r: Result<Option<User>, string>)
    ensures c.makeClient(token).Err? ==> r == Err("Error while creating Kubernetes client: " + c.makeClient(token).error)
    ensures c.makeClient(token).Ok? && c.review(token).Err? ==> r == Err("Invalid SelfSubjectAccessReview response")
    ensures r.Ok? <==> c.makeClient(token).Ok? && c.review(token).Ok?
    ensures r.Ok? ==> r.value == Some(UserOfReview(c.review(token).value))
  {
    match c.makeClient(token)
    case Err(e) => Err("Error while creating Kubernetes client: " + e)
    case Ok(_) =>
      match c.review(token)
      case Err(_) => Err("Invalid SelfSubjectAccessReview response")
      case Ok(review) => Ok(Some(UserOfReview(review)))
  }

  /** The answer of `get_user_info`, or the `todo!` panic of the unimplemented provider check. */
  datatype UserInfoOutcome = Answer(result: Result<Option<User>, string>) | Unimplemented

  /** `get_user_info`: `lookup` is the cache read of the proxy "{ns}/{cluster}". */
  function GetUserInfo(lookup: Result<Option<ProxyResource.ProxyKubeApi>, string>, token: string, c: Cluster)
    : (r: UserInfoOutcome)
    ensures lookup.Err? ==> r == Answer(Err("Error fetching proxy from Redis: " + lookup.error))
    ensures lookup == Ok(None) ==> r == Answer(Err("Proxy not found"))
    ensures lookup.Ok? && lookup.value.Some? ==>
      var cfg := lookup.value.value.spec.authConfig;
      (cfg.None? ==> r == Answer(Ok(None))) &&
      (cfg.Some? ==> (r.Unimplemented? <==> cfg.value.validateAgainst == AuthConfig.ByOidcProvider)) &&
      (cfg.Some? && cfg.value.validateAgainst == AuthConfig.ByKubernetes ==> r == Answer(AuthAgainstKubernetes(token, c)))
  {
    match lookup
    case Err(e) => Answer(Err("Error fetching proxy from Redis: " + e))
    case Ok(None) => Answer(Err("Proxy not found"))
    case Ok(Some(proxy)) =>
      match proxy.spec.authConfig
      case None => Answer(Ok(None))
      case Some(cfg) =>
        match cfg.validateAgainst
        case ByOidcProvider => Unimplemented
        case ByKubernetes => Answer(AuthAgainstKubernetes(token, c))
  }

  /**
    A proxy checked against Kubernetes answers with a user exactly when the
    cluster accepts the token, and the user's groups are the review's.
  */
  lemma KubernetesUserHasReviewGroups(p: ProxyResource.ProxyKubeApi, token: string, c: Cluster, u: User, g: string)
    requires p.spec.authConfig.Some? && p.spec.authConfig.value.validateAgainst == AuthConfig.ByKubernetes
    requires c.makeClient(token).Ok? && c.review(token) == Ok(ReviewOf(u))
    ensures GetUserInfo(Ok(Some(p)), token, c) == Answer(Ok(Some(u)))
    ensures IsInGroup(u, g) <==> g in u.groups
  {
    ReviewRoundTrip(u);
  }
}

/**
  The older API server's user: the bearer header is checked, the token is
  not used, and every caller is the same placeholder user.
*/
module LegacyUser {
  import opened Outcomes
  import opened Strings
  import opened Headers
  import AuthHelper

  datatype LegacyUser = LegacyUser(username: string, groups: seq<string>)

  const DUMMY_USER: LegacyUser := LegacyUser("dummy_user", ["group1", "group2"])

  /** The older `User::from_request`. */
  function FromRequest(hs: seq<Header>): (r: Result<LegacyUser, AuthHelper.ActixError>)
    ensures r.Ok? ==> r.value == DUMMY_USER
    ensures r.Err? ==> r.error.status == AuthHelper.UNAUTHORIZED
    ensures AuthHelper.FirstNamed(hs, "authorization").None? <==> r == Err(AuthHelper.ActixError(AuthHelper.UNAUTHORIZED, "No Authorization header"))
  {
    match AuthHelper.FirstNamed(hs, "authorization")
    case None => Err(AuthHelper.ActixError(AuthHelper.UNAUTHORIZED, "No Authorization header"))
    case Some(i) =>
      match ValueText(hs[i].value)
      case None => Err(AuthHelper.ActixError(AuthHelper.UNAUTHORIZED, "Invalid Authorization header"))
      case Some(text) =>
        if IsPrefix(AuthHelper.BEARER_PREFIX, text) then Ok(DUMMY_USER)
        else Err(AuthHelper.ActixError(AuthHelper.UNAUTHORIZED, "Invalid Authorization header"))
  }

  /**
    The older check accepts exactly the headers the newer extraction accepts,
    and whatever the token, the user is the same.
  */
  lemma AcceptsWhatNewerExtracts(hs: seq<Header>)
    ensures FromRequest(hs).Ok? <==> AuthHelper.ExtractAuthorizationHeader(hs).Ok?
    ensures FromRequest(hs).Err? ==>
      (FromRequest(hs).error.message == "No Authorization header" || FromRequest(hs).error.message == "Invalid Authorization header")
  {
  }

  lemma TokenIsIgnored(t1: string, t2: string)
    requires forall i :: 0 <= i < |t1| ==> t1[i] as int < 256 && Bytes.IsVisibleAscii(t1[i] as int)
    requires forall i :: 0 <= i < |t2| ==> t2[i] as int < 256 && Bytes.IsVisibleAscii(t2[i] as int)
    ensures FromRequest([AuthHelper.BearerHeader(t1)]) == FromRequest([AuthHelper.BearerHeader(t2)]) == Ok(DUMMY_USER)
  {
    AuthHelper.ExtractBearerRoundTrip([], t1, []);
    AuthHelper.ExtractBearerRoundTrip([], t2, []);
    assert [] + [AuthHelper.BearerHeader(t1)] + [] == [AuthHelper.BearerHeader(t1)];
    assert [] + [AuthHelper.BearerHeader(t2)] + [] == [AuthHelper.BearerHeader(t2)];
    AcceptsWhatNewerExtracts([AuthHelper.BearerHeader(t1)]);
    AcceptsWhatNewerExtracts([AuthHelper.BearerHeader(t2)]);
  }
}

=== FILE: utf8.dfy ===
/**
  UTF-8 as Rust's `String::from_utf8` accepts it: exactly the well-formed byte
  sequences of RFC 3629 section 4 (no overlong forms, no surrogates, nothing
  above U+10FFFF), decoded to Unicode scalar values.
*/
module Utf8 {
  import opened Outcomes
  import opened Bytes

  predicate InRange(b: Byte, lo: int, hi: int) {
    lo <= b <= hi
  }

  predicate IsContinuation(b: Byte) {
    InRange(b, 0x80, 0xBF)
  }

  /**
    The first character of `bs` and the number of bytes it takes, when `bs`
    starts with a well-formed sequence (the byte ranges of RFC 3629 section 4).
  */
  function DecodeFirst(bs: seq<Byte>): (r: Option<(char, nat)>)
    ensures r.Some? ==> 1 <= r.value.1 <= 4 && r.value.1 <= |bs|
  {
    if |bs| == 0 then None
    else
      var b0 := bs[0] as int;
      if b0 < 0x80 then Some((b0 as char, 1))
      else if InRange(bs[0], 0xC2, 0xDF) then
        if |bs| >= 2 && IsContinuation(bs[1]) then
          Some((((b0 - 0xC0) * 64 + (bs[1] as int - 0x80)) as char, 2))
        else None
      else if InRange(bs[0], 0xE0, 0xEF) then
        var lo := if b0 == 0xE0 then 0xA0 else 0x80;
        var hi := if b0 == 0xED then 0x9F else 0xBF;
        if |bs| >= 3 && InRange(bs[1], lo, hi) && IsContinuation(bs[2]) then
          Some((((b0 - 0xE0) * 4096 + (bs[1] as int - 0x80) * 64 + (bs[2] as int - 0x80)) as char, 3))
        else None
      else if InRange(bs[0], 0xF0, 0xF4) then
        var lo := if b0 == 0xF0 then 0x90 else 0x80;
        var hi := if b0 == 0xF4 then 0x8F else 0xBF;
        if |bs| >= 4 && InRange(bs[1], lo, hi) && IsContinuation(bs[2]) && IsContinuation(bs[3]) then
          Some((((b0 - 0xF0) * 262144 + (bs[1] as int - 0x80) * 4096 + (bs[2] as int - 0x80) * 64
                 + (bs[3] as int - 0x80)) as char, 4))
        else None
      else None
  }

  /** Rust's `String::from_utf8`: the text, or `None` when the bytes are not well-formed. */
  function Decode(bs: seq<Byte>): Option<string>
    decreases |bs|
  {
    if |bs| == 0 then Some("")
    else
      match DecodeFirst(bs)
      case None => None
      case Some((c, n)) =>
        match Decode(bs[n..])
        case None => None
        case Some(rest) => Some([c] + rest)
  }

  /** The UTF-8 encoding of one character (RFC 3629 section 3). */
  function EncodeChar(c: char): (bs: seq<Byte>)
    ensures 1 <= |bs| <= 4
  {
    var cp := c as int;
    if cp < 0x80 then [cp]
    else if cp < 0x800 then [0xC0 + cp / 64, 0x80 + cp % 64]
    else if cp < 0x10000 then [0xE0 + cp / 4096, 0x80 + (cp / 64) % 64, 0x80 + cp % 64]
    else [0xF0 + cp / 262144, 0x80 + (cp / 4096) % 64, 0x80 + (cp / 64) % 64, 0x80 + cp % 64]
  }

  /** The UTF-8 encoding of a string (Rust's `s.as_bytes()`). */
  function Encode(s: string): seq<Byte>
    decreases |s|
  {
    if |s| == 0 then [] else EncodeChar(s[0]) + Encode(s[1..])
  }

  /** The encoding of one character is read back as that character, whatever follows. */
  lemma DecodeFirstOfEncodeChar(c: char, rest: seq<Byte>)
    ensures DecodeFirst(EncodeChar(c) + rest) == Some((c, |EncodeChar(c)|))
  {
    var cp := c as int;
    if cp < 0x80 {
    } else if cp < 0x800 {
      DecodeFirstTwo(c, rest);
    } else if cp < 0x10000 {
      DecodeFirstThree(c, rest);
    } else {
      DecodeFirstFour(c, rest);
    }
  }

  lemma DecodeFirstTwo(c: char, rest: seq<Byte>)
    requires 0x80 <= c as int < 0x800
    ensures DecodeFirst(EncodeChar(c) + rest) == Some((c, 2))
  {
    var cp := c as int;
    var bs := EncodeChar(c) + rest;
    assert bs[0] == 0xC0 + cp / 64 && bs[1] == 0x80 + cp % 64;
    assert (cp / 64) * 64 + cp % 64 == cp;
  }

  /** A code point below 0x10000 in three parts of 4, 6 and 6 bits. */
  lemma SplitThree(cp: int)
    requires 0 <= cp < 0x10000
    ensures 0 <= cp / 4096 < 16 && 0 <= (cp / 64) % 64 < 64 && 0 <= cp % 64 < 64
    ensures cp == (cp / 4096) * 4096 + ((cp / 64) % 64) * 64 + cp % 64
  {
    var q1, r1 := cp / 64, cp % 64;
    var q2, r2 := q1 / 64, q1 % 64;
    assert q1 == q2 * 64 + r2;
    DivMod4096(cp, q2, r2 * 64 + r1);
  }

  /** A code point in four parts of 3, 6, 6 and 6 bits. */
  lemma SplitFour(cp: int)
    requires 0 <= cp < 0x110000
    ensures 0 <= cp / 262144 < 5 && 0 <= (cp / 4096) % 64 < 64 && 0 <= (cp / 64) % 64 < 64 && 0 <= cp % 64 < 64
    ensures cp == (cp / 262144) * 262144 + ((cp / 4096) % 64) * 4096 + ((cp / 64) % 64) * 64 + cp % 64
  {
    var q1, r1 := cp / 64, cp % 64;
    var q2, r2 := q1 / 64, q1 % 64;
    var q3, r3 := q2 / 64, q2 % 64;
    assert q1 == q2 * 64 + r2;
    assert q2 == q3 * 64 + r3;
    DivMod4096(cp, q2, r2 * 64 + r1);
    DivMod262144(cp, q3, r3 * 4096 + r2 * 64 + r1);
  }

  lemma DecodeFirstThree(c: char, rest: seq<Byte>)
    requires 0x800 <= c as int < 0x10000
    ensures DecodeFirst(EncodeChar(c) + rest) == Some((c, 3))
  {
    var cp := c as int;
    var bs := EncodeChar(c) + rest;
    var x, y, z := cp / 4096, (cp / 64) % 64, cp % 64;
    SplitThree(cp);
    assert bs[0] == 0xE0 + x && bs[1] == 0x80 + y && bs[2] == 0x80 + z;
    assert x == 0 ==> y >= 0x20;
    assert x == 0xD ==> y < 0x20;
  }

  lemma DecodeFirstFour(c: char, rest: seq<Byte>)
    requires 0x10000 <= c as int
    ensures DecodeFirst(EncodeChar(c) + rest) == Some((c, 4))
  {
    var cp := c as int;
    var bs := EncodeChar(c) + rest;
    var w, x, y, z := cp / 262144, (cp / 4096) % 64, (cp / 64) % 64, cp % 64;
    SplitFour(cp);
    assert bs[0] == 0xF0 + w && bs[1] == 0x80 + x && bs[2] == 0x80 + y && bs[3] == 0x80 + z;
    assert w == 0 ==> x >= 0x10;
    assert w == 4 ==> x < 0x10;
  }

  lemma DivMod64(n: int, q: int, r: int)
    requires 0 <= r < 64 && n == q * 64 + r
    ensures n / 64 == q && n % 64 == r
  {
  }

  lemma DivMod4096(n: int, q: int, r: int)
    requires 0 <= r < 4096 && n == q * 4096 + r
    ensures n / 4096 == q
  {
  }

  lemma DivMod262144(n: int, q: int, r: int)
    requires 0 <= r < 262144 && n == q * 262144 + r
    ensures n / 262144 == q
  {
  }

  /** A character decoded from well-formed bytes re-encodes to exactly those bytes. */
  lemma EncodeCharOfDecodeFirst(bs: seq<Byte>)
    requires DecodeFirst(bs).Some?
    ensures EncodeChar(DecodeFirst(bs).value.0) == bs[..DecodeFirst(bs).value.1]
  {
    var n := DecodeFirst(bs).value.1;
    if n == 2 {
      EncodeCharOfTwo(bs);
    } else if n == 3 {
      EncodeCharOfThree(bs);
    } else if n == 4 {
      EncodeCharOfFour(bs);
    }
  }

  lemma EncodeCharOfTwo(bs: seq<Byte>)
    requires DecodeFirst(bs).Some? && DecodeFirst(bs).value.1 == 2
    ensures EncodeChar(DecodeFirst(bs).value.0) == bs[..2]
  {
    var cp := DecodeFirst(bs).value.0 as int;
    var b0, b1 := bs[0] as int, bs[1] as int;
    assert cp == (b0 - 0xC0) * 64 + (b1 - 0x80);
    DivMod64(cp, b0 - 0xC0, b1 - 0x80);
  }

  lemma EncodeCharOfThree(bs: seq<Byte>)
    requires DecodeFirst(bs).Some? && DecodeFirst(bs).value.1 == 3
    ensures EncodeChar(DecodeFirst(bs).value.0) == bs[..3]
  {
    var cp := DecodeFirst(bs).value.0 as int;
    var x, y, z := bs[0] as int - 0xE0, bs[1] as int - 0x80, bs[2] as int - 0x80;
    assert cp == x * 4096 + y * 64 + z;
    DivMod64(cp, x * 64 + y, z);
    DivMod64(cp / 64, x, y);
    DivMod4096(cp, x, y * 64 + z);
  }

  lemma EncodeCharOfFour(bs: seq<Byte>)
    requires DecodeFirst(bs).Some? && DecodeFirst(bs).value.1 == 4
    ensures EncodeChar(DecodeFirst(bs).value.0) == bs[..4]
  {
    var cp := DecodeFirst(bs).value.0 as int;
    var w, x, y, z := bs[0] as int - 0xF0, bs[1] as int - 0x80, bs[2] as int - 0x80, bs[3] as int - 0x80;
    assert cp == w * 262144 + x * 4096 + y * 64 + z;
    DivMod64(cp, w * 4096 + x * 64 + y, z);
    DivMod64(cp / 64, w * 64 + x, y);
    DivMod4096(cp, w * 64 + x, y * 64 + z);
    DivMod64(cp / 4096, w, x);
    DivMod262144(cp, w, x * 4096 + y * 64 + z);
  }

  /** Decoding the encoding of any text gives the text back. */
  lemma {:induction false} DecodeEncode(s: string)
    ensures Decode(Encode(s)) == Some(s)
    decreases |s|
  {
    if |s| > 0 {
      DecodeEncode(s[1..]);
      DecodeEncodeStep(s);
    }
  }

  /** The step of the induction: a character in front of text that round-trips. */
  lemma DecodeEncodeStep(s: string)
    requires |s| > 0 && Decode(Encode(s[1..])) == Some(s[1..])
    ensures Decode(Encode(s)) == Some(s)
  {
    var head := EncodeChar(s[0]);
    var tail := Encode(s[1..]);
    EncodeCons(s);
    DecodeFirstOfEncodeChar(s[0], tail);
    SplitAt(head, tail);
    DecodeStep(head + tail, s[0], |head|, s[1..]);
    assert [s[0]] + s[1..] == s;
  }

  /** One step of decoding: the first character, then the decoded rest. */
  lemma DecodeCons(bs: seq<Byte>)
    requires |bs| > 0 && Decode(bs).Some?
    ensures DecodeFirst(bs).Some?
    ensures Decode(bs[DecodeFirst(bs).value.1..]).Some?
    ensures Decode(bs).value == [DecodeFirst(bs).value.0] + Decode(bs[DecodeFirst(bs).value.1..]).value
  {
  }

  /** One step of encoding: the first character's bytes, then the encoded rest. */
  lemma EncodeCons(s: string)
    requires |s| > 0
    ensures Encode(s) == EncodeChar(s[0]) + Encode(s[1..])
  {
  }

  /** Whatever bytes decode successfully are exactly the encoding of the decoded text. */
  lemma {:induction false} EncodeDecode(bs: seq<Byte>)
    requires Decode(bs).Some?
    ensures Encode(Decode(bs).value) == bs
    decreases |bs|
  {
    if |bs| > 0 {
      DecodeCons(bs);
      EncodeDecode(bs[DecodeFirst(bs).value.1..]);
      EncodeDecodeStep(bs);
    }
  }

  /** The step of the induction: when the rest round-trips, so does the whole. */
  lemma EncodeDecodeStep(bs: seq<Byte>)
    requires |bs| > 0 && DecodeFirst(bs).Some?
    requires Decode(bs[DecodeFirst(bs).value.1..]).Some?
    requires Encode(Decode(bs[DecodeFirst(bs).value.1..]).value) == bs[DecodeFirst(bs).value.1..]
    ensures Decode(bs).Some? && Encode(Decode(bs).value) == bs
  {
    var c, n := DecodeFirst(bs).value.0, DecodeFirst(bs).value.1;
    var tail := Decode(bs[n..]).value;
    var s := [c] + tail;
    DecodeStep(bs, c, n, tail);
    HeadTail(c, tail);
    EncodeCons(s);
    EncodeCharOfDecodeFirst(bs);
    SplitAt(bs[..n], bs[n..]);
    TakeDrop(bs, n);
  }

  lemma DecodeStep(bs: seq<Byte>, c: char, n: nat, tail: string)
    requires |bs| > 0 && DecodeFirst(bs) == Some((c, n)) && Decode(bs[n..]) == Some(tail)
    ensures Decode(bs) == Some([c] + tail)
  {
  }

  lemma HeadTail(c: char, tail: string)
    ensures ([c] + tail)[0] == c && ([c] + tail)[1..] == tail && |[c] + tail| > 0
  {
  }

  lemma TakeDrop(bs: seq<Byte>, n: nat)
    requires n <= |bs|
    ensures bs[..n] + bs[n..] == bs
  {
  }

  /** ASCII text is encoded one byte per character. */
  lemma {:induction false} EncodeAscii(s: string)
    requires forall i :: 0 <= i < |s| ==> s[i] as int < 0x80
    ensures Encode(s) == CharsToBytes(s)
    decreases |s|
  {
    if |s| > 0 {
      EncodeAscii(s[1..]);
    }
  }
}

=== FILE: verbose_level.dfy ===
/**
  The command-line tool's verbosity setting. Each level carries an explicit
  `u8` discriminant, which is also its serialised form and what the derived
  ordering compares. It converts one-to-one into the tracing library's
  `Level` and `LevelFilter`.
*/
module Verbosity {
  import opened Outcomes
  import opened Strings

  type U8 = n: int | 0 <= n < 0x100

  datatype VerboseLevel = ERROR | WARN | INFO | DEBUG | TRACE

  /** The `#[repr(u8)]` discriminant. */
  function Repr(l: VerboseLevel): (n: U8)
    ensures n <= 4
  {
    match l
    case ERROR => 4
    case WARN => 3
    case INFO => 2
    case DEBUG => 1
    case TRACE => 0
  }

  /** `Deserialize_repr`: a number that names no level is rejected. */
  function FromRepr(n: int): (r: Option<VerboseLevel>)
    ensures r.Some? <==> 0 <= n <= 4
  {
    if n == 4 then Some(ERROR)
    else if n == 3 then Some(WARN)
    else if n == 2 then Some(INFO)
    else if n == 1 then Some(DEBUG)
    else if n == 0 then Some(TRACE)
    else None
  }

  /** Reading back a level's discriminant gives the level. */
  lemma ReprRoundTrip(l: VerboseLevel)
    ensures FromRepr(Repr(l)) == Some(l)
  {
  }

  /** Every accepted number is the discriminant of what it is read as. */
  lemma FromReprIsCanonical(n: int)
    requires FromRepr(n).Some?
    ensures Repr(FromRepr(n).value) == n
  {
  }

  /** `Serialize_repr` to JSON: the discriminant as a decimal number. */
  function ToJson(l: VerboseLevel): (s: string)
    ensures |s| == 1 && IsDigit(s[0])
  {
    [DigitChar(Repr(l))]
  }

  /**
    A JSON number read as an unsigned integer: decimal digits without a
    leading zero, unless the number is 0 itself. A sign, a fraction or an
    exponent makes the number a float or a negative, which a `u8` refuses.
  */
  function JsonNat(s: string): (r: Option<nat>)
    ensures r.Some? <==> |s| > 0 && AllDigits(s) && (s[0] != '0' || |s| == 1)
    ensures r.Some? ==> ParseNat(s) == r
  {
    if |s| > 0 && AllDigits(s) && (s[0] != '0' || |s| == 1) then ParseNat(s) else None
  }

  /** A digit string that does not start with '0' has a value of at least 10 once it has two digits. */
  lemma {:induction false} NoLeadingZeroValue(s: string)
    requires |s| > 0 && AllDigits(s) && s[0] != '0'
    ensures DigitsValue(s) >= 1
    ensures |s| >= 2 ==> DigitsValue(s) >= 10
    decreases |s|
  {
    if |s| == 1 {
      assert s[..0] == "";
    } else {
      var front := s[..|s| - 1];
      assert front[0] == s[0];
      assert AllDigits(front);
      NoLeadingZeroValue(front);
    }
  }

  /**
    `Deserialize_repr` from JSON: the number must be a JSON unsigned integer
    that is some level's discriminant, so exactly the one-digit texts "0" to
    "4" are read, each as the level it is the discriminant of.
  */
  function FromJson(s: string): (r: Option<VerboseLevel>)
    ensures r.Some? <==> |s| == 1 && '0' <= s[0] <= '4'
    ensures r.Some? ==> Repr(r.value) == DigitValue(s[0]) && ToJson(r.value) == s
  {
    SmallJsonNat(s);
    match JsonNat(s)
    case None => None
    case Some(n) => FromRepr(n)
  }

  /** The JSON unsigned integers up to 4 are exactly the one-digit texts "0" to "4". */
  lemma SmallJsonNat(s: string)
    ensures JsonNat(s).Some? && JsonNat(s).value <= 4 <==> |s| == 1 && '0' <= s[0] <= '4'
    ensures |s| == 1 && '0' <= s[0] <= '4' ==>
      JsonNat(s) == Some(DigitValue(s[0])) && DigitChar(DigitValue(s[0])) == s[0]
  {
    if |s| > 0 && AllDigits(s) && s[0] != '0' {
      NoLeadingZeroValue(s);
    }
    if |s| == 1 && '0' <= s[0] <= '4' {
      assert AllDigits(s);
      assert s[..|s| - 1] == "";
      assert DigitsValue(s) == DigitValue(s[0]);
      DigitCharValue(DigitValue(s[0]));
    }
  }

  /** Serialising a level to JSON and reading it back gives the level. */
  lemma JsonRoundTrip(l: VerboseLevel)
    ensures FromJson(ToJson(l)) == Some(l)
  {
    DigitCharValue(Repr(l));
    assert ToJson(l)[..0] == "";
  }

  /** The derived `PartialOrd`: levels compare by discriminant. */
  predicate Below(a: VerboseLevel, b: VerboseLevel) {
    Repr(a) < Repr(b)
  }

  /** The derived order is total and strict: distinct levels are always comparable. */
  lemma OrderIsTotal(a: VerboseLevel, b: VerboseLevel)
    ensures a == b || Below(a, b) || Below(b, a)
    ensures !(Below(a, b) && Below(b, a))
  {
  }

  /** The tracing library's level and level filter, as far as the conversions reach them. */
  datatype Level = LevelError | LevelWarn | LevelInfo | LevelDebug | LevelTrace
  datatype LevelFilter = FilterOff | FilterError | FilterWarn | FilterInfo | FilterDebug | FilterTrace

  /**
    `From<VerboseLevel> for Level`: the tracing level whose own filter is the
    one `ToLevelFilter` gives, so the two conversions name the same severity.
  */
  function ToLevel(l: VerboseLevel): (v: Level)
    ensures FilterOfLevel(v) == ToLevelFilter(l)
  {
    match l
    case ERROR => LevelError
    case WARN => LevelWarn
    case INFO => LevelInfo
    case DEBUG => LevelDebug
    case TRACE => LevelTrace
  }

  /** `From<VerboseLevel> for LevelFilter`: never `OFF`. */
  function ToLevelFilter(l: VerboseLevel): (f: LevelFilter)
    ensures f != FilterOff
  {
    match l
    case ERROR => FilterError
    case WARN => FilterWarn
    case INFO => FilterInfo
    case DEBUG => FilterDebug
    case TRACE => FilterTrace
  }

  /** The tracing library's own `LevelFilter::from_level`. */
  function FilterOfLevel(v: Level): LevelFilter {
    match v
    case LevelError => FilterError
    case LevelWarn => FilterWarn
    case LevelInfo => FilterInfo
    case LevelDebug => FilterDebug
    case LevelTrace => FilterTrace
  }

  /** The two conversions agree: the filter is the one for the converted level. */
  lemma FilterAgreesWithLevel(l: VerboseLevel)
    ensures ToLevelFilter(l) == FilterOfLevel(ToLevel(l))
  {
  }

  /** Distinct levels convert to distinct tracing levels. */
  lemma ToLevelInjective(a: VerboseLevel, b: VerboseLevel)
    requires ToLevel(a) == ToLevel(b)
    ensures a == b
  {
  }

  /** The displayed names, in the order of the discriminants. */
  const LEVEL_NAMES: seq<string> := ["TRACE", "DEBUG", "INFO", "WARN", "ERROR"]

  /** The `Display` text, which the `Debug` implementation repeats word for word. */
  function Name(l: VerboseLevel): (s: string)
    ensures |s| >= 4
    ensures s == LEVEL_NAMES[Repr(l)]
  {
    match l
    case ERROR => "ERROR"
    case WARN => "WARN"
    case INFO => "INFO"
    case DEBUG => "DEBUG"
    case TRACE => "TRACE"
  }

  /** The level named by a text, as the inverse of `Name`. */
  function FromName(s: string): (r: Option<VerboseLevel>)
    ensures r.Some? ==> Name(r.value) == s
  {
    if s == "ERROR" then Some(ERROR)
    else if s == "WARN" then Some(WARN)
    else if s == "INFO" then Some(INFO)
    else if s == "DEBUG" then Some(DEBUG)
    else if s == "TRACE" then Some(TRACE)
    else None
  }

  /** Every level's name identifies it. */
  lemma NameRoundTrip(l: VerboseLevel)
    ensures FromName(Name(l)) == Some(l)
  {
  }
}

=== FILE: visible_cluster.dfy ===
/** The dashboard's view of one proxy: what a signed-in user is shown in the cluster list. */
module VisibleCluster {
  import opened Outcomes
  import ProxyResource
  import Status

  datatype VisibleCluster = VisibleCluster(
    enabled: bool,
    namespace: string,
    name: string,
    ssoEnabled: bool,
    isReachable: Option<bool>)

  /** `VisibleCluster::new`. */
  function New(enabled: bool, namespace: string, name: string, ssoEnabled: bool, isReachable: Option<bool>)
    : (v: VisibleCluster)
    ensures v.enabled == enabled && v.namespace == namespace && v.name == name
    ensures v.ssoEnabled == ssoEnabled && v.isReachable == isReachable
  {
    VisibleCluster(enabled, namespace, name, ssoEnabled, isReachable)
  }

  /** `From<ProxyKubeApi>`. */
  function FromProxy(p: ProxyResource.ProxyKubeApi): (v: VisibleCluster)
    ensures v.enabled == p.spec.enabled
    ensures v.namespace == p.metadata.namespace.GetOr("") && v.name == p.metadata.name.GetOr("")
    ensures v.ssoEnabled <==> p.spec.authConfig.Some? && p.spec.authConfig.value.oidcProvider.enabled
    ensures v.isReachable.Some?
    ensures v.isReachable.value <==> p.status.Some? && p.status.value.exposed
  {
    var status := if p.status.Some? then p.status.value else Status.DefaultStatus();
    New(p.spec.enabled, p.metadata.namespace.GetOr(""), p.metadata.name.GetOr(""),
        p.spec.authConfig.Some? && p.spec.authConfig.value.oidcProvider.enabled,
        Some(status.exposed))
  }

  /**
    A proxy the controller has published as exposed is listed as reachable,
    under the namespace and name its cache key is built from.
  */
  lemma PublishedProxyListsReachable(p: ProxyResource.ProxyKubeApi, path: string)
    requires p.metadata.namespace.Some? && p.metadata.name.Some?
    requires p.status == Some(Status.NewStatus(true, Some(path), None))
    ensures FromProxy(p).isReachable == Some(true)
    ensures ProxyResource.ToIdentifier(p) == ProxyResource.IDENTIFIER_PREFIX + FromProxy(p).namespace + "/" + FromProxy(p).name
  {
  }
}
